=== FILE: README.md ===
# mads_plugin in Dafny

A model of the plugin layer of MADS (Multi-Agent Distributed System): the
typed Source / Filter / Sink plugin contract, the plugins built on it, and
the two host programs that load a plugin and run it once.

What the model covers:

- `Common` (common.dfy): the five-valued `return_type` status and the
  `Result` wrapper that stands for an exception escaping a call.
- `JsonValues` (json.dfy): a JSON datatype with the nlohmann accessors the
  plugins use, including their side effects. The non-const `operator[]`
  inserts null members. The conversions throw on a type mismatch.
- `JsonMergePatch` (merge_patch.dfy): JSON Merge Patch as section 2 of
  RFC 7396 defines it.
- `Configuration` (configuration.dfy): the "seed defaults, then merge-patch
  the caller's parameters" step every plugin's `set_params` performs.
- `Roles` (roles.dfy): the three role base classes as state records. This
  covers their constructors, the `agent_id` binding of `set_params` with
  each role's fallback, their version and server-name constants, and the
  driver records the `INSTALL_*_DRIVER` macros register.
- One module per plugin, each operation a pure step function from state to
  a status, a new state and an output:
  - `RunningAverage`, `Spawner`, `Worker`, `Twice` and `Echo`;
  - `TemplateFilter` and `TemplateSink`;
  - `SerialReader`, `RestWay`, `RestWayJobs` (restway2), `Clock`, `Random`
    and `Webcam`.
- `SerialPort` (serialport.dfy): both `readLine` overloads over a sequence
  of read results (a byte, a zero-byte read, a failure), both `write`
  overloads, and `connect`'s baud-rate and stop-bit selection.
- `Datastore` (datastore.dfy): name normalisation, path resolution, the
  load fallback and `operator[]`.
- `Loader` (loader.dfy): `main` of `load_source` and `load_sink`, covering
  usage, driver selection, parameters, `info` and one cycle. The parameters
  are modelled as written, and also as the usage line intends them.
- `Text` (text.dfy): the decimal and zero-padded printing the plugins need.

The environment enters as parameters. These are:

- clock readings, random draws and UUID text;
- the REST server (a function from requests to responses);
- the JSON parser (a function from text to a document or a failure);
- file contents and the outcomes of system calls.

Every operation is deterministic given its parameters.

## Model

| member | source | states |
|---|---|---|
| Common.Ordinal | src/common.hpp:72-78 | `success` is 0 and every status's underlying value is below 5 |
| Common.FromOrdinal | src/common.hpp:72-78 | an integer names a status exactly when it lies in 0..4 |
| Common.OrdinalRoundTrip | src/common.hpp:72-78 | value and status convert back and forth without loss, and no two statuses share a value |
| Common.SeverityOrder | src/common.hpp:72-78 | the statuses are numbered success 0, retry 1, warning 2, error 3, critical 4, so every status lies between success and critical |
| Roles.RoleIdentities | src/source.hpp:121-122 | each role declares version 2, not the protocol version 7 of common.hpp:4, and the three server names differ |
| Roles.NewSource | src/source.hpp:45 | a new source has error "No error", blob format "none", agent id "undefined" and null parameters |
| Roles.NewFilter | src/filter.hpp:47 | a new filter has error "No error", dummy off, an empty agent id and null parameters |
| Roles.NewSink | src/sink.hpp:45 | a new sink has error "No error" and dummy off |
| Roles.BindAgentId | src/source.hpp:82-89 | the stored parameters gain a null `agent_id` only when they lack one (a null argument becomes `{"agent_id": null}`); the agent id is the member's string, or the fallback when the read or the string conversion throws |
| Roles.BoundObject | src/source.hpp:83-85 | an object argument is stored with `"agent_id": null` added exactly when it had no agent id |
| Roles.Tagged | src/plugin/clock.cpp:56 | the output gains `agent_id` exactly when the agent id is not empty, and no other member changes |
| Roles.SourceSetParams | src/source.hpp:82-89 | the source stores the argument, takes its string `agent_id` or "undefined", and keeps its error and blob format |
| Roles.FilterSetParams | src/filter.hpp:91-98 | the filter does the same with the empty string as fallback, keeping error and dummy |
| Roles.SinkSetParams | src/sink.hpp:78 | the sink's `set_params` changes nothing |
| Roles.SinkErrorNeverChanges | src/sink.hpp:114-115 | after any number of `set_params` calls a new sink's error is still "No error" |
| Roles.SinkSetParamsAllKeepsError | src/sink.hpp:78 | any run of base `set_params` calls leaves a sink as it was |
| Roles.SourceDriver | src/source.hpp:136-141 | a source driver serves "SourceServer" under the given name and version |
| Roles.FilterDriver | src/filter.hpp:146-151 | a filter driver serves "FilterServer" under the given name and version |
| Roles.SinkDriver | src/sink.hpp:123-128 | a sink driver serves "SinkServer" under the given name and version |
| Roles.InstallSourceDriver | src/common.hpp:21-29 | registering a source plugin appends exactly one driver, for "SourceServer" with version 2, and keeps the earlier ones |
| Roles.InstallFilterDriver | src/common.hpp:40-48 | registering a filter plugin appends exactly one "FilterServer" driver with version 2 |
| Roles.InstallSinkDriver | src/common.hpp:59-67 | registering a sink plugin appends exactly one "SinkServer" driver with version 2 |
| Roles.DriversOf | src/main/load_source.cpp:38 | the drivers of a server are exactly the registered ones serving it |
| Roles.DriversOfAppend | src/main/load_source.cpp:38 | the drivers of a server in a concatenated registry are those of each part, in order |
| Roles.InstallSourceAddsOneSource | src/common.hpp:21-29 | installing a source adds exactly its driver to the sources a host enumerates and leaves the filter and sink pools unchanged |
| Roles.InstallFilterAddsOneFilter | src/common.hpp:40-48 | installing a filter adds exactly its driver to the filter pool and nothing to the others |
| Roles.InstallSinkAddsOneSink | src/common.hpp:59-67 | installing a sink adds exactly its driver to the sink pool and nothing to the others |
| Twice.New | src/plugin/twice.cpp:19-21 | a new filter holds no data and the multiplier 2 |
| Twice.SetParams | src/plugin/twice.cpp:43-46 | the parameter record is copied in; the data is untouched |
| Twice.LoadData | src/plugin/twice.cpp:30-33 | loading replaces the stored vector and succeeds |
| Twice.Process | src/plugin/twice.cpp:35-41 | the output has one element per stored element, each multiplied by `times`, and the call succeeds |
| Twice.ProcessBeforeLoad | src/plugin/twice.cpp:35-41 | a fresh filter processes to an empty vector |
| Twice.ScalingComposes | src/plugin/twice.cpp:35-41 | scaling by a, loading the result and scaling by b scales by a·b |
| Twice.Info | src/plugin/twice.cpp:48-51 | info has the single key "times", whose text reads back as the multiplier |
| Echo.New | src/plugin/echoj.cpp:25-51 | a new filter holds null data and null parameters |
| Echo.LoadData | src/plugin/echoj.cpp:28-31 | the input is stored verbatim |
| Echo.SetParams | src/plugin/echoj.cpp:39-42 | the plugin keeps the argument itself, while the base stores it with the agent id bound |
| Echo.Process | src/plugin/echoj.cpp:32-37 | the output gains `data`, `params` and `agent_id` with the stored values and keeps its other members; a non-object output throws |
| Echo.ProcessIsIdempotent | src/plugin/echoj.cpp:32-37 | processing the output of a `process` again leaves it unchanged |
| Echo.ProcessEchoesLastCalls | src/plugin/echoj.cpp:28-42 | after `set_params(p)` and `load_data(d)`, `process` echoes exactly d, p and the agent id p names |
| Worker.New | src/plugin/worker.cpp:30-75 | a new worker has an empty job identifier |
| Worker.LoadData | src/plugin/worker.cpp:36-44 | input without `data` is an error with "No data field in input" that leaves period and id alone; otherwise `data.period` (default 100) and `data.id` (default empty) are stored, and a non-object `data` or a mistyped member throws |
| Worker.LoadDefaults | src/plugin/worker.cpp:41-42 | an empty `data` object loads 100 ms and an empty identifier |
| Worker.Process | src/plugin/worker.cpp:46-61 | a negative period is an error with "Invalid sleep period" on a cleared output; otherwise the output is exactly the period, the measured time, the id and the non-empty agent id |
| Worker.ProcessReportsLoadedJob | src/plugin/worker.cpp:36-61 | a loaded non-negative period and id are what the next `process` reports, whatever the output held before |
| Worker.SetParams | src/plugin/worker.cpp:63-66 | the period and id are untouched and the agent id is the one the base extracts |
| Worker.ConfigurationIsCallerObject | src/plugin/worker.cpp:63-66 | the configuration is the caller's object with its null members dropped, plus the null agent id the base inserted when there was none; a non-object argument is kept as it is |
| Clock.New | src/plugin/clock.cpp:27-69 | a new clock holds null parameters |
| Clock.SetParams | src/plugin/clock.cpp:60-63 | the plugin keeps the caller's object, while the base binds the agent id |
| Clock.MillisField | src/plugin/clock.cpp:43 | milliseconds in 0..999 print as exactly three digits that read back as the milliseconds |
| Clock.Iso8601 | src/plugin/clock.cpp:31-45 | for milliseconds in 0..999 the time, the dot, the three digits and the zone sit at fixed positions and each can be cut back out of the text |
| Clock.MillisecondsAreThreeDigits | src/plugin/clock.cpp:37-44 | for milliseconds in 0..999 the field after the dot is exactly three digits that read back as the milliseconds, so the timestamp is four characters longer than date-time and zone together |
| Clock.Stamp | src/plugin/clock.cpp:52-56 | the cleared output holds exactly `time_raw`, `time`, `params` and the non-empty agent id; a non-object output throws |
| Clock.GetOutput | src/plugin/clock.cpp:49-58 | the output reports the ticks, the ISO 8601 text and the stored parameters, and the call succeeds |
| Clock.OutputEchoesParams | src/plugin/clock.cpp:49-63 | `params` in the output is the last `set_params` argument, and `agent_id` is missing only when that argument named the empty string as agent id |
| Text.NatToString | src/plugin/twice.cpp:50 | `to_string` of a non-negative number is a non-empty digit string without a leading zero |
| Text.IntToString | src/plugin/twice.cpp:50 | `to_string` of a negative number is a minus sign before its digits |
| Text.NatToStringValue | src/plugin/twice.cpp:50 | the digits printed for a number read back as that number |
| Text.IntToStringRoundTrip | src/plugin/twice.cpp:50 | reading back what `to_string` printed gives the integer printed |
| Text.IntToStringInjective | src/plugin/twice.cpp:50 | distinct integers print differently |
| Text.PadLeft | src/plugin/clock.cpp:43 | `setw(w) << setfill(c)` right-aligns the text in at least w characters, filling the left with c |
| Text.LeadingZeros | src/plugin/clock.cpp:43 | zeros before a digit string do not change its value |
| Text.ThreeDigits | src/plugin/clock.cpp:43 | a number below 1000 padded to width 3 with '0' is three digits that read back as the number |
| Random.New | src/plugin/random.cpp:27-57 | a new source has the base's initial state |
| Random.SetParams | src/plugin/random.cpp:41-48 | an integer `number_of_elements` becomes the count; anything the read or the `int` conversion rejects gives 10; the agent id is the base's |
| Random.GetOutput | src/plugin/random.cpp:31-39 | the cleared output holds exactly `result`, with one number per draw in order, and the agent id under `agent_id` and `_agent_id`; a non-object output throws |
| Random.ConfiguredCountIsReported | src/plugin/random.cpp:32-48 | a configured count n in `int` range gives n values in every report |
| Random.DefaultIsTen | src/plugin/random.cpp:43-47 | without `number_of_elements` the count is 10 |
| TemplateSink.New | src/plugin/template_sink.cpp:29-67 | a new sink holds null parameters in a parameter field of its own (the source uses a `_params` the sink never declares) |
| TemplateSink.LoadData | src/plugin/template_sink.cpp:37-40 | any input is accepted and changes nothing |
| TemplateSink.SetParams | src/plugin/template_sink.cpp:42-54 | seeding the sink's own parameter field (standing in for the undeclared `_params`) succeeds exactly when it holds null or an object, and the base sink is untouched |
| TemplateSink.CallerMembersWin | src/plugin/template_sink.cpp:48-53 | in the sink's own parameter field, on a fresh sink a caller's `some_field` is merge-patched over the default, and any other non-null member is added as itself when it is not an object |
| TemplateSink.DefaultKept | src/plugin/template_sink.cpp:48-53 | in the sink's own parameter field, a caller that leaves out `some_field` gets "default_value" |
| TemplateSink.SetParamsTwice | src/plugin/template_sink.cpp:42-54 | applying the same parameters a second time changes nothing |
| TemplateSink.Info | src/plugin/template_sink.cpp:57-62 | info is empty |
| TemplateFilter.New | src/plugin/template_filter.cpp:28-78 | a new filter is in the base's initial state |
| TemplateFilter.LoadData | src/plugin/template_filter.cpp:36-39 | any input is accepted and changes nothing |
| TemplateFilter.Process | src/plugin/template_filter.cpp:43-52 | the output is cleared and holds only the agent id, when that is not empty; writing it into a cleared non-object throws |
| TemplateFilter.SetParams | src/plugin/template_filter.cpp:54-66 | seeding succeeds exactly for a null or object argument; the agent id is the base's and the error is kept |
| TemplateFilter.SomeFieldRule | src/plugin/template_filter.cpp:60-65 | `some_field` left out keeps "default_value", a null deletes it, and a scalar or array replaces it |
| TemplateFilter.Info | src/plugin/template_filter.cpp:69-74 | info is empty |
| JsonMergePatch.MergePatch | src/plugin/worker.cpp:65 | a non-object patch replaces the target, and an object patch always leaves an object |
| JsonMergePatch.StripNulls | src/plugin/worker.cpp:65 | removing null members keeps a value's kind and leaves non-objects unchanged |
| JsonMergePatch.MemberwiseEffect | src/plugin/worker.cpp:65 | per member, an object patch deletes what it maps to null, merges every other member it names into the target's, and keeps every member it does not name (section 2 of RFC 7396) |
| JsonMergePatch.EmptyPatchIsIdentity | src/plugin/worker.cpp:65 | patching an object with `{}` leaves it unchanged |
| JsonMergePatch.NullDeletes | src/plugin/template_filter.cpp:65 | a null member of the patch removes that member, whether or not the target had it |
| JsonMergePatch.ScalarReplaces | src/plugin/template_filter.cpp:65 | a scalar or array member of the patch replaces the target's member wholesale |
| JsonMergePatch.PatchOntoNull | src/plugin/worker.cpp:65 | merging into null gives the patch with its nulls removed |
| JsonMergePatch.PatchOntoSelf | src/plugin/worker.cpp:65 | patching a value with itself also just removes its nulls |
| JsonMergePatch.Idempotent | src/plugin/worker.cpp:65 | applying the same patch twice is the same as applying it once |
| JsonMergePatch.AssignmentsMap | src/plugin/template_filter.cpp:60 | after a run of `params[k] = v` assignments the last assignment to a key wins |
| JsonMergePatch.PutAllOntoObject | src/plugin/template_filter.cpp:60 | seeding an object overrides its members with the assignments, later ones winning |
| JsonMergePatch.PutAllIsUnion | src/plugin/template_filter.cpp:60 | seeding null or an object gives an object of its members overridden by the defaults, and seeding anything else throws |
| JsonMergePatch.SeededPatch | src/plugin/template_filter.cpp:57-65 | patching an object that already holds the patch's own members and some extra members gives the patched defaults plus those extra members |
| Configuration.SeedThenPatch | src/plugin/template_sink.cpp:48-53 | seeding then patching succeeds exactly when the stored parameters are null or an object |
| Configuration.FirstConfiguration | src/plugin/template_sink.cpp:48-53 | a plugin with still-null parameters ends its first `set_params` with the caller's object merge-patched onto its defaults |
| Configuration.BaseThenSeedThenPatch | src/plugin/template_filter.cpp:57-65 | after the base call, an object argument gives its merge patch onto the defaults plus the null `agent_id` the base inserted; a null argument gives null; anything else throws |
| Configuration.SeededMember | src/plugin/template_filter.cpp:57-65 | member by member: left out keeps the default, null deletes, and any other value is merge-patched onto the default |
| Configuration.ReapplyingIsStable | src/plugin/template_sink.cpp:42-54 | calling `set_params` again with the same argument keeps the configuration the first call produced |
| RestWay.New | src/plugin/restway.cpp:29-64 | a new source holds null parameters and no response |
| RestWay.SetParams | src/plugin/restway.cpp:49-52 | seeding `url` succeeds exactly when the stored parameters are null or an object; the base state and the response are untouched |
| RestWay.FirstConfiguration | src/plugin/restway.cpp:49-52 | the first configuration is `{"url": "http://localhost:5443/"}` merge-patched with the caller's object |
| RestWay.GetOutput | src/plugin/restway.cpp:33-47 | a successful call outputs exactly `url` and `result`, records the response to the URL it put in `url`, and returns success |
| RestWay.RequestedUrl | src/plugin/restway.cpp:34-46 | the requested URL is url + "?page=" + page + "&size=" + size, and the call succeeds whatever the response code, exactly when the body parses |
| RestWay.MissingPagingBecomesNull | src/plugin/restway.cpp:35 | missing `page` and `size` are written into the URL as serialised nulls and stay behind in the configuration as null members |
| RestWay.Describe | src/plugin/restway.cpp:54-59 | the listing succeeds exactly when `url` and `description` are both strings, lists exactly those two, and leaves the document as it was |
| RestWay.Info | src/plugin/restway.cpp:54-59 | info succeeds exactly when `url` and `description` are both strings, lists exactly those two, and leaves the state as it was |
| RestWay.InfoNeedsDescription | src/plugin/restway.cpp:48-59 | nothing supplies a default `description`, so a caller's object without one configures a source whose `info` throws |
| RestWay.DescribedInfo | src/plugin/restway.cpp:48-59 | a caller who gives only a description gets the default URL and that description listed |
| JsonValues.Clear | src/plugin/clock.cpp:52 | `clear()` keeps the value's type and empties it; only null and objects clear to null or `{}` |
| JsonValues.Put | src/plugin/clock.cpp:53-56 | assigning `j[k] = v` succeeds exactly on null or an object, sets k to v and keeps every other member |
| JsonValues.Index | src/source.hpp:85 | reading `j[k]` through the non-const `operator[]` succeeds exactly on null or an object, returns the member or inserts a null one, and otherwise throws |
| JsonValues.ElementValue | src/plugin/restway2.cpp:110 | `j[i]` yields the array element, or null where null or a short array is padded, and throws on anything else |
| JsonValues.SetIn | src/plugin/running_avg.cpp:54 | `j[k][m] = v` succeeds exactly when `j` and `j[k]` are null, absent or objects, and sets only that member |
| JsonValues.Read | src/plugin/random.cpp:44 | reading and converting a member throws on a non-object document, converts the member when present, and converts the inserted null when absent |
| JsonValues.ValueOr | src/plugin/worker.cpp:41-42 | `value(k, d)` gives the converted member, or d when it is absent, and throws on a non-object |
| JsonValues.AsString | src/source.hpp:85 | only a JSON string converts to `std::string`, to its own text |
| JsonValues.Truncate | src/plugin/worker.cpp:41 | converting a floating value to an integer truncates toward zero |
| JsonValues.WrapUnsigned | src/plugin/spawner.cpp:80 | narrowing to an unsigned type is modular and keeps values already in range |
| JsonValues.WrapInt32 | src/plugin/random.cpp:44 | narrowing to 32-bit `int` wraps around and keeps values already in range |
| JsonValues.AsInteger | src/plugin/random.cpp:44 | numbers and booleans convert to an integer and everything else throws |
| JsonValues.AsInt32 | src/plugin/random.cpp:44 | `get<int>()` accepts numbers and booleans, stays in `int` range and keeps in-range integers |
| JsonValues.AsUnsigned32 | src/plugin/serial_reader.cpp:37 | `get<unsigned>()` stays below 2^32 and keeps in-range integers |
| JsonValues.AsSize | src/plugin/spawner.cpp:75-77 | `get<size_t>()` stays below 2^64 and keeps in-range integers |
| JsonValues.AsReal | src/plugin/running_avg.cpp:37 | `get<double>()` accepts numbers and booleans and keeps the number's value |
| JsonValues.GreatestKey | src/plugin/running_avg.cpp:49 | the last key in `std::map` order is in the set and no key sorts after it |
| JsonValues.SortedKeys | src/plugin/running_avg.cpp:36 | object members are visited once each, in strictly ascending key order |
| JsonValues.ValuesInOrder | src/plugin/restway2.cpp:90 | iterating an object's values visits one value per member |
| RunningAverage.New | src/plugin/running_avg.cpp:25-79 | a new filter has no windows |
| RunningAverage.SetParams | src/plugin/running_avg.cpp:61-67 | configuring succeeds exactly for a null or object argument, keeps the windows, and takes the base's agent id |
| RunningAverage.DefaultsAreConfig | src/plugin/running_avg.cpp:63-65 | the three seeded defaults are `capa` 10, `field` "data" and `out_field` "avg" |
| RunningAverage.ConfigurationIsPatchedDefaults | src/plugin/running_avg.cpp:61-67 | the configuration is the caller's object merge-patched onto the defaults, plus the null agent id the base inserted when there was none |
| RunningAverage.Info | src/plugin/running_avg.cpp:69-75 | info succeeds exactly when `field` and `out_field` are strings; it lists `capa` serialised (null when missing, and then inserted), `field` and `out_field`, and keeps the windows and agent id |
| RunningAverage.FieldDefaultsKept | src/plugin/running_avg.cpp:61-67 | a caller who sets neither `field` nor `out_field` keeps "data" and "avg" |
| RunningAverage.DefaultInfo | src/plugin/running_avg.cpp:61-75 | such a caller's `info` succeeds and lists "data" and "avg" |
| RunningAverage.Exceeds | src/plugin/running_avg.cpp:38 | the size-against-`capa` test compares numerically against a number, and otherwise by nlohmann's type order: true for a null or boolean capacity, false for an object, array or string one |
| RunningAverage.PushAgainstCapacity | src/plugin/running_avg.cpp:37-40 | a null or boolean capacity drops the oldest value on every push; a string, object or array one never drops; an integer one keeps the new value without a drop exactly while the window is below it |
| RunningAverage.NullCapacityKeepsWindowsEmpty | src/plugin/running_avg.cpp:36-41 | with a null or boolean capacity, windows that start empty stay empty after any load |
| RunningAverage.UnorderedCapacityGrows | src/plugin/running_avg.cpp:36-41 | with a string, object or array capacity, every loaded key's window grows by exactly the new value |
| RunningAverage.NullCapaDeletesCapacity | src/plugin/running_avg.cpp:61-67 | a caller's `"capa": null` deletes the default, so the load reads a null capacity |
| RunningAverage.Push | src/plugin/running_avg.cpp:37-40 | pushing one value grows the window by at most one and never beyond a non-negative integer capacity it already respected |
| RunningAverage.Take | src/plugin/running_avg.cpp:37-40 | the first n values of a history number n, or all of them when there are fewer |
| RunningAverage.Reverse | src/plugin/running_avg.cpp:37 | `push_front` order: element i of the window is element n-1-i of the arrivals |
| RunningAverage.PushKeepsNewest | src/plugin/running_avg.cpp:37-40 | pushing onto the c newest values keeps the c newest values of the longer history |
| RunningAverage.UpdateWindows | src/plugin/running_avg.cpp:36-41 | every loaded key's window receives its value, and the windows of other keys are untouched |
| RunningAverage.ToReals | src/plugin/running_avg.cpp:36-37 | the listed members convert to doubles exactly when each does, and each keeps its value |
| RunningAverage.ConvertAll | src/plugin/running_avg.cpp:36-37 | every member of the field object converts, or the load throws |
| RunningAverage.LoadData | src/plugin/running_avg.cpp:32-43 | a missing or non-string `field` or a non-object input throws; a field that is not an object is an error that changes nothing; a field object loads, with success, exactly when every member converts to a double |
| RunningAverage.PushValues | src/plugin/running_avg.cpp:36-42 | the loop returns success exactly when every value converts to a double, and throws otherwise |
| RunningAverage.LoadPushesEveryValue | src/plugin/running_avg.cpp:36-41 | a successful load pushes every member of the input field into its key's window against the configured `capa` and leaves the other windows |
| RunningAverage.WindowsStayBounded | src/plugin/running_avg.cpp:38-40 | with an integer capacity c no load lets a window grow beyond c |
| RunningAverage.WindowIsNewestHistory | src/plugin/running_avg.cpp:36-41 | after any run of loads each window is the c most recent values its key received, newest first, and a key has a window exactly when it received a value |
| RunningAverage.CapacityThreeExample | src/plugin/running_avg.cpp:95-124 | loading 1, 2, 3, 4 into capacity 3 keeps 4, 3, 2, whose mean is 3 |
| RunningAverage.Means | src/plugin/running_avg.cpp:49-56 | one mean is written per key that has a window |
| RunningAverage.Mean | src/plugin/running_avg.cpp:50-54 | an empty window has a null mean; any other mean times the window's size is the window's total |
| RunningAverage.MeansOf | src/plugin/running_avg.cpp:49-56 | the means of the listed keys are written for exactly those keys |
| RunningAverage.WriteOne | src/plugin/running_avg.cpp:54-55 | one pass sets the key's mean under the output field and the window size under `size`, and throws when either level is not an object |
| RunningAverage.WriteMeans | src/plugin/running_avg.cpp:49-56 | no key writes nothing; otherwise the loop succeeds exactly when the output and its output field are writable and the field is not `size` (unless there is a single key), and `size` ends as the last key's window size |
| RunningAverage.Averages | src/plugin/running_avg.cpp:48-56 | averaging succeeds with the windows unchanged |
| RunningAverage.Process | src/plugin/running_avg.cpp:47-59 | a successful `process` returns success, keeps the windows, and puts a non-empty agent id in the output |
| RunningAverage.MeansOfCons | src/plugin/running_avg.cpp:49-56 | writing the first key's mean and then the rest gives the means of all the keys |
| RunningAverage.ReportOverReport | src/plugin/running_avg.cpp:54-55 | a second pass overwrites the report of the first |
| RunningAverage.ReportIsWritable | src/plugin/running_avg.cpp:54-55 | after a pass the output field is an object again and holds what the pass wrote |
| RunningAverage.WriteMeansEffect | src/plugin/running_avg.cpp:49-56 | the loop writes every listed key's mean under the output field and leaves in `size` the size of the last key's window |
| RunningAverage.WriteAllMeans | src/plugin/running_avg.cpp:48-56 | on a cleared output the loop leaves exactly the means of all windows and the size of the window of the greatest key |
| RunningAverage.AveragesWritesMeans | src/plugin/running_avg.cpp:48-56 | with an ordinary output field name the averaging step reports every window's mean and the last size |
| RunningAverage.ProcessWritesMeans | src/plugin/running_avg.cpp:47-59 | with loaded windows the output is exactly the output field with every key's mean, `size` with the last key's window size, and the non-empty agent id |
| RunningAverage.ProcessWithoutData | src/plugin/running_avg.cpp:47-59 | with nothing loaded the output is the cleared output plus a non-empty agent id |
| Spawner.New | src/plugin/spawner.cpp:33-100 | a new spawner has an empty queue |
| Spawner.DefaultsAreConfig | src/plugin/spawner.cpp:70-72 | the seeded defaults are `period_min` 100, `period_max` 5000 and `number` 50 |
| Spawner.Span | src/plugin/spawner.cpp:80 | `max - min + 1` in `size_t`: the count of the closed range when it is ordered and fits, and the 2^64 wrap-around when `min` exceeds `max + 1` |
| Spawner.Draw | src/plugin/spawner.cpp:80 | a draw fits in `size_t`, and when `min` plus the span does not wrap it lies in [min, min + span) |
| Spawner.DrawIsInRange | src/plugin/spawner.cpp:80 | for an ordered range that is not all of `size_t`, a draw lies in [min, max] and never above min + RAND_MAX; every value of the range within RAND_MAX of min is the draw of some `rand()` value, so a wider range is only partly reachable |
| Spawner.Periods | src/plugin/spawner.cpp:79-82 | the loop pushes exactly `number` periods |
| Spawner.PeriodsDrawInOrder | src/plugin/spawner.cpp:79-82 | the i-th period pushed comes from the i-th `rand()` value |
| Spawner.SetParams | src/plugin/spawner.cpp:68-84 | a non-object argument throws; a successful call appends exactly `number` periods after the ones already queued, and keeps the error |
| Spawner.Configure | src/plugin/spawner.cpp:75-77 | the three settings are read as `size_t`, and the call succeeds exactly when all three are present and numeric |
| Spawner.Enqueue | src/plugin/spawner.cpp:79-82 | the loop succeeds unless it runs with a zero span, and appends the drawn periods |
| Spawner.NewPeriodsInRange | src/plugin/spawner.cpp:79-82 | every period a successful `set_params` enqueues lies between the configured minimum and maximum |
| Spawner.ConfigurationIsPatchedDefaults | src/plugin/spawner.cpp:68-77 | the configuration is the argument merge-patched onto the defaults, and the call succeeds exactly when all three settings are numeric and the span is usable |
| Spawner.DefaultSettings | src/plugin/spawner.cpp:70-82 | without settings of its own the caller gets 50 periods between 100 and 5000 |
| Spawner.GetOutput | src/plugin/spawner.cpp:41-66 | an empty queue is critical with "No more periods available" on a cleared output; otherwise the front period is dequeued and reported with the identifier and the non-empty agent id |
| Spawner.Run | src/plugin/spawner.cpp:41-66 | calls on null outputs never throw, give one output per call, dequeue one period per call until the queue is empty, and keep the agent id |
| Spawner.RunReportsQueueInOrder | src/plugin/spawner.cpp:44-50 | successive calls report the queued periods first in, first out |
| Spawner.DrainedIsCritical | src/plugin/spawner.cpp:44-47 | once every queued period has been reported the next call is critical and says why |
| Webcam.Clamp | src/plugin/webcam.cpp:36 | `max(min(x, b), a)` lies in [a, b] and leaves x alone when it is already inside |
| Webcam.Rescale | src/plugin/webcam.cpp:37 | the unclamped map is c plus the share (y-a)/(b-a) of d-c |
| Webcam.MapVal | src/plugin/webcam.cpp:33-38 | an ordered range sends inputs at or below a to c and at or above b to d, and inside [a, b] the map is the unclamped rescaling |
| Webcam.Fraction | src/plugin/webcam.cpp:36-37 | the clamped position of x within [a, b] is a fraction in [0, 1] |
| Webcam.MapValIsAffine | src/plugin/webcam.cpp:33-38 | `mapVal` is c plus that fraction of the way from c to d |
| Webcam.MapValSaturates | src/plugin/webcam.cpp:33-38 | inputs at or below a map to c, and at or above b map to d |
| Webcam.MapValBoundedAndMonotone | src/plugin/webcam.cpp:33-38 | with c <= d every result lies in [c, d] and the map never decreases |
| Webcam.MapValBounded | src/plugin/webcam.cpp:33-38 | with c <= d every result lies in [c, d], so the 0..255 colour channels of lines 61-64 stay in range |
| Webcam.MapValMonotone | src/plugin/webcam.cpp:33-38 | a larger input never maps to a smaller output |
| Webcam.MapValRoundTrip | src/plugin/webcam.cpp:33-38 | mapping [a, b] onto [c, d] and back recovers every x inside [a, b] |
| Webcam.New | src/plugin/webcam.cpp:69-72 | a new webcam has error "none", blob format "jpg", device 0, 20 bins, scale 0.3, "image.jpg" and no flip |
| Webcam.BlobFormatIsJpg | src/plugin/webcam.cpp:69-72 | the constructor replaces the base's "none" blob format with "jpg" |
| Webcam.SetParams | src/plugin/webcam.cpp:215-236 | the call succeeds exactly when the device (the `device` member read as an `int`, else the current device) converts and opens; a device that does not open throws "Error: Unable to open webcam"; a success keeps the caller's parameters and the base and selects that device |
| Webcam.GuardedOverrides | src/plugin/webcam.cpp:215-236 | each guarded setting changes only when its member is present with the right type, and then takes its value; the base is untouched and the parameters become the argument |
| Webcam.WrongTypesKeepDefaults | src/plugin/webcam.cpp:224-235 | members of the wrong type leave a fresh plugin at 20 bins, "image.jpg", 0.3 and no flip |
| Webcam.UnopenedDeviceThrows | src/plugin/webcam.cpp:220-223 | a device that does not open makes `set_params` throw "Error: Unable to open webcam" |
| Webcam.Info | src/plugin/webcam.cpp:238-247 | info has exactly device, image_name, hist_size, scale and flip; the numbers read back as the settings and flip is "yes" or "no" |
| SerialReader.New | src/plugin/serial_reader.cpp:27-88 | a new reader has null parameters and no open port |
| SerialReader.SetParams | src/plugin/serial_reader.cpp:71-76 | seeding succeeds exactly when the stored parameters are null or an object; the port is kept and the base binds the agent id |
| SerialReader.FirstConfiguration | src/plugin/serial_reader.cpp:71-76 | a fresh reader's configuration is the caller's object merge-patched onto `port` "/dev/ttyUSB0" and `baudrate` 115200 |
| SerialReader.Setup | src/plugin/serial_reader.cpp:29-45 | an open port is reused; otherwise the outcome is success with a port or critical without one, and the agent id never changes |
| SerialReader.SetupFailures | src/plugin/serial_reader.cpp:31-41 | a missing port path is critical with "Port does not exist", and an unsupported baud rate is critical with the text of `errno`; a missing baud rate is critical, with the null that reading it inserted kept in the parameters |
| SerialReader.BaudRead | src/plugin/serial_reader.cpp:37 | evaluating `_params["baudrate"]` leaves parameters that have the rate unchanged and inserts a null rate into an object without one |
| SerialReader.OpenConfigured | src/plugin/serial_reader.cpp:37 | opening succeeds only with a string `port` and a numeric `baudrate` whose `unsigned` value is a supported rate, at that speed; for an in-range integer rate it succeeds exactly when `connect` does, and fails with the text of `errno` |
| SerialReader.NextLine | src/plugin/serial_reader.cpp:58-59 | a line read consumes at least one read, and there is none exactly when the reads run out first |
| SerialReader.ReadUntilParsed | src/plugin/serial_reader.cpp:57-64 | a value found leaves a proper suffix of the reads for the next call |
| SerialReader.FirstParseIsFirst | src/plugin/serial_reader.cpp:57-66 | a value is found exactly when some line parses, and it is the value of the first such line |
| SerialReader.SearchFollowsLines | src/plugin/serial_reader.cpp:57-66 | reading until a line parses yields the first parseable line among those the reads deliver |
| SerialReader.FirstParseableLine | src/plugin/serial_reader.cpp:57-66 | the loop stops at the first line that parses, every earlier line fails to parse, and it keeps waiting when no line parses |
| SerialReader.GetOutput | src/plugin/serial_reader.cpp:50-69 | once the port is open, `get_output` only reads |
| SerialReader.Receive | src/plugin/serial_reader.cpp:57-68 | the call waits exactly when no line parses before the reads run out; otherwise it succeeds exactly when the parsed value is an object or null, and then outputs it with `agent_id` set, keeping the state |
| SerialReader.GetOutputEffect | src/plugin/serial_reader.cpp:50-69 | a critical setup leaves the output cleared and no port; a successful call outputs the first parseable line with `agent_id` added, which requires that line to be an object or null |
| SerialReader.PortOpenedOnce | src/plugin/serial_reader.cpp:29-30 | after a call that got past setup, the next call reuses the same port whatever the environment says |
| SerialReader.Info | src/plugin/serial_reader.cpp:78-83 | info succeeds exactly when `port` is a string and `baudrate` converts to `unsigned`; it lists exactly the port and the decimal digits of the rate |
| SerialReader.DefaultInfo | src/plugin/serial_reader.cpp:71-83 | a caller who sets neither member gets "/dev/ttyUSB0" and digits reading 115200 |
| SerialReader.NonStringPortThrows | src/plugin/serial_reader.cpp:71-83 | a caller's `port` that is neither null nor a string survives the patch, and `info` throws on it |
| SerialPort.Chars | src/serialport.cpp:237-243 | the characters a run of reads delivers are never more than the reads themselves |
| SerialPort.ReadOneMore | src/serialport.cpp:237-243 | one more read adds its byte, if it delivered one, and fails exactly when `::read` returned a negative value |
| SerialPort.Scan | src/serialport.cpp:234-249 | a completed line holds no CR or LF and no failed read, and either ends at a CR or LF that is consumed but not stored or fills the capacity; a failed or unfinished line stays below the capacity |
| SerialPort.ScanFails | src/serialport.cpp:244-245 | a failed read ends the line at once: it is the last read consumed, none before it failed, and everything delivered before it is kept |
| SerialPort.ScanRunsOut | src/serialport.cpp:254-266 | when the reads run out the call is still waiting, with no failure so far and every delivered character stored |
| SerialPort.ScanStops | src/serialport.cpp:234-247 | both ways a line read ends early, failure and running out of reads, together |
| SerialPort.ReadLineBuffer | src/serialport.cpp:229-250 | a zero capacity returns 0 and leaves the buffer alone; otherwise at most `nmax - 1` characters are stored, followed by a NUL, and the rest of the buffer is untouched; the stored characters are the bytes delivered before the first CR or LF, or the first `nmax - 1` delivered bytes when the line fills the buffer; a failure leaves the stored characters unterminated |
| SerialPort.ReadLineString | src/serialport.cpp:252-268 | the characters up to the next CR or LF are appended to `line` and their count is returned; a failure returns a negative value after appending what was read |
| SerialPort.OverloadsAgree | src/serialport.cpp:229-268 | for a line shorter than `nmax - 1` both overloads read the same characters and consume the same reads |
| SerialPort.WriteBuffer | src/serialport.cpp:203-208 | no system call is made exactly when there are no bytes, and then 0 is returned; otherwise the first `nBytes` bytes are written and the call's result returned |
| SerialPort.WriteString | src/serialport.cpp:210-216 | an empty string writes nothing and returns 0; otherwise the whole string is written and the call's result returned |
| SerialPort.WritesAgree | src/serialport.cpp:203-216 | writing a string is writing its characters as a buffer of its length |
| SerialPort.BaudWhitelist | src/serialport.cpp:76-128 | exactly twelve baud rates, from 300 to 230400, are accepted, each at its own speed |
| SerialPort.Speed | src/serialport.cpp:77-128 | a speed is found exactly for the twelve supported rates, and it is the rate itself |
| SerialPort.Connect | src/serialport.cpp:34-183 | a descriptor is returned only for a listed rate, and it is the one `open` gave; an unlisted rate gives -1; two stop bits are chosen exactly when `stopBits` is 2 |
| SerialPort.ConnectSucceeds | src/serialport.cpp:39-175 | `connect` succeeds exactly when `open` gives a descriptor, every later system call succeeds and the rate is listed |
| SerialPort.Open | src/serialport.cpp:185-192 | the constructor succeeds exactly when `connect` does, runs at the requested rate, and otherwise throws the text of `errno` |
| RestWayJobs.DefaultsAreConfig | src/plugin/restway2.cpp:220-228 | the seven defaults assigned in order build the default configuration |
| RestWayJobs.DefaultsFromDescription | src/plugin/restway2.cpp:223-227 | the defaults from `description` on build the last five members |
| RestWayJobs.DefaultsFromPage | src/plugin/restway2.cpp:224-227 | the defaults from `page` on build the numeric members |
| RestWayJobs.New | src/plugin/restway2.cpp:35-243 | a new source has null parameters, no connection, no requests and no files |
| RestWayJobs.SetParams | src/plugin/restway2.cpp:220-229 | seeding succeeds exactly when the stored parameters are null or an object, and touches nothing but the parameters |
| RestWayJobs.FirstConfiguration | src/plugin/restway2.cpp:220-229 | a fresh source's configuration is the caller's document merge-patched onto the defaults |
| RestWayJobs.Info | src/plugin/restway2.cpp:231-236 | info succeeds exactly when `url` and `description` are both strings, lists exactly those two, and leaves the state as it was |
| RestWayJobs.DescribedByDefaults | src/plugin/restway2.cpp:220-229 | a caller who sets neither `url` nor `description` keeps both defaults |
| RestWayJobs.DefaultInfo | src/plugin/restway2.cpp:220-236 | such a caller's `info` lists the default URL and "RESTway, a RESTful gateway" without throwing |
| RestWayJobs.DeletedDescriptionThrows | src/plugin/restway2.cpp:220-236 | a caller who deletes `description` with a null member makes `info` throw |
| RestWayJobs.Setup | src/plugin/restway2.cpp:56-78 | an existing connection is kept; otherwise the connection is opened on the `url` string and asks for JSON, without issuing a request |
| RestWayJobs.JobName | src/plugin/restway2.cpp:175 | the job name is found exactly when `jobId` is an array whose first element is a string, and it is that string |
| RestWayJobs.DefaultJobName | src/plugin/restway2.cpp:222 | with the default configuration the job looked up is "MADS" |
| RestWayJobs.JobPath | src/plugin/restway2.cpp:100-101 | the corrected path of a job, with a slash between the collection's path and the id, is one character longer than the two together |
| RestWayJobs.JobPathIsBelowCollection | src/plugin/restway2.cpp:100-101 | a job's path is the collection's path, a slash, then exactly the job id |
| RestWayJobs.JobPathRepairsAsWritten | src/plugin/restway2.cpp:100-101 | the corrected path is the path as written for the id with a leading slash, so the repair is the one missing separator |
| RestWayJobs.PathsNest | src/plugin/restway2.cpp:98-159 | on the paths as the source builds them, the run list and a run lie below their job's path, and the file list and a file's content below their run, the content under `/file?fileName=` and the name |
| RestWayJobs.JobPathAsWritten | src/plugin/restway2.cpp:100-101 | the path as the source builds it is the collection's path followed directly by the job id, with no separator |
| RestWayJobs.JobPathAsWrittenLeavesCollection | src/plugin/restway2.cpp:100-102 | the job id "42" gives "/amw4analysis/job42", which is not below the collection's path, and its run list and run 7 are "/amw4analysis/job42/run/all" and "/amw4analysis/job42/run/7" |
| RestWayJobs.RunListPath | src/plugin/restway2.cpp:100-102 | the run list path is the job's path as written followed by "/run/all" |
| RestWayJobs.RunPath | src/plugin/restway2.cpp:148-152 | a run's path is the job's path as written followed by "/run/" and the run id |
| RestWayJobs.FileListPath | src/plugin/restway2.cpp:115-119 | the file list path is the run's path followed by "/file/all" |
| RestWayJobs.ContentPath | src/plugin/restway2.cpp:131-136 | a file's content path is the run's path followed by "/file?fileName=" and the file name |
| RestWayJobs.Call | src/plugin/restway2.cpp:84-88 | one request is issued and logged under the given header; it succeeds exactly when the answer is 200 and then hands on the body, otherwise it fails with the step's message |
| RestWayJobs.Candidates | src/plugin/restway2.cpp:90 | the loop over a job list visits an array's elements in order and nothing in null |
| RestWayJobs.FindJob | src/plugin/restway2.cpp:90-95 | a job id found belongs to an entry with the name, and when nothing is found no entry has the name |
| RestWayJobs.FindJobFindsFirst | src/plugin/restway2.cpp:90-93 | a job id is found exactly when some entry is the first with the name, every earlier entry was readable, and its `id` is that string |
| RestWayJobs.FindJobMisses | src/plugin/restway2.cpp:90-95 | the loop runs off the end exactly when every entry is readable and none has the name |
| RestWayJobs.FindJobIsFirstMatch | src/plugin/restway2.cpp:90-95 | both directions of the lookup together: the first entry with the name wins, and only a list without it comes up empty |
| RestWayJobs.FirstMember | src/plugin/restway2.cpp:110 | `[0][key]` succeeds exactly when the answer is a non-empty array whose first element has the key as a string, and gives that string |
| RestWayJobs.GetJobId | src/plugin/restway2.cpp:80-96 | the job list is requested once; an id comes back only for a 200 answer that parses and lists the job first by that name |
| RestWayJobs.GetFirst | src/plugin/restway2.cpp:98-128 | one JSON request; a non-200 answer fails with the step's message, otherwise the value is the first entry's member |
| RestWayJobs.SaveFileContent | src/plugin/restway2.cpp:130-146 | one binary request; it succeeds exactly on a 200 answer, and then the body is stored under the file's name and nothing else changes |
| RestWayJobs.DeleteJobRun | src/plugin/restway2.cpp:148-159 | one DELETE under the header in force; it succeeds exactly on a 200 answer |
| RestWayJobs.StoppedAfter | src/plugin/restway2.cpp:174-179 | a successful request in front of a stopped trail gives a stopped trail one request longer |
| RestWayJobs.FileSteps | src/plugin/restway2.cpp:177-179 | on the paths as written, the file list, the content and the deletion are issued in that order, all answered with 200, and the content is saved; a failure stops after at most three requests |
| RestWayJobs.RunSteps | src/plugin/restway2.cpp:176-179 | on the paths as written, the run list and then the file steps, in order and all answered with 200; a failure stops after at most four requests |
| RestWayJobs.Chain | src/plugin/restway2.cpp:174-179 | the chain never touches the connection, the base or the parameters; a failure stops after at most five requests, all but the last answered with 200 |
| RestWayJobs.ChainCompleted | src/plugin/restway2.cpp:174-179 | a completed chain issued exactly the five requests in order on the paths as written (the job id appended straight to the collection's path), all answered with 200, on the first job with the name, and saved the content under the file's name |
| RestWayJobs.ChainStopsAtFirstFailure | src/plugin/restway2.cpp:174-183 | a failed chain issued one to five requests and every one but the last succeeded, so no step runs after a failure |
| RestWayJobs.ListFailureStops | src/plugin/restway2.cpp:85-87 | a job list answered with anything but 200 stops the chain after that request with "REST Error getting job list" |
| RestWayJobs.UnknownJobStops | src/plugin/restway2.cpp:90-95 | a job list without the name stops the chain after that request with "Job not found" |
| RestWayJobs.GetOutput | src/plugin/restway2.cpp:165-218 | the output is never written, the status is success or error, the base is untouched and the connection, once made, is kept |
| RestWayJobs.StatusFollowsChain | src/plugin/restway2.cpp:174-186 | the status is success exactly when the chain completes, a JSON exception escapes as it is, and a failed step gives an error when `delay` is a number |
| RestWayJobs.SetupOnlyOnce | src/plugin/restway2.cpp:170-172 | after a call that returned, the connection exists, so the next call skips setup |
| Datastore.NormalName | src/datastore.hpp:29-30 | the normalised name always ends in ".json"; a name already ending in it is kept, any other gets ".json" appended |
| Datastore.NormalNameIdempotent | src/datastore.hpp:29-30 | normalising twice is normalising once |
| Datastore.Join | src/datastore.hpp:32 | joining onto an absolute path gives that path, and a join always ends with the joined part |
| Datastore.FileNameStart | src/datastore.hpp:52 | the file name starts right after the last separator, and no separator follows |
| Datastore.FileName | src/datastore.hpp:52 | a file name holds no separator and ends the path |
| Datastore.LastDot | src/datastore.hpp:52 | the position found holds a dot; when none is found the name has no dot |
| Datastore.HasStemIffFileName | src/datastore.hpp:52-53 | a path has a stem exactly when it has a file name, that is, it is not empty and does not end in a separator |
| Datastore.New | src/datastore.hpp:22 | a new store has an empty path and a null document |
| Datastore.Load | src/datastore.hpp:36-48 | a missing file gives the null document, a file that will not open leaves the data alone, and a file that does not parse gives null |
| Datastore.Prepare | src/datastore.hpp:28-48 | a path already set is kept and a new one ends with the normalised name and ".json", so it is never empty; then a missing file loads null, a file that will not open keeps the data, and a file's text loads what it parses to or null |
| Datastore.PathIsSetOnce | src/datastore.hpp:31-32 | the path is chosen only while none is set, as `<tmp>/mads/<name>`, and never changes afterwards |
| Datastore.EndsWithTransitive | src/datastore.hpp:29-32 | a suffix of a suffix is a suffix |
| Datastore.JoinRelative | src/datastore.hpp:32 | joining a relative part onto a directory without a trailing separator inserts exactly one separator |
| Datastore.NormalNameRelative | src/datastore.hpp:29-30 | normalising a relative name keeps it relative |
| Datastore.DefaultPathShape | src/datastore.hpp:28-32 | the default path for a relative name is `<tmp>/mads/<name>.json`, ending with the normalised name and ".json" |
| Datastore.PrepareAt | src/datastore.hpp:51-60 | a path without a stem throws "Wrong path, must be a file"; any other is taken verbatim and the document loaded from it |
| Datastore.ExplicitPathSticks | src/datastore.hpp:28-56 | after preparing at an explicit file path, preparing again by name keeps that path |
| Datastore.Get | src/datastore.hpp:62-64 | indexing works exactly on a null or object document, gives the member or null, and inserts a missing key as null without touching the path |
| Datastore.Set | src/datastore.hpp:62-64 | assigning through the index works exactly on a null or object document, gives the key the value and leaves every other member alone |
| Datastore.SetThenGet | src/datastore.hpp:62-64 | reading a key just assigned gives the value and changes nothing more |
| Loader.ExitStatus | src/main/load_source.cpp:25-85 | the status is 0 exactly after a complete cycle, 1 exactly for the usage message or no driver, and none when an exception escapes |
| Loader.LastNamed | src/main/load_source.cpp:46-55 | a position found lies in the list and names a driver with the name |
| Loader.LastNamedIsLast | src/main/load_source.cpp:46-55 | nothing is found exactly when no driver has the name, and no later driver has the name of the one found |
| Loader.Selection | src/main/load_source.cpp:40-56 | the driver selected is one of the listed drivers |
| Loader.SelectDriver | src/main/load_source.cpp:39-56 | the loop over the drivers selects the only driver, or else the last whose name is the second argument |
| Loader.DefaultParams | src/main/load_source.cpp:74 | the default parameters are an object whose only member is `name` |
| Loader.ParamsAsWritten | src/main/load_source.cpp:68-75 | as written, the file named by the second argument is parsed exactly when there are three arguments, otherwise the default object is used |
| Loader.ParamsAsWrittenMisreadArguments | src/main/load_source.cpp:43-75 | with two drivers, "load_source plugin.so b" parses a file called "b", and "load_source plugin.so b cfg.json" ignores "cfg.json" |
| Loader.JsonFile | src/main/load_source.cpp:39-56 | without a selected driver there is no JSON file; with one it is the argument after the plugin (one driver) or after the name (several), when present |
| Loader.Params | src/main/load_source.cpp:26-56 | without a selected driver the parameters are the default object, and any other parameters are what a non-empty argument after the plugin parses to |
| Loader.ParamsFollowUsage | src/main/load_source.cpp:26-56 | read from `json_file`, the parameters come from the argument after the plugin for a single driver and after the name for several, else the default object |
| Loader.Cycle | src/main/load_source.cpp:64-82 | after selection the run either completes with the given parameters or throws, and an exception from reading the parameters, from `set_params` or from `info` is the one that escapes |
| Loader.Main | src/main/load_source.cpp:15-85 | the usage message appears exactly with fewer than two arguments, nothing is created exactly when no driver is selected, and a completed run used a driver of the role with the parameters as written (the second argument parsed exactly when there are three arguments); a parse failure never completes |
| Loader.MainIntended | src/main/load_source.cpp:15-85 | the same run with the parameters read from `json_file`, as the usage line promises |
| Loader.SingleDriverRunsAgree | src/main/load_source.cpp:40-75 | with one driver and exactly one non-empty argument after the plugin, the run as written and the intended run are the same |
| Loader.LoadSource | src/main/load_source.cpp:38 | `load_source` only ever runs a source driver |
| Loader.LoadSink | src/main/load_sink.cpp:38 | `load_sink` only ever runs a sink driver |
| Loader.SingleDriverAlwaysSelected | src/main/load_source.cpp:40-43 | with one driver for the role it is always selected, whatever name is given |
| Loader.SeveralDriversSelectedByName | src/main/load_source.cpp:44-56 | among several drivers nothing is selected exactly when there is no name or no driver has it; otherwise the last driver with the name |
| Loader.NoDriversExit | src/main/load_source.cpp:58-62 | with no driver for the role the run exits with 1 before creating anything |
| Loader.OneCycle | src/main/load_source.cpp:64-82 | a completed run is one create, one `set_params` with the chosen parameters, one `info` and one exercising call with the role's input, in that order |
| Loader.InfoFailureEscapes | src/main/load_source.cpp:76-79 | an `info` that throws ends `main` with that exception before the instance is exercised |

## Left out

- The pugg kernel (`load_plugin`, `add_server`, `get_all_drivers`) is a foreign library. Its registry is a list of driver records, filtered by server name.
- A driver's `create()` returning a fresh heap object each call is not modelled. The host's `create` is a function of the driver, because the model has no heap.
- `mqtt.cpp` and `to_console.cpp` have no logic of their own beyond a foreign client and console printing.
- Webcam's OpenCV work is foreign, floating-point and UI code: capture, histogram, optical flow, stylisation, the GUI loop, `imencode` and its `get_output`. Only `mapVal`, the constructor, the parameter guards and `info` are modelled.
- Webcam.Info: how `to_string` prints the scale is a parameter.
- Webcam.MapVal: requires `a != b`, because the source divides by `b - a` unguarded and the result would be a floating-point infinity or NaN.
- Arithmetic is on `real` and `int`, an idealisation of IEEE doubles. Averages, scaling, the random draws and `mapVal` are affected.
- Sleeps and the time they take are not modelled: worker, spawner, and restway2's `delay`. Only whether `delay` converts is kept.
- Real I/O is reduced to parameters: the REST client, terminal `ioctl`/`termios` calls, the filesystem, the system clock, `localtime`, `uuid_generate`, `rand` and `stats::rnorm`.
- Console output is not modelled: `cout`/`cerr` logging, and the hosts printing `kind()`, `info()` and the output.
- JSON parsing and `dump` are parameters. Only merge patch has a definition.
- The `info()` of clock, random, worker and the two templates returns an empty map, and that of echoj and spawner only prints the configuration (`dump`, `to_string` of numbers). None of these can throw, and none is modelled. The `info()` that can throw is modelled: restway, restway2, running_avg and serial_reader.
- `SerialPort::read` never advances its counter, so its termination and return value are not modelled. The destructor's flush and close are left out too.
- SerialPort.Connect: the termios flags other than the stop bits, the speed and canonical mode are left out. The same holds for the control characters, VMIN/VTIME and the `close` on the error path.
- Datastore.Prepare: making the parent directories is not modelled. Neither are the destructor's `save()`, its `dump(2)` text and `data()`.
- RestWayJobs.SaveFileContent: the file's `ofstream` cannot fail in the model. The content is stored under the file name.
- The RestClient options that `setup()` sets in restway and restway2 are not modelled: timeouts, redirects, TLS and the user agent.
- RunningAverage.LoadData: requires the configured `field` to be present in an object input. Reading a missing key through the const `operator[]` is undefined behaviour in nlohmann.
- RunningAverage.Means: a window's mean is total over size. An empty window, whose mean would be NaN (0/0), is reported as null.
- RunningAverage.ProcessWritesMeans: assumes `out_field` is not "size". Otherwise the averages and the size would share one member.
- TemplateSink.SetParams: the source writes to a `_params` that neither the sink nor its base declares, so the file does not compile as written. The model gives the sink a parameter field of its own.
- Twice.SetParams: the base `set_params` call, which reinterprets the `TwiceParams` record as JSON, is undefined behaviour. It is left out.
- Worker.New: the period is uninitialised until the first `load_data`. The model starts it at 0.
- Roles.NewSource: `dummy` is uninitialised by the Source constructor, so the Source record leaves it out.
- Spawner.RandMax: `RAND_MAX` is implementation-defined (the C standard only promises at least 32767). The model takes glibc's value, 2^31 - 1, and every `rand()` value the model draws is bounded by it.
- Spawner.Enqueue: a zero span (`period_max - period_min + 1` wrapping to 0) is an integer division by zero in the source. It is modelled as a thrown error.
- Random.New: the source leaves `_number_of_elements` uninitialised until `set_params`. The model starts it at 0.
- Random.GetOutput: requires one draw per element, so a negative `number_of_elements` is not modelled. The generator would reject it.
- Clock.MillisecondsAreThreeDigits: takes the milliseconds already reduced modulo 1000, as the source computes them.
- Updates made before an exception escapes are dropped: a throwing call returns no state. This affects the members nlohmann's `operator[]` inserts into `_params`.
- Mismatched signatures between the plugins and the role bases are normalised to one signature per role. These are parameters passed by address, by reference or by value, and `override` mismatches.

## Findings

| source | as written | input that shows it | evidently intended | confidence | as-written member | corrected member |
|---|---|---|---|---|---|---|
| src/plugin/restway2.cpp:100-101 | every job path appends the job id straight to `API_PATH`, which has no trailing slash | job id "42" gives "/amw4analysis/job42" | "/amw4analysis/job/42", a path below the job collection | not executed; medium | RestWayJobs.JobPathAsWritten, RestWayJobs.JobPathAsWrittenLeavesCollection | RestWayJobs.JobPath, RestWayJobs.JobPathIsBelowCollection, RestWayJobs.JobPathRepairsAsWritten |
| src/main/load_source.cpp:68-75 | the parameters are parsed from `argv[2]` when `argc == 3`; the `json_file` computed at lines 43 and 51 is never used | two drivers, `load_source plugin.so b`, parses a file named "b"; `load_source plugin.so b cfg.json` ignores "cfg.json" | parse `json_file`, the argument that follows the plugin (one driver) or the name (several), as the usage line `<plugin> [name] [json]` promises | not executed; high | Loader.ParamsAsWritten, Loader.ParamsAsWrittenMisreadArguments | Loader.Params, Loader.ParamsFollowUsage, Loader.MainIntended |

=== FILE: clock.dfy ===
/**
 * The clock source: every `get_output` reports the current time, raw and as
 * ISO 8601 text with milliseconds, together with the parameters it was given.
 * The clock reading and its local-time rendering are parameters.
 */
module Clock {
  import opened Common
  import opened JsonValues
  import opened Roles
  import opened Text

  /** The source's base state and the plugin's own `_params`, which hides the base member. */
  datatype State = State(base: SourceState, params: Json)

  /**
   * One reading of `system_clock::now()`: the tick count since the epoch, the
   * `%FT%T` and `%z` renderings of its whole second in local time, and the
   * milliseconds past that second.
   */
  datatype Instant = Instant(ticks: int, localTime: string, millis: int, zone: string)

  function New(): (s: State)
    ensures s.base == NewSource() && s.params == Null
  {
    State(NewSource(), Null)
  }

  /** `set_params`: the base binds the agent id; the plugin's own parameters become the caller's object. */
  function SetParams(s: State, p: Json): (r: State)
    ensures r.params == p && r.base == SourceSetParams(s.base, p)
  {
    State(SourceSetParams(s.base, p), p)
  }

  /** The milliseconds as `setw(3) << setfill('0')` prints them. */
  function MillisField(ms: int): (f: string)
    ensures 0 <= ms < 1000 ==> |f| == 3 && AllDigits(f) && DigitsValue(f) == ms
  {
    if 0 <= ms < 1000 then
      ThreeDigits(ms);
      PadLeft(IntToString(ms), 3, '0')
    else
      PadLeft(IntToString(ms), 3, '0')
  }

  /**
   * `get_ISO8601`: date and time, a dot, the padded milliseconds, the zone
   * offset. For milliseconds in 0..999 each part can be cut back out of the
   * text at a fixed position.
   */
  function Iso8601(t: Instant): (r: string)
    ensures var n := |t.localTime|;
      0 <= t.millis < 1000 ==>
        && |r| == n + 4 + |t.zone|
        && r[..n] == t.localTime && r[n] == '.'
        && AllDigits(r[n + 1..n + 4]) && DigitsValue(r[n + 1..n + 4]) == t.millis
        && r[n + 4..] == t.zone
  {
    var f := MillisField(t.millis);
    if 0 <= t.millis < 1000 then
      PartsOfStamp(t.localTime, f, t.zone);
      t.localTime + "." + f + t.zone
    else
      t.localTime + "." + f + t.zone
  }

  /** Where each part sits in `a + "." + f + z` when `f` is three characters long. */
  lemma PartsOfStamp(a: string, f: string, z: string)
    requires |f| == 3
    ensures var r := a + "." + f + z; var n := |a|;
      && |r| == n + 4 + |z| && r[..n] == a && r[n] == '.' && r[n + 1..n + 4] == f && r[n + 4..] == z
  {
    var r := a + "." + f + z;
    assert r == a + ("." + f + z);
    assert r[|a|..] == "." + f + z;
  }

  /**
   * For milliseconds in 0..999 the field between the dot and the zone offset
   * is exactly three digits that read back as the milliseconds, so the text
   * is always four characters longer than the time and zone together.
   */
  lemma MillisecondsAreThreeDigits(t: Instant)
    requires 0 <= t.millis < 1000
    ensures var f := MillisField(t.millis);
      |f| == 3 && AllDigits(f) && DigitsValue(f) == t.millis
    ensures |Iso8601(t)| == |t.localTime| + 4 + |t.zone| && Iso8601(t)[|t.localTime|] == '.'
  {
    ThreeDigits(t.millis);
  }

  /** The report of one reading, with `agent_id` when the agent id is not empty. */
  function Report(ticks: int, time: string, params: Json, agentId: string): Json {
    Tagged(map["time_raw" := Int(ticks), "time" := Str(time), "params" := params], agentId)
  }

  /** The four assignments of `get_output`, after clearing the output. */
  function Stamp(out: Json, ticks: int, time: string, params: Json, agentId: string): (r: Result<Json>)
    ensures out.Null? || out.Object? ==> r == Ok(Report(ticks, time, params, agentId))
    ensures !(out.Null? || out.Object?) ==> r.Throws?
  {
    var o1 :- Put(Clear(out), "time_raw", Int(ticks));
    var o2 := Put(o1, "time", Str(time)).value;
    var o3 := Put(o2, "params", params).value;
    Ok(Tagged(o3.fields, agentId))
  }

  /** `get_output`: the output is cleared and holds the reading, the parameters and the agent id. */
  function GetOutput(s: State, out: Json, now: Instant): (r: Result<Step<State, Json>>)
    ensures out.Null? || out.Object? ==> r == Ok(Step(Success, s, Report(now.ticks, Iso8601(now), s.params, s.base.agentId)))
    ensures !(out.Null? || out.Object?) ==> r.Throws?
  {
    var time := Iso8601(now);
    var o :- Stamp(out, now.ticks, time, s.params, s.base.agentId);
    Ok(Step(Success, s, o))
  }

  /**
   * The output's `params` is exactly the last object given to `set_params`.
   * Because a source's agent id falls back to "undefined", `agent_id` is
   * missing only when that object named the empty string as agent id.
   */
  lemma OutputEchoesParams(s: State, p: Json, now: Instant)
    ensures var o := GetOutput(SetParams(s, p), Null, now).value.out;
      && o.fields["params"] == p
      && ("agent_id" in o.fields <==> !(Contains(p, "agent_id") && p.fields["agent_id"] == Str("")))
      && (!Contains(p, "agent_id") ==> o.fields["agent_id"] == Str("undefined"))
  {
    var t := SetParams(s, p);
    var a := t.base.agentId;
    assert a == "" <==> Contains(p, "agent_id") && p.fields["agent_id"] == Str("");
    assert GetOutput(t, Null, now).value.out == Report(now.ticks, Iso8601(now), p, a);
  }
}

=== FILE: common.dfy ===
/**
 * Shared vocabulary of the plugin protocol: the five-valued status every
 * role operation returns, the repository-wide protocol version constant,
 * and the small failure-compatible wrappers the rest of the model uses.
 */
module Common {

  /** Repository-wide protocol version (distinct from each role's own version). */
  const PluginProtocolVersion: int := 7

  /** The status of a plugin operation, in increasing severity. */
  datatype ReturnType = Success | Retry | Warning | Error | Critical

  /** The enumerator's underlying value: `success = 0` and the rest follow in order. */
  function Ordinal(r: ReturnType): (n: nat)
    ensures n < 5
  {
    match r
    case Success => 0
    case Retry => 1
    case Warning => 2
    case Error => 3
    case Critical => 4
  }

  /** The enumerator with a given underlying value, if there is one. */
  function FromOrdinal(n: int): (r: Option<ReturnType>)
    ensures r.Some? <==> 0 <= n < 5
  {
    if n == 0 then Some(Success)
    else if n == 1 then Some(Retry)
    else if n == 2 then Some(Warning)
    else if n == 3 then Some(Error)
    else if n == 4 then Some(Critical)
    else None
  }

  /** Severity order: a status is at most another iff its ordinal is. */
  predicate AtMost(a: ReturnType, b: ReturnType) {
    Ordinal(a) <= Ordinal(b)
  }

  /** The enumeration has exactly five values: ordinals and values are in bijection with 0..4. */
  lemma OrdinalRoundTrip(r: ReturnType, n: int)
    ensures FromOrdinal(Ordinal(r)) == Some(r)
    ensures 0 <= n < 5 ==> FromOrdinal(n).Some? && Ordinal(FromOrdinal(n).value) == n
    ensures forall q: ReturnType :: Ordinal(q) == Ordinal(r) ==> q == r
  {
  }

  /** The declared order is success < retry < warning < error < critical. */
  lemma SeverityOrder()
    ensures Ordinal(Success) == 0 && Ordinal(Retry) == 1 && Ordinal(Warning) == 2
    ensures Ordinal(Error) == 3 && Ordinal(Critical) == 4
    ensures forall a: ReturnType :: AtMost(Success, a) && AtMost(a, Critical)
  {
  }

  datatype Option<+T> = None | Some(value: T) {
    function GetOr(default: T): T {
      match this
      case Some(v) => v
      case None => default
    }
  }

  /**
   * The outcome of a C++ call that may throw: either it returns a value or an
   * exception escapes it, carrying the exception's `what()` text.
   */
  datatype Result<+T> = Ok(value: T) | Throws(what: string) {
    predicate IsFailure() {
      Throws?
    }

    function PropagateFailure<U>(): Result<U>
      requires Throws?
    {
      Throws(what)
    }

    function Extract(): T
      requires Ok?
    {
      value
    }
  }

  /** The status of one role operation together with the plugin state and output it leaves. */
  datatype Step<S, O> = Step(status: ReturnType, state: S, out: O)

  /** The status of a role operation that has no output parameter, and the state it leaves. */
  datatype Transition<S> = Transition(status: ReturnType, state: S)
}

=== FILE: configuration.dfy ===
/**
 * The parameter configuration convention: a plugin's `set_params` seeds its
 * defaults with `params[k] = v` assignments and then merge-patches the
 * caller's object on top. Plugins that first call the base `set_params` seed
 * onto the caller's object as the base stored it.
 */
module Configuration {
  import opened Common
  import opened JsonValues
  import opened JsonMergePatch
  import opened Roles

  /** Seed `defaults` into `base`, then `merge_patch(p)`. Seeding a non-object, non-null base throws. */
  function SeedThenPatch(base: Json, defaults: seq<(string, Json)>, p: Json): (r: Result<Json>)
    requires defaults != []
    ensures r.Ok? <==> base.Null? || base.Object?
  {
    PutAllIsUnion(base, defaults);
    var seeded :- PutAll(base, defaults);
    Ok(MergePatch(seeded, p))
  }

  /** The object a list of default assignments builds. */
  function DefaultsObject(defaults: seq<(string, Json)>): Json {
    Object(AssignmentsMap(defaults))
  }

  /**
   * A plugin holding its own, still-null parameter object ends its first
   * `set_params` with exactly the merge patch of the caller's parameters onto
   * its defaults (section 2 of RFC 7396).
   */
  lemma FirstConfiguration(defaults: seq<(string, Json)>, p: Json)
    requires defaults != []
    ensures SeedThenPatch(Null, defaults, p) == Ok(MergePatch(DefaultsObject(defaults), p))
  {
    PutAllIsUnion(Null, defaults);
    assert map[] + AssignmentsMap(defaults) == AssignmentsMap(defaults);
  }

  /**
   * A plugin that calls the base `set_params` first, then seeds and patches the
   * base-stored object: for an object argument the effective configuration is
   * the merge patch of the argument onto the defaults, plus the `"agent_id": null`
   * member the base's `operator[]` inserted when the argument had none. A null
   * argument patches everything away to null; any other argument makes the
   * seeding throw.
   */
  lemma BaseThenSeedThenPatch(defaults: seq<(string, Json)>, p: Json, fallback: string)
    requires defaults != []
    requires "agent_id" !in AssignmentsMap(defaults)
    ensures p.Object? ==>
      SeedThenPatch(BindAgentId(p, fallback).params, defaults, p)
        == Ok(Object(MergePatch(DefaultsObject(defaults), p).fields
                     + (if "agent_id" in p.fields then map[] else map["agent_id" := Null])))
    ensures p.Null? ==> SeedThenPatch(BindAgentId(p, fallback).params, defaults, p) == Ok(Null)
    ensures !p.Object? && !p.Null? ==> SeedThenPatch(BindAgentId(p, fallback).params, defaults, p).Throws?
  {
    PutAllIsUnion(BindAgentId(p, fallback).params, defaults);
    if p.Object? {
      var pm := p.fields;
      var extra: map<string, Json> := if "agent_id" in pm then map[] else map["agent_id" := Null];
      BoundObject(pm, fallback);
      SeededPatch(pm, AssignmentsMap(defaults), extra);
    }
  }

  /**
   * Member by member, for a plugin that calls the base `set_params` first: a
   * setting the caller leaves out keeps its default, a null deletes it, and
   * any other value is merge-patched onto the default (so a scalar or array
   * replaces it).
   */
  lemma SeededMember(defaults: seq<(string, Json)>, p: Json, fallback: string, k: string)
    requires defaults != [] && "agent_id" !in AssignmentsMap(defaults)
    requires p.Object? && k != "agent_id"
    ensures SeedThenPatch(BindAgentId(p, fallback).params, defaults, p).Ok?
    ensures var c := SeedThenPatch(BindAgentId(p, fallback).params, defaults, p).value;
      var d := AssignmentsMap(defaults);
      && c.Object?
      && (k !in p.fields ==> (k in c.fields <==> k in d) && (k in d ==> c.fields[k] == d[k]))
      && (k in p.fields && p.fields[k].Null? ==> k !in c.fields)
      && (k in p.fields && !p.fields[k].Null? ==>
            k in c.fields && c.fields[k] == MergePatch(if k in d then d[k] else Null, p.fields[k]))
  {
    BaseThenSeedThenPatch(defaults, p, fallback);
    MemberwiseEffect(AssignmentsMap(defaults), p.fields, k);
  }

  /**
   * A plugin that keeps its own parameter object across calls and seeds onto
   * it again each time: calling `set_params(p)` a second time with the same
   * argument leaves the configuration the first call produced.
   */
  lemma ReapplyingIsStable(defaults: seq<(string, Json)>, p: Json)
    requires defaults != []
    ensures SeedThenPatch(Null, defaults, p).Ok?
    ensures var c1 := SeedThenPatch(Null, defaults, p).value;
      c1.Null? || c1.Object? ==> SeedThenPatch(c1, defaults, p) == Ok(c1)
  {
    FirstConfiguration(defaults, p);
    var d := DefaultsObject(defaults);
    var c1 := MergePatch(d, p);
    if c1.Null? || c1.Object? {
      PutAllIsUnion(c1, defaults);
      var seeded := PutAll(c1, defaults).value;
      if p.Object? {
        var pm := p.fields;
        var dm := AssignmentsMap(defaults);
        // The reseeded object differs from c1 only on default keys, where c1
        // held either the default again or what the patch put there.
        assert seeded.fields == c1.fields + dm;
        forall k | k in pm && !pm[k].Null?
          ensures MergePatch(if k in seeded.fields then seeded.fields[k] else Null, pm[k]) == c1.fields[k]
        {
          var base_k := if k in dm then dm[k] else Null;
          Idempotent(base_k, pm[k]);
          if k in dm {
            assert seeded.fields[k] == dm[k];
          } else {
            assert seeded.fields[k] == c1.fields[k];
            assert c1.fields[k] == MergePatch(Null, pm[k]);
          }
        }
        assert MergePatch(seeded, p).fields == c1.fields;
      }
    }
  }
}

=== FILE: datastore.dfy ===
/**
 * The datastore: a JSON document persisted in one file, whose path is fixed
 * the first time it is prepared. The file system's answers (the temporary
 * directory, what a path holds) and the JSON parser are parameters.
 */
module Datastore {
  import opened Common
  import opened JsonValues

  const Extension: string := ".json"

  const WrongPath: string := "Wrong path, must be a file"

  // ---------------------------------------------------------------------------
  // Names and paths
  // ---------------------------------------------------------------------------

  /** Whether `s` ends with `suffix`. */
  predicate EndsWith(s: string, suffix: string) {
    |suffix| <= |s| && s[|s| - |suffix|..] == suffix
  }

  /** The file name `prepare` uses: ".json" is appended unless the name already ends with it. */
  function NormalName(name: string): (r: string)
    ensures EndsWith(r, Extension)
    ensures r == name <==> EndsWith(name, Extension)
    ensures r != name ==> r == name + Extension
  {
    if |name| < 5 || name[|name| - 5..] != Extension then
      assert (name + Extension)[|name + Extension| - 5..] == Extension;
      name + Extension
    else name
  }

  /** Normalising a normal name changes nothing. */
  lemma NormalNameIdempotent(name: string)
    ensures NormalName(NormalName(name)) == NormalName(name)
  {
  }

  /**
   * `std::filesystem::path`'s `operator/` on POSIX: an absolute right-hand
   * side replaces the left; otherwise a separator is inserted unless the left
   * is empty or already ends with one.
   */
  function Join(p: string, q: string): (r: string)
    ensures |q| > 0 && q[0] == '/' ==> r == q
    ensures EndsWith(r, q)
  {
    if |q| > 0 && q[0] == '/' then q
    else if p == "" || p[|p| - 1] == '/' then p + q
    else p + "/" + q
  }

  /** The index just past the last '/' of `path` (0 when there is none). */
  function FileNameStart(path: string): (i: nat)
    ensures i <= |path|
    ensures i > 0 ==> path[i - 1] == '/'
    ensures forall j :: i <= j < |path| ==> path[j] != '/'
    decreases |path|
  {
    if path == [] then 0
    else if path[|path| - 1] == '/' then |path|
    else FileNameStart(path[..|path| - 1])
  }

  /** `path.filename()`: what follows the last separator. */
  function FileName(path: string): (r: string)
    ensures forall j :: 0 <= j < |r| ==> r[j] != '/'
    ensures EndsWith(path, r)
  {
    path[FileNameStart(path)..]
  }

  /** The position of the last '.' in `s`, if any. */
  function LastDot(s: string): (r: Option<nat>)
    ensures r.Some? ==> r.value < |s| && s[r.value] == '.'
    ensures r.None? ==> forall j :: 0 <= j < |s| ==> s[j] != '.'
    decreases |s|
  {
    if s == [] then None
    else if s[|s| - 1] == '.' then Some(|s| - 1)
    else LastDot(s[..|s| - 1])
  }

  /**
   * `filename.stem()`: "." and "..", and a name whose only dot leads it, are
   * their own stem; otherwise the stem is what precedes the last dot.
   */
  function Stem(filename: string): string {
    if filename == "." || filename == ".." then filename
    else match LastDot(filename)
      case None => filename
      case Some(i) => if i == 0 then filename else filename[..i]
  }

  /** `path.has_stem()`. */
  predicate HasStem(path: string) {
    Stem(FileName(path)) != ""
  }

  /** A path has a stem exactly when it has a file name: it is not empty and does not end in a separator. */
  lemma HasStemIffFileName(path: string)
    ensures HasStem(path) <==> FileName(path) != ""
    ensures HasStem(path) <==> |path| > 0 && path[|path| - 1] != '/'
  {
    var f := FileName(path);
    if f != "" && f != "." && f != ".." {
      match LastDot(f)
      case None =>
      case Some(i) =>
        if i > 0 {
          assert |f[..i]| > 0;
        }
    }
  }

  // ---------------------------------------------------------------------------
  // The store
  // ---------------------------------------------------------------------------

  /** The path (empty until the first `prepare`) and the document. */
  datatype Store = Store(path: string, data: Json)

  /** What the file system holds at a path: nothing, a file that will not open, or a file's text. */
  datatype FileState = Missing | Unopenable | Contents(text: string)

  function New(): (s: Store)
    ensures s.path == "" && s.data == Null
  {
    Store("", Null)
  }

  /**
   * The data `prepare` loads: a missing file, or one that does not parse,
   * gives the null document; a file that exists but will not open leaves the
   * data as it was.
   */
  function Load(current: Json, file: FileState, parse: string -> Option<Json>): (r: Json)
    ensures file.Missing? ==> r == Null
    ensures file.Unopenable? ==> r == current
    ensures file.Contents? ==> r == parse(file.text).GetOr(Null)
  {
    match file
    case Missing => Null
    case Unopenable => current
    case Contents(text) => match parse(text) case Some(j) => j case None => Null
  }

  /**
   * `prepare(name)`: the name is normalised; a store without a path takes
   * `<tmp>/mads/<name>`; then the document is loaded from that path. Making
   * the parent directories is left out.
   */
  function Prepare(s: Store, name: string, tmp: string, files: string -> FileState,
                   parse: string -> Option<Json>): (r: Store)
    ensures s.path != "" ==> r.path == s.path
    ensures s.path == "" ==> EndsWith(r.path, NormalName(name)) && EndsWith(r.path, Extension)
    ensures r.path != ""
    ensures files(r.path).Missing? ==> r.data == Null
    ensures files(r.path).Unopenable? ==> r.data == s.data
    ensures files(r.path).Contents? ==> r.data == parse(files(r.path).text).GetOr(Null)
  {
    var path := if s.path == "" then Join(Join(tmp, "mads"), NormalName(name)) else s.path;
    EndsWithTransitive(Join(Join(tmp, "mads"), NormalName(name)), NormalName(name), Extension);
    Store(path, Load(s.data, files(path), parse))
  }

  /** The default path is used only while no path is set: once set, later calls never change it. */
  lemma PathIsSetOnce(s: Store, name: string, tmp: string, files: string -> FileState, parse: string -> Option<Json>)
    ensures s.path != "" ==> Prepare(s, name, tmp, files, parse).path == s.path
    ensures s.path == "" ==> Prepare(s, name, tmp, files, parse).path == Join(Join(tmp, "mads"), NormalName(name))
  {
  }

  /** A suffix of a suffix is a suffix. */
  lemma EndsWithTransitive(s: string, t: string, u: string)
    requires EndsWith(s, t) && EndsWith(t, u)
    ensures EndsWith(s, u)
  {
    assert s[|s| - |u|..] == s[|s| - |t|..][|t| - |u|..];
  }

  /** Joining a relative path onto a directory without a trailing separator inserts one separator. */
  lemma JoinRelative(p: string, q: string)
    requires p != "" && p[|p| - 1] != '/' && (q == "" || q[0] != '/')
    ensures Join(p, q) == p + "/" + q
  {
  }

  /** Normalising a relative name keeps it relative. */
  lemma NormalNameRelative(name: string)
    requires name == "" || name[0] != '/'
    ensures NormalName(name) == "" || NormalName(name)[0] != '/'
  {
    if NormalName(name) != name {
      assert NormalName(name)[0] == (name + Extension)[0];
    }
  }

  /** The default path ends with the normalised name; for a relative name it is `<tmp>/mads/<name>.json`. */
  lemma DefaultPathShape(name: string, tmp: string, files: string -> FileState, parse: string -> Option<Json>)
    requires tmp != "" && tmp[|tmp| - 1] != '/' && (name == "" || name[0] != '/')
    ensures var p := Prepare(New(), name, tmp, files, parse).path;
      && EndsWith(p, Extension) && EndsWith(p, NormalName(name))
      && p == tmp + "/mads/" + NormalName(name)
  {
    var n := NormalName(name);
    JoinRelative(tmp, "mads");
    var dir := tmp + "/" + "mads";
    assert dir[|dir| - 1] == 's';
    NormalNameRelative(name);
    JoinRelative(dir, n);
    var p := Join(dir, n);
    assert p == tmp + "/mads/" + n;
    EndsWithTransitive(p, n, Extension);
  }

  /**
   * `prepare(name, path)`: a path without a stem throws "Wrong path, must be
   * a file"; otherwise the path is taken verbatim, whatever the name, and the
   * document loaded from it.
   */
  function PrepareAt(s: Store, name: string, path: string, tmp: string, files: string -> FileState,
                     parse: string -> Option<Json>): (r: Result<Store>)
    ensures r.Throws? <==> !HasStem(path)
    ensures r.Throws? ==> r.what == WrongPath
    ensures r.Ok? ==> r.value.path == path && r.value.data == Load(s.data, files(path), parse)
  {
    if !HasStem(path) then Throws(WrongPath)
    else
      HasStemIffFileName(path);
      Ok(Prepare(s.(path := path), name, tmp, files, parse))
  }

  /** Preparing at a file path and then again by name alone keeps the file path. */
  lemma ExplicitPathSticks(s: Store, name1: string, name2: string, path: string, tmp: string,
                           files: string -> FileState, parse: string -> Option<Json>)
    requires HasStem(path)
    ensures var t := PrepareAt(s, name1, path, tmp, files, parse).value;
      Prepare(t, name2, tmp, files, parse).path == path
  {
    HasStemIffFileName(path);
  }

  /** `store[key]` read through the non-const `operator[]`: a missing key is inserted as null. */
  function Get(s: Store, key: string): (r: Result<(Json, Store)>)
    ensures r.Ok? <==> s.data.Null? || s.data.Object?
    ensures r.Ok? ==> r.value.0 == (if Contains(s.data, key) then s.data.fields[key] else Null)
    ensures r.Ok? ==> r.value.1.path == s.path && r.value.1.data.Object?
    ensures r.Ok? ==> r.value.1.data.fields == Fields(s.data)[key := r.value.0]
  {
    var a :- Index(s.data, key);
    Ok((a.value, s.(data := a.doc)))
  }

  /** `store[key] = v`: the key takes `v` and every other key is unchanged. */
  function Set(s: Store, key: string, v: Json): (r: Result<Store>)
    ensures r.Ok? <==> s.data.Null? || s.data.Object?
    ensures r.Ok? ==> r.value.path == s.path && r.value.data.Object?
    ensures r.Ok? ==> r.value.data.fields.Keys == Fields(s.data).Keys + {key}
    ensures r.Ok? ==> r.value.data.fields[key] == v
    ensures r.Ok? ==> forall k :: k in Fields(s.data) && k != key ==> r.value.data.fields[k] == s.data.fields[k]
  {
    var d :- Put(s.data, key, v);
    Ok(s.(data := d))
  }

  /** Reading a key after writing it gives the value written. */
  lemma SetThenGet(s: Store, key: string, v: Json)
    requires s.data.Null? || s.data.Object?
    ensures Get(Set(s, key, v).value, key) == Ok((v, Set(s, key, v).value))
  {
    var t := Set(s, key, v).value;
    assert t.data.fields[key := v] == t.data.fields;
  }
}

=== FILE: echoj.dfy ===
/**
 * The `echoj` filter: it hands back the last loaded input, its own parameter
 * object and the agent id, written over whatever the output already holds.
 */
module Echo {
  import opened Common
  import opened JsonValues
  import opened Roles

  /**
   * The filter's base state, the last loaded input, and the plugin's own
   * `_params` member, which hides the base class's member of the same name.
   */
  datatype State = State(base: FilterState, data: Json, params: Json)

  function New(): (s: State)
    ensures s.base == NewFilter() && s.data == Null && s.params == Null
  {
    State(NewFilter(), Null, Null)
  }

  /** `load_data`: the input is stored verbatim. */
  function LoadData(s: State, d: Json): (r: Transition<State>)
    ensures r.status == Success && r.state.data == d
    ensures r.state.params == s.params && r.state.base == s.base
  {
    Transition(Success, s.(data := d))
  }

  /**
   * `set_params`: the base binds the agent id (and stores its own copy); the
   * plugin's own parameters become the caller's object as it is, with no
   * defaults.
   */
  function SetParams(s: State, p: Json): (r: State)
    ensures r.params == p && r.data == s.data
    ensures r.base == FilterSetParams(s.base, p)
  {
    s.(base := FilterSetParams(s.base, p), params := p)
  }

  /** The three members `process` writes. */
  predicate Echoed(k: string) {
    k == "data" || k == "params" || k == "agent_id"
  }

  /**
   * `process`: `out["data"]`, `out["params"]` and `out["agent_id"]` are
   * assigned without clearing the output first, so every other member
   * survives. An output that is neither null nor an object throws.
   */
  function Process(s: State, out: Json): (r: Result<Step<State, Json>>)
    ensures r.Ok? <==> out.Null? || out.Object?
    ensures r.Ok? ==> r.value.status == Success && r.value.state == s && r.value.out.Object?
    ensures r.Ok? ==> var o := r.value.out.fields;
      && o.Keys == Fields(out).Keys + {"data", "params", "agent_id"}
      && o["data"] == s.data && o["params"] == s.params && o["agent_id"] == Str(s.base.agentId)
      && (forall k :: k in Fields(out) && !Echoed(k) ==> o[k] == Fields(out)[k])
  {
    var o1 :- Put(out, "data", s.data);
    var o2 := Put(o1, "params", s.params).value;
    var o3 := Put(o2, "agent_id", Str(s.base.agentId)).value;
    Ok(Step(Success, s, o3))
  }

  /** Echoing is idempotent: processing the output of a `process` again leaves it as it was. */
  lemma ProcessIsIdempotent(s: State, out: Json)
    requires out.Null? || out.Object?
    ensures var o := Process(s, out).value.out;
      Process(s, o) == Ok(Step(Success, s, o))
  {
    var o := Process(s, out).value.out;
    assert Process(s, o).value.out.fields == o.fields;
  }

  /** After `set_params(p)` and `load_data(d)`, `process` echoes exactly `d`, `p` and the agent id `p` names. */
  lemma ProcessEchoesLastCalls(s: State, p: Json, d: Json)
    requires Contains(p, "agent_id") && p.fields["agent_id"].Str?
    ensures var t := LoadData(SetParams(s, p), d).state;
      var o := Process(t, Null).value.out;
      o == Object(map["data" := d, "params" := p, "agent_id" := p.fields["agent_id"]])
  {
    var t := LoadData(SetParams(s, p), d).state;
    var o := Process(t, Null).value.out;
    assert o.fields == map["data" := d, "params" := p, "agent_id" := p.fields["agent_id"]];
  }
}

=== FILE: json.dfy ===
/**
 * A JSON document as nlohmann::json holds it, and the handful of nlohmann
 * accessors the plugins rely on, with their side effects and the type errors
 * they throw. Objects are maps: nlohmann keeps object members in a sorted
 * std::map, so iteration order is ascending key order (see `SortedKeys`).
 */
module JsonValues {
  import opened Common

  datatype Json =
    | Null
    | Bool(b: bool)
    | Int(i: int)
    | Float(r: real)
    | Str(s: string)
    | Array(elems: seq<Json>)
    | Object(fields: map<string, Json>)
  {
    predicate IsNumber() {
      Int? || Float?
    }
  }

  /** The empty object `{}`. */
  const EmptyObject: Json := Object(map[])

  /** nlohmann's `type_name()`. */
  function TypeName(j: Json): string {
    match j
    case Null => "null"
    case Bool(_) => "boolean"
    case Int(_) => "number"
    case Float(_) => "number"
    case Str(_) => "string"
    case Array(_) => "array"
    case Object(_) => "object"
  }

  /** The `what()` text of the type error thrown by a failed `get<T>()` conversion. */
  function ConversionError(target: string, j: Json): string {
    "[json.exception.type_error.302] type must be " + target + ", but is " + TypeName(j)
  }

  /** The `what()` text of the type error thrown by `operator[]` with a string key on a non-object. */
  function KeyAccessError(j: Json): string {
    "[json.exception.type_error.305] cannot use operator[] with a string argument with " + TypeName(j)
  }

  /** The `what()` text of the type error thrown by `operator[]` with a numeric index on a non-array. */
  function PositionError(j: Json): string {
    "[json.exception.type_error.305] cannot use operator[] with a numeric argument with " + TypeName(j)
  }

  /** The `what()` text of the type error thrown by `value(key, default)` on a non-object. */
  function ValueError(j: Json): string {
    "[json.exception.type_error.306] cannot use value() with " + TypeName(j)
  }

  /** `j.contains(k)`: only an object can contain a key. */
  predicate Contains(j: Json, k: string) {
    j.Object? && k in j.fields
  }

  /**
   * `j.clear()`: every value keeps its type and becomes that type's empty value
   * (null stays null).
   */
  function Clear(j: Json): (r: Json)
    ensures TypeName(r) == TypeName(j)
    ensures r.Object? ==> r.fields == map[]
    ensures r.Array? ==> r.elems == []
    ensures r.Str? ==> r.s == ""
    ensures j.Null? || j.Object? <==> r == Null || r == EmptyObject
  {
    match j
    case Null => Null
    case Bool(_) => Bool(false)
    case Int(_) => Int(0)
    case Float(_) => Float(0.0)
    case Str(_) => Str("")
    case Array(_) => Array([])
    case Object(_) => EmptyObject
  }

  /**
   * `j[k] = v`: a null document first becomes an object; any type other than
   * null or object throws.
   */
  function Put(j: Json, k: string, v: Json): (r: Result<Json>)
    ensures r.Ok? <==> j.Null? || j.Object?
    ensures r.Ok? ==> r.value.Object? && k in r.value.fields && r.value.fields[k] == v
    ensures r.Ok? ==> r.value.fields.Keys == (if j.Object? then j.fields.Keys else {}) + {k}
    ensures r.Ok? && j.Object? ==> forall o :: o in j.fields && o != k ==> r.value.fields[o] == j.fields[o]
    ensures r.Ok? ==> r.value == Object(Fields(j)[k := v])
  {
    match j
    case Null => Ok(Object(map[k := v]))
    case Object(m) => Ok(Object(m[k := v]))
    case _ => Throws(KeyAccessError(j))
  }

  /** A value read through the non-const `operator[]`, together with the document it leaves. */
  datatype Access = Access(value: Json, doc: Json)

  /**
   * Reading `j[k]` through the non-const `operator[]`: a missing key is inserted
   * with a null value (so the document changes), a null document becomes an
   * object first, and any other type throws.
   */
  function Index(j: Json, k: string): (r: Result<Access>)
    ensures r.Ok? <==> j.Null? || j.Object?
    ensures r.Ok? ==> r.value.doc.Object? && k in r.value.doc.fields
    ensures r.Ok? && Contains(j, k) ==> r.value == Access(j.fields[k], j)
    ensures r.Ok? && !Contains(j, k) ==> r.value.value == Null && Put(j, k, Null) == Ok(r.value.doc)
  {
    match j
    case Null => Ok(Access(Null, Object(map[k := Null])))
    case Object(m) =>
      if k in m then Ok(Access(m[k], j)) else Ok(Access(Null, Object(m[k := Null])))
    case _ => Throws(KeyAccessError(j))
  }

  /**
   * The value `j[i]` yields through the non-const `operator[]` with a numeric
   * index: an array's element, or null where null or a too-short array is
   * padded with nulls up to `i` (the padded document itself is not kept).
   * Any other value throws.
   */
  function ElementValue(j: Json, i: nat): (r: Result<Json>)
    ensures r.Ok? <==> j.Null? || j.Array?
    ensures j.Array? && i < |j.elems| ==> r == Ok(j.elems[i])
    ensures r.Ok? && !(j.Array? && i < |j.elems|) ==> r.value == Null
  {
    match j
    case Null => Ok(Null)
    case Array(es) => if i < |es| then Ok(es[i]) else Ok(Null)
    case _ => Throws(PositionError(j))
  }

  /** The member `k` of `j`, if `j` is an object that has it. */
  function Member(j: Json, k: string): Option<Json> {
    if Contains(j, k) then Some(j.fields[k]) else None
  }

  /** The members of an object; null (and any other value) has none. */
  function Fields(j: Json): map<string, Json> {
    if j.Object? then j.fields else map[]
  }

  /** The members of the object `j[k]`, or none when there is no such object. */
  function Slot(j: Json, k: string): map<string, Json> {
    if Contains(j, k) && j.fields[k].Object? then j.fields[k].fields else map[]
  }

  /** Whether `j[k][m] = v` succeeds: `j` and its member `k` must each be null, absent or an object. */
  predicate Writable(j: Json, k: string) {
    j.Null? || (j.Object? && (k in j.fields ==> j.fields[k].Null? || j.fields[k].Object?))
  }

  /** `j[k][m] = v` through two non-const `operator[]` calls. */
  function SetIn(j: Json, k: string, m: string, v: Json): (r: Result<Json>)
    ensures Writable(j, k) ==> r == Ok(Object(Fields(j)[k := Object(Slot(j, k)[m := v])]))
    ensures !Writable(j, k) ==> r.Throws?
  {
    var slot :- Index(j, k);
    var inner :- Put(slot.value, m, v);
    assert inner.fields == Slot(j, k)[m := v];
    var out := Put(slot.doc, k, inner).value;
    assert out.fields == Fields(j)[k := inner];
    Ok(out)
  }

  /** A value read and converted through the non-const `operator[]`, and the document the read leaves. */
  datatype Got<T> = Got(value: T, doc: Json)

  /** `T x = j[k];`: the read may insert a null member, and the conversion may throw. */
  function Read<T>(j: Json, k: string, conv: Json -> Result<T>): (r: Result<Got<T>>)
    ensures !(j.Null? || j.Object?) ==> r.Throws?
    ensures Contains(j, k) ==> (r.Ok? <==> conv(j.fields[k]).Ok?)
    ensures Contains(j, k) && r.Ok? ==> r.value == Got(conv(j.fields[k]).value, j)
    ensures (j.Null? || j.Object?) && !Contains(j, k) ==> (r.Ok? <==> conv(Null).Ok?)
  {
    var a :- Index(j, k);
    var v :- conv(a.value);
    Ok(Got(v, a.doc))
  }

  /**
   * `j.value(k, default)`: the converted member when the object has it, the
   * default when it does not; a non-object throws, and so does a member the
   * conversion rejects.
   */
  function ValueOr<T>(j: Json, k: string, default: T, conv: Json -> Result<T>): (r: Result<T>)
    ensures !j.Object? ==> r.Throws?
    ensures j.Object? && k !in j.fields ==> r == Ok(default)
    ensures j.Object? && k in j.fields ==> r == conv(j.fields[k])
  {
    if !j.Object? then Throws(ValueError(j))
    else if k in j.fields then conv(j.fields[k])
    else Ok(default)
  }

  // ---------------------------------------------------------------------------
  // Conversions performed by `get<T>()` and by implicit conversion operators.
  // ---------------------------------------------------------------------------

  /** Conversion to `std::string`: only a JSON string converts. */
  function AsString(j: Json): (r: Result<string>)
    ensures r.Ok? <==> j.Str?
    ensures r.Ok? ==> r.value == j.s
  {
    if j.Str? then Ok(j.s) else Throws(ConversionError("string", j))
  }

  /** C++ conversion of a floating value to an integer truncates toward zero. */
  function Truncate(r: real): (n: int)
    ensures r >= 0.0 ==> n as real <= r < n as real + 1.0
    ensures r < 0.0 ==> n as real - 1.0 < r <= n as real
  {
    if r >= 0.0 then r.Floor else -((-r).Floor)
  }

  const SizeModulus: nat := 0x1_0000_0000_0000_0000
  const UnsignedModulus: nat := 0x1_0000_0000

  /** Reduction of an integer into an unsigned type with `modulus` values (modular, as C++ defines it). */
  function WrapUnsigned(n: int, modulus: nat): (r: nat)
    requires modulus > 0
    ensures r < modulus
    ensures 0 <= n < modulus ==> r == n
  {
    n % modulus
  }

  /** Reduction of an integer into a 32-bit two's-complement `int`. */
  function WrapInt32(n: int): (r: int)
    ensures -0x8000_0000 <= r < 0x8000_0000
    ensures -0x8000_0000 <= n < 0x8000_0000 ==> r == n
  {
    (n + 0x8000_0000) % 0x1_0000_0000 - 0x8000_0000
  }

  /** The integer an arithmetic `get<T>()` reads before narrowing to T: booleans read as 0 or 1. */
  function AsInteger(j: Json): (r: Result<int>)
    ensures r.Ok? <==> j.IsNumber() || j.Bool?
    ensures j.Int? ==> r == Ok(j.i)
  {
    match j
    case Int(i) => Ok(i)
    case Float(x) => Ok(Truncate(x))
    case Bool(b) => Ok(if b then 1 else 0)
    case _ => Throws(ConversionError("number", j))
  }

  /** `get<int>()` (32-bit `int`). */
  function AsInt32(j: Json): (r: Result<int>)
    ensures r.Ok? <==> j.IsNumber() || j.Bool?
    ensures r.Ok? ==> -0x8000_0000 <= r.value < 0x8000_0000
    ensures j.Int? && -0x8000_0000 <= j.i < 0x8000_0000 ==> r == Ok(j.i)
  {
    var n :- AsInteger(j);
    Ok(WrapInt32(n))
  }

  /** `get<unsigned>()` (32-bit `unsigned`). */
  function AsUnsigned32(j: Json): (r: Result<nat>)
    ensures r.Ok? <==> j.IsNumber() || j.Bool?
    ensures r.Ok? ==> r.value < UnsignedModulus
    ensures j.Int? && 0 <= j.i < UnsignedModulus ==> r == Ok(j.i)
  {
    var n :- AsInteger(j);
    Ok(WrapUnsigned(n, UnsignedModulus))
  }

  /** `get<size_t>()` (64-bit `size_t`). */
  function AsSize(j: Json): (r: Result<nat>)
    ensures r.Ok? <==> j.IsNumber() || j.Bool?
    ensures r.Ok? ==> r.value < SizeModulus
    ensures j.Int? && 0 <= j.i < SizeModulus ==> r == Ok(j.i)
  {
    var n :- AsInteger(j);
    Ok(WrapUnsigned(n, SizeModulus))
  }

  /** `get<double>()`, idealised as a real. */
  function AsReal(j: Json): (r: Result<real>)
    ensures r.Ok? <==> j.IsNumber() || j.Bool?
    ensures j.Float? ==> r == Ok(j.r)
    ensures j.Int? ==> r == Ok(j.i as real)
  {
    match j
    case Int(i) => Ok(i as real)
    case Float(x) => Ok(x)
    case Bool(b) => Ok(if b then 1.0 else 0.0)
    case _ => Throws(ConversionError("number", j))
  }

  // ---------------------------------------------------------------------------
  // Key order: std::string's lexicographic comparison, used by std::map.
  // ---------------------------------------------------------------------------

  predicate StrLess(a: string, b: string)
    decreases |a|
  {
    if |b| == 0 then false
    else if |a| == 0 then true
    else if a[0] != b[0] then a[0] < b[0]
    else StrLess(a[1..], b[1..])
  }

  predicate StrLessEq(a: string, b: string) {
    a == b || StrLess(a, b)
  }

  lemma {:induction false} StrLessIrreflexive(a: string)
    ensures !StrLess(a, a)
    decreases |a|
  {
    if |a| > 0 {
      StrLessIrreflexive(a[1..]);
    }
  }

  lemma {:induction false} StrLessTransitive(a: string, b: string, c: string)
    requires StrLess(a, b) && StrLess(b, c)
    ensures StrLess(a, c)
    decreases |a|
  {
    if |a| > 0 && a[0] == b[0] && b[0] == c[0] {
      StrLessTransitive(a[1..], b[1..], c[1..]);
    }
  }

  lemma {:induction false} StrLessTotal(a: string, b: string)
    ensures a == b || StrLess(a, b) || StrLess(b, a)
    decreases |a|
  {
    if |a| > 0 && |b| > 0 && a[0] == b[0] {
      StrLessTotal(a[1..], b[1..]);
      if a[1..] == b[1..] {
        assert a == [a[0]] + a[1..] && b == [b[0]] + b[1..];
      }
    }
  }

  lemma StrLessAsymmetric(a: string, b: string)
    requires StrLess(a, b)
    ensures !StrLess(b, a) && a != b
  {
    if StrLess(b, a) {
      StrLessTransitive(a, b, a);
      StrLessIrreflexive(a);
    }
    if a == b {
      StrLessIrreflexive(a);
    }
  }

  /** Every non-empty finite set of keys has a greatest key. */
  lemma {:induction false} GreatestKeyExists(s: set<string>)
    requires s != {}
    ensures exists m :: m in s && forall y :: y in s ==> StrLessEq(y, m)
    decreases |s|
  {
    var x :| x in s;
    if s == {x} {
      assert x in s && forall y :: y in s ==> StrLessEq(y, x);
    } else {
      GreatestKeyExists(s - {x});
      var m :| m in s - {x} && forall y :: y in s - {x} ==> StrLessEq(y, m);
      StrLessTotal(x, m);
      if StrLess(m, x) {
        forall y | y in s
          ensures StrLessEq(y, x)
        {
          if y != x && y != m {
            assert y in s - {x};
            StrLessTransitive(y, m, x);
          }
        }
      } else {
        assert forall y :: y in s ==> StrLessEq(y, m);
      }
    }
  }

  lemma GreatestKeyUnique(s: set<string>, m1: string, m2: string)
    requires m1 in s && forall y :: y in s ==> StrLessEq(y, m1)
    requires m2 in s && forall y :: y in s ==> StrLessEq(y, m2)
    ensures m1 == m2
  {
    if m1 != m2 {
      assert StrLess(m1, m2) && StrLess(m2, m1);
      StrLessAsymmetric(m1, m2);
    }
  }

  /** The last key `std::map` iteration visits. */
  function GreatestKey(s: set<string>): (m: string)
    requires s != {}
    ensures m in s && forall y :: y in s ==> StrLessEq(y, m)
  {
    GreatestKeyExists(s);
    var m :| m in s && forall y :: y in s ==> StrLessEq(y, m);
    assert forall m2 :: m2 in s && (forall y :: y in s ==> StrLessEq(y, m2)) ==> m2 == m by {
      forall m2 | m2 in s && (forall y :: y in s ==> StrLessEq(y, m2)) {
        GreatestKeyUnique(s, m, m2);
      }
    }
    m
  }

  /** The keys of a set in the order `std::map` iterates them: strictly ascending. */
  function SortedKeys(s: set<string>): (r: seq<string>)
    ensures |r| == |s|
    ensures s != {} ==> r[|r| - 1] == GreatestKey(s)
    ensures forall k :: k in s <==> k in r
    ensures forall i, j :: 0 <= i < j < |r| ==> StrLess(r[i], r[j])
    decreases |s|
  {
    if s == {} then []
    else
      var m := GreatestKey(s);
      var rest := SortedKeys(s - {m});
      assert forall i :: 0 <= i < |rest| ==> StrLess(rest[i], m) by {
        forall i | 0 <= i < |rest|
          ensures StrLess(rest[i], m)
        {
          assert rest[i] in s - {m};
        }
      }
      rest + [m]
  }

  /** The values of an object in iteration order. */
  function ValuesInOrder(m: map<string, Json>): (r: seq<Json>)
    ensures |r| == |m|
    ensures forall v :: v in r ==> v in m.Values
  {
    var keys := SortedKeys(m.Keys);
    seq(|keys|, i requires 0 <= i < |keys| => m[keys[i]])
  }
}

=== FILE: loader.dfy ===
/**
 * The two host programs, `load_source` and `load_sink`: they load a plugin,
 * pick one of its drivers for their role, create one instance, configure it
 * and exercise it once. The plugin kernel (loading the shared library) is
 * reduced to the registry of drivers it ends up holding; the instance's
 * behaviour and the JSON files on disk are parameters.
 */
module Loader {
  import opened Common
  import opened JsonValues
  import opened Roles

  /** What distinguishes the two hosts: the server whose drivers they look for, the default name, and the data the instance is exercised with. */
  datatype Role = Role(server: string, defaultName: string, input: Json)

  /** `load_source` calls `get_output` on a default-constructed (null) document. */
  const SourceRole: Role := Role(SourceServerName, "plugin test", Null)

  /** `load_sink` calls `load_data` on `{"array": [1, 2, 3, 4]}`. */
  const SinkRole: Role := Role(SinkServerName, "echo test", Object(map["array" := Array([Int(1), Int(2), Int(3), Int(4)])]))

  /**
   * The instance a driver creates, seen from the host: `create`, then
   * `set_params`, then `info` (whose listing goes to the console, and whose
   * non-const `operator[]` reads can change the instance), then the one
   * exercising call (`get_output` or `load_data`), which hands back the
   * document it was given as modified. Every call after `create` may throw.
   */
  datatype Host<!P> = Host(create: Driver -> P, setParams: (P, Json) -> Result<P>, info: P -> Result<P>,
                          exercise: (P, Json) -> Result<(P, Json)>)

  /**
   * How `main` ends: the usage message (return 1), no driver to load
   * (exit 1), an exception escaping `main`, or one complete cycle with the
   * driver chosen, the parameters given and what the instance returned.
   */
  datatype Run<P> = Usage | NoDriver | Threw(what: string) | Completed(driver: Driver, params: Json, instance: P, result: Json)

  /** The process's exit status; an escaping exception terminates the process abnormally, with no status. */
  function ExitStatus<P>(r: Run<P>): (code: Option<int>)
    ensures code == Some(0) <==> r.Completed?
    ensures code == Some(1) <==> r.Usage? || r.NoDriver?
    ensures code.None? <==> r.Threw?
  {
    match r
    case Usage => Some(1)
    case NoDriver => Some(1)
    case Threw(_) => None
    case Completed(_, _, _, _) => Some(0)
  }

  // ---------------------------------------------------------------------------
  // Driver selection
  // ---------------------------------------------------------------------------

  /** The index of the last driver called `name`, if any. */
  function LastNamed(ds: seq<Driver>, name: string): (r: Option<nat>)
    ensures r.Some? ==> r.value < |ds| && ds[r.value].name == name
    decreases |ds|
  {
    if ds == [] then None
    else if ds[|ds| - 1].name == name then Some(|ds| - 1)
    else LastNamed(ds[..|ds| - 1], name)
  }

  /** `LastNamed` finds a driver exactly when one has the name, and no later driver has it. */
  lemma {:induction false} LastNamedIsLast(ds: seq<Driver>, name: string)
    ensures LastNamed(ds, name).None? <==> forall i :: 0 <= i < |ds| ==> ds[i].name != name
    ensures LastNamed(ds, name).Some? ==> forall j :: LastNamed(ds, name).value < j < |ds| ==> ds[j].name != name
    decreases |ds|
  {
    if ds != [] && ds[|ds| - 1].name != name {
      var front := ds[..|ds| - 1];
      LastNamedIsLast(front, name);
      assert forall i :: 0 <= i < |front| ==> front[i] == ds[i];
    }
  }

  /**
   * The driver `main` settles on: the only one when there is exactly one
   * (whatever the command line says); among several, the last whose name
   * equals the second argument, and none without a second argument.
   */
  function Selection(ds: seq<Driver>, argv: seq<string>): (r: Option<nat>)
    ensures r.Some? ==> r.value < |ds|
  {
    if |ds| == 1 then Some(0)
    else if |ds| > 1 && |argv| >= 3 then LastNamed(ds, argv[2])
    else None
  }

  /** The selection loop of `main`, scanning the drivers in order and keeping the last match. */
  method SelectDriver(ds: seq<Driver>, argv: seq<string>) returns (sel: Option<nat>)
    ensures sel == Selection(ds, argv)
  {
    sel := None;
    if |ds| == 1 {
      sel := Some(0);
    } else if |ds| > 1 {
      var i := 0;
      while i < |ds|
        invariant 0 <= i <= |ds|
        invariant sel == (if |argv| >= 3 then LastNamed(ds[..i], argv[2]) else None)
      {
        assert ds[..i + 1][..i] == ds[..i];
        if |argv| >= 3 && ds[i].name == argv[2] {
          sel := Some(i);
        }
        i := i + 1;
      }
      assert ds[..|ds|] == ds;
    }
  }

  // ---------------------------------------------------------------------------
  // Parameters
  // ---------------------------------------------------------------------------

  /** `params["name"] = <name>` on a null document. */
  function DefaultParams(name: string): (p: Json)
    ensures p.Object? && p.fields.Keys == {"name"} && p.fields["name"] == Str(name)
  {
    Put(Null, "name", Str(name)).value
  }

  /**
   * The parameters `main` hands to `set_params`, as written: the file named by
   * the second argument is parsed exactly when there are three arguments
   * (program, plugin, one more); otherwise the default object. `files` is
   * `json::parse` of the file at a path, throwing when it cannot.
   */
  function ParamsAsWritten(argv: seq<string>, files: string -> Result<Json>, defaultName: string): (r: Result<Json>)
    ensures |argv| == 3 ==> r == files(argv[2])
    ensures |argv| != 3 ==> r == Ok(DefaultParams(defaultName))
  {
    if |argv| == 3 then files(argv[2]) else Ok(DefaultParams(defaultName))
  }

  /**
   * The `json_file` that `main` computes and never uses: the argument after
   * the plugin when there is one driver, the argument after the matching
   * name when there are several, and empty otherwise.
   */
  function JsonFile(ds: seq<Driver>, argv: seq<string>): (f: string)
    ensures Selection(ds, argv).None? ==> f == ""
    ensures Selection(ds, argv).Some? && |ds| == 1 && |argv| >= 3 ==> f == argv[2]
    ensures Selection(ds, argv).Some? && |ds| > 1 && |argv| >= 4 ==> f == argv[3]
    ensures Selection(ds, argv).Some? && |argv| < (if |ds| == 1 then 3 else 4) ==> f == ""
  {
    if |ds| == 1 && |argv| >= 3 then argv[2]
    else if |ds| > 1 && |argv| >= 4 && LastNamed(ds, argv[2]).Some? then argv[3]
    else ""
  }

  /**
   * On a plugin with several drivers, the parameters as written are read from
   * a file named after the driver, and a JSON file given after the name is
   * ignored.
   */
  lemma ParamsAsWrittenMisreadArguments(files: string -> Result<Json>)
    ensures var ds := [SourceDriver("a", 2), SourceDriver("b", 2)];
      && Selection(ds, ["load_source", "plugin.so", "b"]) == Some(1)
      && ParamsAsWritten(["load_source", "plugin.so", "b"], files, "plugin test") == files("b")
    ensures var ds := [SourceDriver("a", 2), SourceDriver("b", 2)];
      && Selection(ds, ["load_source", "plugin.so", "b", "cfg.json"]) == Some(1)
      && JsonFile(ds, ["load_source", "plugin.so", "b", "cfg.json"]) == "cfg.json"
      && ParamsAsWritten(["load_source", "plugin.so", "b", "cfg.json"], files, "plugin test") == Ok(DefaultParams("plugin test"))
  {
  }

  /** The parameters the usage line `<plugin> [name] [json]` calls for: the `json_file`, when there is one. */
  function Params(ds: seq<Driver>, argv: seq<string>, files: string -> Result<Json>, defaultName: string): (r: Result<Json>)
    ensures Selection(ds, argv).None? ==> r == Ok(DefaultParams(defaultName))
    ensures r != Ok(DefaultParams(defaultName)) ==> exists i :: 2 <= i < |argv| && argv[i] != "" && r == files(argv[i])
  {
    var f := JsonFile(ds, argv);
    if f != "" then files(f) else Ok(DefaultParams(defaultName))
  }

  /**
   * With the parameters taken from `json_file`, a file is read exactly when
   * one follows the driver's name (or the plugin, for a single driver), and
   * with several drivers the name itself is never read as a file.
   */
  lemma ParamsFollowUsage(ds: seq<Driver>, argv: seq<string>, files: string -> Result<Json>, defaultName: string)
    requires Selection(ds, argv).Some?
    requires forall i :: 2 <= i < |argv| ==> argv[i] != ""
    ensures |ds| == 1 ==>
      Params(ds, argv, files, defaultName) == (if |argv| >= 3 then files(argv[2]) else Ok(DefaultParams(defaultName)))
    ensures |ds| > 1 ==>
      Params(ds, argv, files, defaultName) == (if |argv| >= 4 then files(argv[3]) else Ok(DefaultParams(defaultName)))
  {
  }

  // ---------------------------------------------------------------------------
  // main
  // ---------------------------------------------------------------------------

  /**
   * What follows the selection of driver `d`: one instance is created, given
   * `params` (an exception while reading them escapes `main`), listed by
   * `info` and exercised once with `input`.
   */
  function Cycle<P>(d: Driver, params: Result<Json>, input: Json, h: Host<P>): (r: Run<P>)
    ensures r.Threw? || r.Completed?
    ensures params.Throws? ==> r == Threw(params.what)
    ensures r.Completed? ==> r.driver == d && params == Ok(r.params)
    ensures params.Ok? && h.setParams(h.create(d), params.value).Throws? ==>
      r == Threw(h.setParams(h.create(d), params.value).what)
    ensures params.Ok? ==> var c := h.setParams(h.create(d), params.value);
      c.Ok? && h.info(c.value).Throws? ==> r == Threw(h.info(c.value).what)
  {
    var instance := h.create(d);
    match params
    case Throws(w) => Threw(w)
    case Ok(p) =>
      match h.setParams(instance, p)
      case Throws(w) => Threw(w)
      case Ok(configured) =>
        match h.info(configured)
        case Throws(w) => Threw(w)
        case Ok(listed) =>
          match h.exercise(listed, input)
          case Throws(w) => Threw(w)
          case Ok((done, result)) => Completed(d, p, done, result)
  }

  /**
   * `main`: fewer than two arguments print the usage; otherwise the drivers
   * the plugin registered for this role are listed and one selected (none:
   * exit 1 before anything is created); the instance is created, given its
   * parameters as written (the second argument read as a file when there
   * are exactly three arguments), listed and exercised once with the role's
   * input.
   */
  function Main<P>(argv: seq<string>, registry: seq<Driver>, role: Role, files: string -> Result<Json>,
                   h: Host<P>): (r: Run<P>)
    ensures r.Usage? <==> |argv| < 2
    ensures r.NoDriver? <==> |argv| >= 2 && Selection(DriversOf(registry, role.server), argv).None?
    ensures r.Completed? ==> r.driver in registry && r.driver.server == role.server
    ensures r.Completed? ==> Ok(r.params) == ParamsAsWritten(argv, files, role.defaultName)
    ensures |argv| >= 2 && ParamsAsWritten(argv, files, role.defaultName).Throws? ==> !r.Completed?
  {
    if |argv| < 2 then Usage
    else
      var ds := DriversOf(registry, role.server);
      match Selection(ds, argv)
      case None => NoDriver
      case Some(i) =>
        assert ds[i] in ds;
        Cycle(ds[i], ParamsAsWritten(argv, files, role.defaultName), role.input, h)
  }

  /**
   * `main` as its usage line `<plugin> [name] [json]` intends it: the same
   * run, except that the parameters are read from `json_file`.
   */
  function MainIntended<P>(argv: seq<string>, registry: seq<Driver>, role: Role, files: string -> Result<Json>,
                           h: Host<P>): (r: Run<P>)
    ensures r.Usage? <==> |argv| < 2
    ensures r.NoDriver? <==> |argv| >= 2 && Selection(DriversOf(registry, role.server), argv).None?
    ensures r.Completed? ==> r.driver in registry && r.driver.server == role.server
    ensures r.Completed? ==> Ok(r.params) == Params(DriversOf(registry, role.server), argv, files, role.defaultName)
  {
    if |argv| < 2 then Usage
    else
      var ds := DriversOf(registry, role.server);
      match Selection(ds, argv)
      case None => NoDriver
      case Some(i) =>
        assert ds[i] in ds;
        Cycle(ds[i], Params(ds, argv, files, role.defaultName), role.input, h)
  }

  /**
   * With a single driver and a non-empty file argument, the run as written
   * and the intended run agree; they part only in how arguments after the
   * plugin are read.
   */
  lemma SingleDriverRunsAgree<P>(argv: seq<string>, registry: seq<Driver>, role: Role,
                                 files: string -> Result<Json>, h: Host<P>)
    requires |DriversOf(registry, role.server)| == 1 && |argv| == 3 && argv[2] != ""
    ensures Main(argv, registry, role, files, h) == MainIntended(argv, registry, role, files, h)
  {
  }

  /** `load_source`'s `main`. */
  function LoadSource<P>(argv: seq<string>, registry: seq<Driver>, files: string -> Result<Json>, h: Host<P>): (r: Run<P>)
    ensures r.Completed? ==> r.driver.server == SourceServerName
  {
    Main(argv, registry, SourceRole, files, h)
  }

  /** `load_sink`'s `main`. */
  function LoadSink<P>(argv: seq<string>, registry: seq<Driver>, files: string -> Result<Json>, h: Host<P>): (r: Run<P>)
    ensures r.Completed? ==> r.driver.server == SinkServerName
  {
    Main(argv, registry, SinkRole, files, h)
  }

  /** A plugin with a single driver for the role always has it selected, whatever the name given. */
  lemma SingleDriverAlwaysSelected<P>(argv: seq<string>, registry: seq<Driver>, role: Role,
                                      files: string -> Result<Json>, h: Host<P>)
    requires |argv| >= 2 && |DriversOf(registry, role.server)| == 1
    ensures var r := Main(argv, registry, role, files, h);
      && !r.Usage? && !r.NoDriver?
      && (r.Completed? ==> r.driver == DriversOf(registry, role.server)[0])
  {
  }

  /**
   * Among several drivers, the one selected is named by the second argument
   * and no later driver has that name; nothing is selected when no driver
   * has it or there is no second argument.
   */
  lemma SeveralDriversSelectedByName<P>(argv: seq<string>, registry: seq<Driver>, role: Role,
                                        files: string -> Result<Json>, h: Host<P>)
    requires |argv| >= 2 && |DriversOf(registry, role.server)| > 1
    ensures var ds := DriversOf(registry, role.server);
      Main(argv, registry, role, files, h).NoDriver? <==>
        |argv| < 3 || forall i :: 0 <= i < |ds| ==> ds[i].name != argv[2]
    ensures var ds := DriversOf(registry, role.server);
      var r := Main(argv, registry, role, files, h);
      r.Completed? ==> && |argv| >= 3 && r.driver.name == argv[2]
                       && exists i :: 0 <= i < |ds| && ds[i] == r.driver
                                      && forall j :: i < j < |ds| ==> ds[j].name != argv[2]
  {
    var ds := DriversOf(registry, role.server);
    if |argv| >= 3 {
      LastNamedIsLast(ds, argv[2]);
      var r := Main(argv, registry, role, files, h);
      if r.Completed? {
        var i := LastNamed(ds, argv[2]).value;
        assert ds[i] == r.driver;
      }
    }
  }

  /** Without a registered driver for the role, `main` exits with 1 and creates nothing. */
  lemma NoDriversExit<P>(argv: seq<string>, registry: seq<Driver>, role: Role, files: string -> Result<Json>, h: Host<P>)
    requires |argv| >= 2 && forall d :: d in registry ==> d.server != role.server
    ensures Main(argv, registry, role, files, h) == NoDriver
    ensures ExitStatus(Main(argv, registry, role, files, h)) == Some(1)
  {
    var ds := DriversOf(registry, role.server);
    assert forall i :: 0 <= i < |ds| ==> ds[i] in ds;
  }

  /**
   * A completed run is one create, one `set_params` with the chosen
   * parameters, one `info` and one exercising call with the role's input,
   * in that order.
   */
  lemma OneCycle<P>(argv: seq<string>, registry: seq<Driver>, role: Role, files: string -> Result<Json>, h: Host<P>)
    ensures var r := Main(argv, registry, role, files, h);
      r.Completed? ==>
        && var c := h.setParams(h.create(r.driver), r.params);
        && c.Ok? && h.info(c.value).Ok?
        && h.exercise(h.info(c.value).value, role.input) == Ok((r.instance, r.result))
  {
  }

  /** An `info` that throws ends `main` with that exception, before the instance is exercised. */
  lemma InfoFailureEscapes<P>(argv: seq<string>, registry: seq<Driver>, role: Role, files: string -> Result<Json>,
                              h: Host<P>)
    requires |argv| >= 2 && Selection(DriversOf(registry, role.server), argv).Some?
    requires ParamsAsWritten(argv, files, role.defaultName).Ok?
    ensures var d := DriversOf(registry, role.server)[Selection(DriversOf(registry, role.server), argv).value];
      var c := h.setParams(h.create(d), ParamsAsWritten(argv, files, role.defaultName).value);
      c.Ok? && h.info(c.value).Throws? ==> Main(argv, registry, role, files, h) == Threw(h.info(c.value).what)
  {
  }
}

=== FILE: merge_patch.dfy ===
/**
 * JSON Merge Patch (section 2 of RFC 7396), as nlohmann's `merge_patch`
 * implements it, and the "seed defaults, then merge-patch the caller's
 * parameters" configuration step every plugin's `set_params` performs.
 */
module JsonMergePatch {
  import opened Common
  import opened JsonValues

  /**
   * `target.merge_patch(patch)`: a non-object patch replaces the target; an
   * object patch turns a non-object target into `{}`, deletes the members it
   * maps to null and merges every other member recursively (an absent member
   * of the target is merged as null).
   */
  function MergePatch(target: Json, patch: Json): (r: Json)
    ensures !patch.Object? ==> r == patch
    ensures patch.Object? ==> r.Object?
    decreases patch
  {
    match patch
    case Object(pm) =>
      var t := if target.Object? then target.fields else map[];
      Object(map k | k in t.Keys + pm.Keys && !(k in pm && pm[k].Null?) ::
               if k in pm then MergePatch(if k in t then t[k] else Null, pm[k]) else t[k])
    case _ => patch
  }

  /** A value with every null object member removed, at every depth. */
  function StripNulls(j: Json): (r: Json)
    ensures j.Object? <==> r.Object?
    ensures !j.Object? ==> r == j
  {
    match j
    case Object(m) => Object(map k | k in m && !m[k].Null? :: StripNulls(m[k]))
    case _ => j
  }

  /** What an object patch does to each member of an object target. */
  lemma MemberwiseEffect(t: map<string, Json>, pm: map<string, Json>, k: string)
    ensures var r := MergePatch(Object(t), Object(pm)).fields;
      && (k in pm && pm[k].Null? ==> k !in r)
      && (k !in pm ==> (k in r <==> k in t) && (k in t ==> r[k] == t[k]))
      && (k in pm && !pm[k].Null? ==> k in r && r[k] == MergePatch(if k in t then t[k] else Null, pm[k]))
  {
  }

  /** Patching with `{}` leaves an object unchanged (section 3 of RFC 7396). */
  lemma EmptyPatchIsIdentity(t: Json)
    requires t.Object?
    ensures MergePatch(t, EmptyObject) == t
  {
    assert MergePatch(t, EmptyObject).fields == t.fields;
  }

  /** An explicit null in the patch removes the member, whether or not the target had it. */
  lemma NullDeletes(t: Json, pm: map<string, Json>, k: string)
    requires k in pm && pm[k] == Null
    ensures k !in MergePatch(t, Object(pm)).fields
  {
  }

  /** A scalar or array member of the patch replaces the target's member wholesale. */
  lemma ScalarReplaces(t: Json, pm: map<string, Json>, k: string)
    requires k in pm && !pm[k].Null? && !pm[k].Object?
    ensures k in MergePatch(t, Object(pm)).fields
    ensures MergePatch(t, Object(pm)).fields[k] == pm[k]
  {
  }

  /** Merging into nothing yields the patch with its nulls removed. */
  lemma {:induction false} PatchOntoNull(p: Json)
    ensures MergePatch(Null, p) == StripNulls(p)
    decreases p
  {
    match p
    case Object(pm) =>
      forall k | k in pm && !pm[k].Null?
        ensures MergePatch(Null, pm[k]) == StripNulls(pm[k])
      {
        PatchOntoNull(pm[k]);
      }
      assert MergePatch(Null, p).fields == StripNulls(p).fields;
    case _ =>
  }

  /** Patching a value with itself also strips its nulls. */
  lemma {:induction false} PatchOntoSelf(p: Json)
    ensures MergePatch(p, p) == StripNulls(p)
    decreases p
  {
    match p
    case Object(pm) =>
      forall k | k in pm && !pm[k].Null?
        ensures MergePatch(pm[k], pm[k]) == StripNulls(pm[k])
      {
        PatchOntoSelf(pm[k]);
      }
      assert MergePatch(p, p).fields == StripNulls(p).fields;
    case _ =>
  }

  /** Merge patch is idempotent: applying the same patch twice is applying it once. */
  lemma {:induction false} Idempotent(t: Json, p: Json)
    ensures MergePatch(MergePatch(t, p), p) == MergePatch(t, p)
    decreases p
  {
    match p
    case Object(pm) =>
      var r := MergePatch(t, p);
      var tm := if t.Object? then t.fields else map[];
      forall k | k in pm && !pm[k].Null?
        ensures MergePatch(r.fields[k], pm[k]) == r.fields[k]
      {
        Idempotent(if k in tm then tm[k] else Null, pm[k]);
      }
      assert MergePatch(r, p).fields == r.fields;
    case _ =>
  }

  // ---------------------------------------------------------------------------
  // Seeding defaults with successive `params[k] = v` assignments.
  // ---------------------------------------------------------------------------

  /** The map the assignments `k0 = v0; k1 = v1; ...` build: a later assignment wins. */
  function AssignmentsMap(kvs: seq<(string, Json)>): (m: map<string, Json>)
    ensures kvs != [] ==> kvs[|kvs| - 1].0 in m && m[kvs[|kvs| - 1].0] == kvs[|kvs| - 1].1
    decreases |kvs|
  {
    if kvs == [] then map[]
    else map[kvs[0].0 := kvs[0].1] + AssignmentsMap(kvs[1..])
  }

  /** An assignment whose key no later assignment repeats adds that key to the map the later ones build. */
  lemma AssignmentsPrepend(kvs: seq<(string, Json)>, i: nat)
    requires i < |kvs| && kvs[i].0 !in AssignmentsMap(kvs[i + 1..])
    ensures AssignmentsMap(kvs[i..]) == AssignmentsMap(kvs[i + 1..])[kvs[i].0 := kvs[i].1]
  {
    assert kvs[i..][1..] == kvs[i + 1..];
  }

  /** `j[k0] = v0; j[k1] = v1; ...` through nlohmann's assigning `operator[]`. */
  function PutAll(j: Json, kvs: seq<(string, Json)>): (r: Result<Json>)
    decreases |kvs|
  {
    if kvs == [] then Ok(j)
    else
      var j' :- Put(j, kvs[0].0, kvs[0].1);
      PutAll(j', kvs[1..])
  }

  /** Seeding an object overrides its members with the assignments, later ones winning. */
  lemma {:induction false} PutAllOntoObject(m: map<string, Json>, kvs: seq<(string, Json)>)
    ensures PutAll(Object(m), kvs) == Ok(Object(m + AssignmentsMap(kvs)))
    decreases |kvs|
  {
    if kvs == [] {
      assert m + AssignmentsMap(kvs) == m;
    } else {
      var m' := m[kvs[0].0 := kvs[0].1];
      assert PutAll(Object(m), kvs) == PutAll(Object(m'), kvs[1..]);
      assert AssignmentsMap(kvs) == map[kvs[0].0 := kvs[0].1] + AssignmentsMap(kvs[1..]);
      PutAllOntoObject(m', kvs[1..]);
      UpdateThenUnion(m, kvs[0].0, kvs[0].1, AssignmentsMap(kvs[1..]));
    }
  }

  lemma UpdateThenUnion(m: map<string, Json>, k: string, v: Json, rest: map<string, Json>)
    ensures m[k := v] + rest == m + (map[k := v] + rest)
  {
  }

  /**
   * Seeding a null or object document with at least one default yields an
   * object holding the document's members overridden by the defaults; seeding
   * any other document throws on the first assignment.
   */
  lemma PutAllIsUnion(j: Json, kvs: seq<(string, Json)>)
    requires kvs != []
    ensures (j.Null? || j.Object?) ==>
      PutAll(j, kvs) == Ok(Object((if j.Object? then j.fields else map[]) + AssignmentsMap(kvs)))
    ensures !(j.Null? || j.Object?) ==> PutAll(j, kvs).Throws?
  {
    if j.Object? {
      PutAllOntoObject(j.fields, kvs);
    } else if j.Null? {
      var m: map<string, Json> := map[];
      PutAllOntoObject(m[kvs[0].0 := kvs[0].1], kvs[1..]);
      assert m[kvs[0].0 := kvs[0].1] + AssignmentsMap(kvs[1..]) == m + AssignmentsMap(kvs);
    }
  }

  /**
   * Patching an object that already holds the patch's own members (except where
   * the defaults override them) and some extra members gives what patching the
   * defaults alone gives, plus the extra members.
   */
  lemma SeededPatch(pm: map<string, Json>, d: map<string, Json>, extra: map<string, Json>)
    requires extra.Keys !! pm.Keys && extra.Keys !! d.Keys
    ensures MergePatch(Object(pm + extra + d), Object(pm))
         == Object(MergePatch(Object(d), Object(pm)).fields + extra)
  {
    var lhs := MergePatch(Object(pm + extra + d), Object(pm));
    var rhs := Object(MergePatch(Object(d), Object(pm)).fields + extra);
    forall k | k in pm && !pm[k].Null? && k !in d
      ensures MergePatch(pm[k], pm[k]) == MergePatch(Null, pm[k])
    {
      PatchOntoSelf(pm[k]);
      PatchOntoNull(pm[k]);
    }
    assert lhs.fields.Keys == rhs.fields.Keys;
    assert lhs.fields == rhs.fields;
  }
}

=== FILE: random.dfy ===
/**
 * The random source: every `get_output` reports a vector of normally
 * distributed numbers whose length is configured. The draws are a parameter.
 */
module Random {
  import opened Common
  import opened JsonValues
  import opened Roles

  /** The source's base state and the configured number of elements (`int`, uninitialised until `set_params`). */
  datatype State = State(base: SourceState, count: int)

  const Key: string := "number_of_elements"
  const DefaultCount: int := 10

  function New(): (s: State)
    ensures s.base == NewSource()
  {
    State(NewSource(), 0)
  }

  /**
   * `set_params`: the base binds the agent id, then `number_of_elements` is
   * read as `int` through the base's non-const `operator[]`. Any JSON
   * exception on the way (a non-object configuration, a missing member read
   * as the null it inserts, a non-numeric member) falls back to 10.
   */
  function SetParams(s: State, p: Json): (r: State)
    ensures Contains(p, Key) && AsInt32(p.fields[Key]).Ok? ==> r.count == AsInt32(p.fields[Key]).value
    ensures !(Contains(p, Key) && AsInt32(p.fields[Key]).Ok?) ==> r.count == DefaultCount
    ensures r.base.agentId == SourceSetParams(s.base, p).agentId && r.base.error == s.base.error
  {
    var b := SourceSetParams(s.base, p);
    match Index(b.params, Key)
    case Throws(_) => State(b, DefaultCount)
    case Ok(a) =>
      match AsInt32(a.value)
      case Ok(n) => State(b.(params := a.doc), n)
      case Throws(_) => State(b.(params := a.doc), DefaultCount)
  }

  /** The output of one call: the draws as numbers, and the agent id under two names. */
  function Report(draws: seq<real>, agentId: string): Json {
    Object(map["result" := Array(seq(|draws|, i requires 0 <= i < |draws| => Float(draws[i]))),
               "agent_id" := Str(agentId), "_agent_id" := Str(agentId)])
  }

  /**
   * `get_output`: `draws` are the `count` values the normal generator (mean
   * 42, deviation 1) produces for this call. The output is cleared and holds
   * them with the agent id, which is written even when empty.
   */
  function GetOutput(s: State, out: Json, draws: seq<real>): (r: Result<Step<State, Json>>)
    requires |draws| == s.count
    ensures out.Null? || out.Object? ==> r.Ok? && r.value.status == Success && r.value.state == s
    ensures !(out.Null? || out.Object?) ==> r.Throws?
    ensures r.Ok? ==> var o := r.value.out;
      && o.Object? && o.fields.Keys == {"result", "agent_id", "_agent_id"}
      && o.fields["result"].Array? && |o.fields["result"].elems| == s.count
      && (forall i :: 0 <= i < s.count ==> o.fields["result"].elems[i] == Float(draws[i]))
      && o.fields["agent_id"] == o.fields["_agent_id"] == Str(s.base.agentId)
  {
    var rep := Report(draws, s.base.agentId);
    var o1 :- Put(Clear(out), "result", rep.fields["result"]);
    var o2 := Put(o1, "agent_id", Str(s.base.agentId)).value;
    var o3 := Put(o2, "_agent_id", Str(s.base.agentId)).value;
    assert o3.fields == rep.fields;
    Ok(Step(Success, s, o3))
  }

  /** The configured count is the number of values each call reports. */
  lemma ConfiguredCountIsReported(s: State, p: Json, n: int, draws: seq<real>)
    requires Contains(p, Key) && p.fields[Key] == Int(n)
    requires 0 <= n < 0x8000_0000 && |draws| == n
    ensures SetParams(s, p).count == n
    ensures var o := GetOutput(SetParams(s, p), Null, draws).value.out;
      |o.fields["result"].elems| == n
  {
    assert AsInt32(p.fields[Key]) == Ok(n);
    var t := SetParams(s, p);
    assert t.count == n;
    assert GetOutput(t, Null, draws).Ok?;
  }

  /** Without a usable `number_of_elements`, ten values are reported. */
  lemma DefaultIsTen(s: State, p: Json)
    requires !Contains(p, Key)
    ensures SetParams(s, p).count == 10
  {
  }
}

=== FILE: restway.dfy ===
/**
 * The RESTway source: each `get_output` requests `<url>?page=<page>&size=<size>`
 * and outputs the URL and the parsed response body. The HTTP client, the JSON
 * serialiser that writes `page` and `size` into the URL, and the JSON parser
 * are parameters.
 */
module RestWay {
  import opened Common
  import opened JsonValues
  import opened JsonMergePatch
  import opened Roles
  import opened Configuration

  /** What the HTTP client hands back. */
  datatype Response = Response(code: int, body: string)

  /**
   * The source's base state (which `set_params` never touches: it does not
   * call the base), the plugin's own `_params`, and the last response.
   */
  datatype State = State(base: SourceState, params: Json, response: Option<Response>)

  const DefaultUrl: string := "http://localhost:5443/"

  const Defaults: seq<(string, Json)> := [("url", Str(DefaultUrl))]

  function New(): (s: State)
    ensures s.base == NewSource() && s.params == Null && s.response == None
  {
    State(NewSource(), Null, None)
  }

  /** `set_params`: `url` is set to the default and the caller's object merge-patched on top. */
  function SetParams(s: State, p: Json): (r: Result<State>)
    ensures r.Ok? <==> s.params.Null? || s.params.Object?
    ensures r.Ok? ==> r.value.base == s.base && r.value.response == s.response
  {
    var params :- SeedThenPatch(s.params, Defaults, p);
    Ok(s.(params := params))
  }

  /** A fresh source's configuration is `{"url": "http://localhost:5443/"}` merge-patched with the caller's object. */
  lemma FirstConfiguration(p: Json)
    ensures SetParams(New(), p) == Ok(New().(params := MergePatch(Object(map["url" := Str(DefaultUrl)]), p)))
  {
    Configuration.FirstConfiguration(Defaults, p);
    assert AssignmentsMap(Defaults) == map["url" := Str(DefaultUrl)];
  }

  /**
   * `get_output`: the URL is built from `url` (which must be a string) and
   * the serialised `page` and `size` (read through the non-const
   * `operator[]`, so missing ones become null members); the output is
   * cleared and given the URL, the URL requested, and the parsed body stored
   * as `result`. The response code plays no part in the status. A body that
   * does not parse throws.
   */
  function GetOutput(s: State, out: Json, dump: Json -> string, http: string -> Response,
                     parse: string -> Result<Json>): (r: Result<Step<State, Json>>)
    ensures r.Ok? ==> r.value.status == Success
    ensures r.Ok? ==> r.value.out.Object? && r.value.out.fields.Keys == {"url", "result"}
    ensures r.Ok? ==> r.value.out.fields["url"].Str?
                      && r.value.state.response == Some(http(r.value.out.fields["url"].s))
    ensures r.Ok? ==> r.value.state.base == s.base
  {
    var url :- JsonValues.Read(s.params, "url", AsString);
    var page :- Index(url.doc, "page");
    var size := Index(page.doc, "size").value;
    var requested := url.value + "?page=" + dump(page.value) + "&size=" + dump(size.value);
    var o1 :- Put(Clear(out), "url", Str(requested));
    var response := http(requested);
    var body :- parse(response.body);
    var o2 := Put(o1, "result", body).value;
    Ok(Step(Success, s.(params := size.doc, response := Some(response)), o2))
  }

  /**
   * With `url`, `page` and `size` configured, the requested URL is
   * `url + "?page=" + page + "&size=" + size`; the output holds exactly that
   * URL and the parsed body, and the call succeeds whatever the response
   * code, as long as the body parses.
   */
  lemma RequestedUrl(s: State, out: Json, dump: Json -> string, http: string -> Response,
                     parse: string -> Result<Json>)
    requires Contains(s.params, "url") && s.params.fields["url"].Str?
    requires Contains(s.params, "page") && Contains(s.params, "size")
    requires out.Null? || out.Object?
    ensures var f := s.params.fields;
      var url := f["url"].s + "?page=" + dump(f["page"]) + "&size=" + dump(f["size"]);
      var r := GetOutput(s, out, dump, http, parse);
      && (r.Ok? <==> parse(http(url).body).Ok?)
      && (r.Ok? ==> r.value == Step(Success, s.(response := Some(http(url))),
                                    Object(map["url" := Str(url), "result" := parse(http(url).body).value])))
  {
    var f := s.params.fields;
    var url := f["url"].s + "?page=" + dump(f["page"]) + "&size=" + dump(f["size"]);
    var r := GetOutput(s, out, dump, http, parse);
    if r.Ok? {
      assert r.value.out.fields == map["url" := Str(url), "result" := parse(http(url).body).value];
    }
  }

  /**
   * The listing `info` makes of a configuration: the `url` and `description`
   * members, each converted to a string through the non-const `operator[]`.
   * A member that is missing (read as the null it inserts) or that is not a
   * string makes the conversion throw.
   */
  function Describe(params: Json): (r: Result<(map<string, string>, Json)>)
    ensures r.Ok? <==> && Contains(params, "url") && params.fields["url"].Str?
                       && Contains(params, "description") && params.fields["description"].Str?
    ensures r.Ok? ==> r.value == (map["url" := params.fields["url"].s,
                                      "description" := params.fields["description"].s], params)
  {
    var url :- JsonValues.Read(params, "url", AsString);
    var description :- JsonValues.Read(url.doc, "description", AsString);
    Ok((map["url" := url.value, "description" := description.value], description.doc))
  }

  /** `info`: the listing of the plugin's own parameters. */
  function Info(s: State): (r: Result<(map<string, string>, State)>)
    ensures r.Ok? <==> && Contains(s.params, "url") && s.params.fields["url"].Str?
                       && Contains(s.params, "description") && s.params.fields["description"].Str?
    ensures r.Ok? ==> r.value == (map["url" := s.params.fields["url"].s,
                                      "description" := s.params.fields["description"].s], s)
  {
    var d :- Describe(s.params);
    Ok((d.0, s.(params := d.1)))
  }

  /**
   * Nothing in the defaults supplies a `description`: a source configured
   * from an object without one throws from `info`, which the host calls
   * right after `set_params`.
   */
  lemma InfoNeedsDescription(p: Json)
    requires !Contains(p, "description")
    ensures SetParams(New(), p).Ok? && Info(SetParams(New(), p).value).Throws?
  {
    FirstConfiguration(p);
    if p.Object? {
      MemberwiseEffect(map["url" := Str(DefaultUrl)], p.fields, "description");
    }
  }

  /** With a `description` and no `url`, `info` lists the default URL and that description. */
  lemma DescribedInfo(d: string)
    ensures var s := SetParams(New(), Object(map["description" := Str(d)]));
      s.Ok? && Info(s.value).Ok? && Info(s.value).value.0 == map["url" := DefaultUrl, "description" := d]
  {
    var pm := map["description" := Str(d)];
    FirstConfiguration(Object(pm));
    MemberwiseEffect(map["url" := Str(DefaultUrl)], pm, "url");
    MemberwiseEffect(map["url" := Str(DefaultUrl)], pm, "description");
  }

  /**
   * Paging members that are missing are written into the URL as serialised
   * nulls and stay behind in the configuration as null members.
   */
  lemma MissingPagingBecomesNull(s: State, out: Json, dump: Json -> string, http: string -> Response,
                                 parse: string -> Result<Json>)
    requires s.params.Object? && "url" in s.params.fields && s.params.fields["url"].Str?
    requires "page" !in s.params.fields && "size" !in s.params.fields
    requires out.Null? || out.Object?
    ensures var url := s.params.fields["url"].s + "?page=" + dump(Null) + "&size=" + dump(Null);
      var r := GetOutput(s, out, dump, http, parse);
      && (r.Ok? <==> parse(http(url).body).Ok?)
      && (r.Ok? ==> r.value.state.params == Object(s.params.fields["page" := Null]["size" := Null])
                    && r.value.out.fields["url"] == Str(url))
  {
  }
}

=== FILE: restway2.dfy ===
/**
 * The second RESTway source: each `get_output` looks a job up by name, then
 * lists its runs, lists the first run's files, downloads the first file and
 * deletes the run, over one REST connection set up on the first call. The
 * REST server, the JSON parser and the files written are modelled: the
 * server is a function from requests to responses, and the files written are
 * a map from file names to contents.
 */
module RestWayJobs {
  import opened Common
  import opened JsonValues
  import opened JsonMergePatch
  import opened Roles
  import opened Configuration
  import RestWay

  type Response = RestWay.Response

  datatype Method = Get | Delete

  /** One request on the connection: the verb, the connection's base URL, the path and the `Accept` header in force. */
  datatype Request = Request(verb: Method, base: string, path: string, accept: string)

  const AcceptJson: string := "application/json"
  const AcceptBinary: string := "application/octet-stream"

  /** The job collection's path (`API_PATH`). */
  const ApiPath: string := "/amw4analysis/job"

  const JobListError: string := "REST Error getting job list"
  const JobNotFound: string := "Job not found"
  const RunListError: string := "REST Error getting jobRun list"
  const FileListError: string := "REST Error getting zip files"
  const ContentError: string := "REST Error getting file content"
  const DeleteError: string := "REST Error deleting jobRun"

  /**
   * The source's base state (never touched: `set_params` does not call the
   * base), the plugin's own `_params`, the connection's base URL once it is
   * set up (`_initialized`), the `Accept` header last set on it, the requests
   * issued so far and the files written so far.
   */
  datatype State = State(base: SourceState, params: Json, conn: Option<string>, accept: string,
                         log: seq<Request>, files: map<string, string>)

  const Defaults: seq<(string, Json)> := [
    ("url", Str("https://192.168.1.55:5444")),
    ("jobId", Array([Str("MADS")])),
    ("description", Str("RESTway, a RESTful gateway")),
    ("page", Int(0)),
    ("size", Int(20)),
    ("id", Int(0)),
    ("delay", Int(1000))
  ]

  /** The defaults as a map (listed last assignment first). */
  const DefaultConfig: map<string, Json> := map[
    "delay" := Int(1000),
    "id" := Int(0),
    "size" := Int(20),
    "page" := Int(0),
    "description" := Str("RESTway, a RESTful gateway"),
    "jobId" := Array([Str("MADS")]),
    "url" := Str("https://192.168.1.55:5444")
  ]

  lemma DefaultsAreConfig()
    ensures AssignmentsMap(Defaults) == DefaultConfig
  {
    DefaultsFromDescription();
    AssignmentsPrepend(Defaults, 1);
    AssignmentsPrepend(Defaults, 0);
  }

  /** The last five defaults, as a map. */
  lemma DefaultsFromDescription()
    ensures AssignmentsMap(Defaults[2..]) == map["delay" := Int(1000), "id" := Int(0), "size" := Int(20), "page" := Int(0),
                                                 "description" := Str("RESTway, a RESTful gateway")]
  {
    DefaultsFromPage();
    AssignmentsPrepend(Defaults, 2);
  }

  /** The last four defaults, as a map. */
  lemma DefaultsFromPage()
    ensures AssignmentsMap(Defaults[3..]) == map["delay" := Int(1000), "id" := Int(0), "size" := Int(20), "page" := Int(0)]
  {
    assert AssignmentsMap(Defaults[6..]) == map["delay" := Int(1000)];
    AssignmentsPrepend(Defaults, 5);
    AssignmentsPrepend(Defaults, 4);
    AssignmentsPrepend(Defaults, 3);
  }


  function New(): (s: State)
    ensures s.base == NewSource() && s.params == Null && s.conn == None && s.log == [] && s.files == map[]
  {
    State(NewSource(), Null, None, "", [], map[])
  }

  /** `set_params`: the seven defaults are assigned, then the caller's object is merge-patched on top. */
  function SetParams(s: State, p: Json): (r: Result<State>)
    ensures r.Ok? <==> s.params.Null? || s.params.Object?
    ensures r.Ok? ==> r.value == s.(params := r.value.params)
  {
    var params :- SeedThenPatch(s.params, Defaults, p);
    Ok(s.(params := params))
  }

  /** A fresh source's configuration is the defaults merge-patched with the caller's object. */
  lemma FirstConfiguration(p: Json)
    ensures SetParams(New(), p) == Ok(New().(params := MergePatch(Object(DefaultConfig), p)))
  {
    Configuration.FirstConfiguration(Defaults, p);
    DefaultsAreConfig();
  }

  /** `info`: the same listing of `url` and `description` as the first RESTway source makes. */
  function Info(s: State): (r: Result<(map<string, string>, State)>)
    ensures r.Ok? <==> && Contains(s.params, "url") && s.params.fields["url"].Str?
                       && Contains(s.params, "description") && s.params.fields["description"].Str?
    ensures r.Ok? ==> r.value == (map["url" := s.params.fields["url"].s,
                                      "description" := s.params.fields["description"].s], s)
  {
    var d :- RestWay.Describe(s.params);
    Ok((d.0, s.(params := d.1)))
  }

  /**
   * Unlike the first RESTway source, this one has a default description: a
   * caller's object that sets neither member lists the default URL and
   * description without throwing.
   */
  lemma DefaultInfo(p: Json)
    requires p.Object? && "url" !in p.fields && "description" !in p.fields
    ensures var s := SetParams(New(), p);
      && s.Ok? && Info(s.value).Ok?
      && Info(s.value).value.0 == map["url" := "https://192.168.1.55:5444", "description" := "RESTway, a RESTful gateway"]
  {
    DescribedByDefaults(p);
  }

  /** The default `url` and `description` survive a caller's object that sets neither. */
  lemma DescribedByDefaults(p: Json)
    requires p.Object? && "url" !in p.fields && "description" !in p.fields
    ensures var r := SetParams(New(), p);
      && r.Ok? && Contains(r.value.params, "url") && Contains(r.value.params, "description")
      && r.value.params.fields["url"] == Str("https://192.168.1.55:5444")
      && r.value.params.fields["description"] == Str("RESTway, a RESTful gateway")
  {
    FirstConfiguration(p);
    MemberwiseEffect(DefaultConfig, p.fields, "url");
    MemberwiseEffect(DefaultConfig, p.fields, "description");
  }

  /** A caller that deletes the description with a null member makes `info` throw. */
  lemma DeletedDescriptionThrows(p: Json)
    requires Contains(p, "description") && p.fields["description"].Null?
    ensures SetParams(New(), p).Ok? && Info(SetParams(New(), p).value).Throws?
  {
    FirstConfiguration(p);
    NullDeletes(Object(DefaultConfig), p.fields, "description");
  }

  /**
   * `setup`, run only while no connection exists: the connection is made on
   * `url` (converted to a string, which throws when it is not one) and asks
   * for JSON.
   */
  function Setup(s: State): (r: Result<State>)
    ensures s.conn.Some? ==> r == Ok(s)
    ensures r.Ok? ==> r.value.conn.Some? && r.value.log == s.log && r.value.files == s.files && r.value.base == s.base
    ensures s.conn.None? && Contains(s.params, "url") && s.params.fields["url"].Str? ==>
      r == Ok(s.(conn := Some(s.params.fields["url"].s), accept := AcceptJson))
  {
    if s.conn.Some? then Ok(s)
    else
      var url :- JsonValues.Read(s.params, "url", AsString);
      Ok(s.(params := url.doc, conn := Some(url.value), accept := AcceptJson))
  }

  /**
   * The job name `_params["jobId"][0]`, converted to a string: the first
   * element of the `jobId` array. Anything else throws, a missing member or
   * an empty array because the padding null cannot convert.
   */
  function JobName(params: Json): (r: Result<string>)
    ensures r.Ok? <==> Contains(params, "jobId") && params.fields["jobId"].Array?
                       && |params.fields["jobId"].elems| > 0 && params.fields["jobId"].elems[0].Str?
    ensures r.Ok? ==> r.value == params.fields["jobId"].elems[0].s
  {
    var list :- Index(params, "jobId");
    var first :- ElementValue(list.value, 0);
    AsString(first)
  }

  /** With the default configuration the job looked up is "MADS". */
  lemma DefaultJobName()
    ensures JobName(MergePatch(Object(DefaultConfig), EmptyObject)) == Ok("MADS")
  {
    var c := MergePatch(Object(DefaultConfig), EmptyObject);
    assert c.fields["jobId"] == Array([Str("MADS")]);
  }

  /**
   * The job path as the source builds it: `API_PATH` has no trailing slash
   * and the id is appended straight to it. Every request path of the chain
   * starts with it.
   */
  function JobPathAsWritten(jobId: string): (p: string)
    ensures ApiPath <= p && p[|ApiPath|..] == jobId
  {
    ApiPath + jobId
  }

  /** The path of one run of a job: the job path, "/run/", the run id. */
  function RunPath(jobId: string, jobRunId: string): (p: string)
    ensures JobPathAsWritten(jobId) <= p && p[|JobPathAsWritten(jobId)|..] == "/run/" + jobRunId
  {
    JobPathAsWritten(jobId) + "/run/" + jobRunId
  }

  /** The listing of a job's runs: the job path followed by "/run/all". */
  function RunListPath(jobId: string): (p: string)
    ensures JobPathAsWritten(jobId) <= p && p[|JobPathAsWritten(jobId)|..] == "/run/all"
  {
    JobPathAsWritten(jobId) + "/run/all"
  }

  /** The listing of a run's files: the run path followed by "/file/all". */
  function FileListPath(jobId: string, jobRunId: string): (p: string)
    ensures RunPath(jobId, jobRunId) <= p && p[|RunPath(jobId, jobRunId)|..] == "/file/all"
  {
    RunPath(jobId, jobRunId) + "/file/all"
  }

  /** The content of one file of a run: the run path, "/file?fileName=", the file name. */
  function ContentPath(jobId: string, jobRunId: string, fileName: string): (p: string)
    ensures RunPath(jobId, jobRunId) <= p && p[|RunPath(jobId, jobRunId)|..] == "/file?fileName=" + fileName
  {
    RunPath(jobId, jobRunId) + "/file?fileName=" + fileName
  }

  /** The run, file-list and content paths extend one another as the resources nest. */
  lemma PathsNest(jobId: string, jobRunId: string, fileName: string)
    ensures JobPathAsWritten(jobId) <= RunListPath(jobId) && JobPathAsWritten(jobId) <= RunPath(jobId, jobRunId)
    ensures RunPath(jobId, jobRunId) <= FileListPath(jobId, jobRunId)
    ensures RunPath(jobId, jobRunId) <= ContentPath(jobId, jobRunId, fileName)
    ensures ContentPath(jobId, jobRunId, fileName)[|RunPath(jobId, jobRunId)|..] == "/file?fileName=" + fileName
  {
  }

  /** For job "42" the path as written names "/amw4analysis/job42", which is not below the job collection. */
  lemma JobPathAsWrittenLeavesCollection()
    ensures JobPathAsWritten("42") == "/amw4analysis/job42"
    ensures !(ApiPath + "/" <= JobPathAsWritten("42"))
    ensures RunListPath("42") == "/amw4analysis/job42/run/all"
    ensures RunPath("42", "7") == "/amw4analysis/job42/run/7"
  {
    assert (ApiPath + "/")[|ApiPath|] == '/';
    assert JobPathAsWritten("42")[|ApiPath|] == '4';
  }

  /** The path of one job as evidently intended: the collection's path, a slash, the job id. */
  function JobPath(jobId: string): (p: string)
    ensures |p| == |ApiPath| + 1 + |jobId|
  {
    ApiPath + "/" + jobId
  }

  /**
   * Every intended job path lies below the job collection, and the job id can
   * be read back from it, so distinct jobs get distinct paths.
   */
  lemma JobPathIsBelowCollection(jobId: string)
    ensures ApiPath + "/" <= JobPath(jobId)
    ensures JobPath(jobId)[|ApiPath| + 1..] == jobId
  {
    assert JobPath(jobId) == (ApiPath + "/") + jobId;
  }

  /** The intended path is the path as written with a slash put in front of the id. */
  lemma JobPathRepairsAsWritten(jobId: string)
    ensures JobPath(jobId) == JobPathAsWritten("/" + jobId)
  {
    assert ApiPath + "/" + jobId == ApiPath + ("/" + jobId);
  }

  /**
   * The outcome of one step of the chain: a value, a `runtime_error` (which
   * `get_output` catches) with the state reached, or a JSON exception (which
   * it does not).
   */
  datatype Attempt<T> = Fetched(value: T) | Refused(what: string, state: State) | Raised(what: string) {
    predicate IsFailure() {
      !Fetched?
    }

    function PropagateFailure<U>(): Attempt<U>
      requires !Fetched?
    {
      if Refused? then Refused(what, state) else Raised(what)
    }

    function Extract(): T
      requires Fetched?
    {
      value
    }
  }

  /** A JSON operation inside the chain: its exceptions escape. */
  function Lift<T>(r: Result<T>): (a: Attempt<T>)
    ensures a.Fetched? <==> r.Ok?
    ensures a.Fetched? ==> a.value == r.value
    ensures !a.Refused?
  {
    match r
    case Ok(v) => Fetched(v)
    case Throws(w) => Raised(w)
  }

  /**
   * One request on the connection with the given `Accept` header: a response
   * other than 200 throws the step's `runtime_error`; otherwise the body is
   * handed on.
   */
  function Call(s: State, serve: Request -> Response, verb: Method,
                path: string, accept: string, failure: string): (r: Attempt<(string, State)>)
    requires s.conn.Some?
    ensures var req := Request(verb, s.conn.value, path, accept);
      var t := s.(accept := accept, log := s.log + [req]);
      && (r.Fetched? <==> serve(req).code == 200)
      && (r.Fetched? ==> r.value == (serve(req).body, t))
      && (!r.Fetched? ==> r == Refused(failure, t))
  {
    var req := Request(verb, s.conn.value, path, accept);
    var t := s.(accept := accept, log := s.log + [req]);
    var response := serve(req);
    if response.code != 200 then Refused(failure, t) else Fetched((response.body, t))
  }

  /** What a range-based `for` visits in a JSON value: an array's elements, an object's values in key order, nothing in null, the value itself otherwise. */
  function Candidates(j: Json): (r: seq<Json>)
    ensures j.Array? ==> r == j.elems
    ensures j.Null? ==> r == []
  {
    match j
    case Null => []
    case Array(es) => es
    case Object(m) => ValuesInOrder(m)
    case _ => [j]
  }

  /** A listed job whose `name` is the name looked up. */
  predicate Named(c: Json, name: string) {
    c.Object? && "name" in c.fields && c.fields["name"] == Str(name)
  }

  /** A listed entry `r["name"]` can be read from without throwing: an object, or null. */
  predicate Readable(c: Json) {
    c.Null? || c.Object?
  }

  /** Entry `k` is the first job with the name, and every entry before it was read without throwing. */
  predicate FirstMatchAt(cands: seq<Json>, name: string, k: int) {
    && 0 <= k < |cands| && Named(cands[k], name)
    && forall j :: 0 <= j < k ==> Readable(cands[j]) && !Named(cands[j], name)
  }

  /**
   * The loop of `get_jobId`: the entries are visited in order; the first
   * whose `name` equals the name gives its `id` (converted to a string).
   * `None` stands for running off the end.
   */
  function FindJob(cands: seq<Json>, name: string): (r: Result<Option<string>>)
    ensures r.Ok? && r.value.Some? ==> exists k :: 0 <= k < |cands| && Named(cands[k], name)
    ensures r.Ok? && r.value.None? ==> forall k :: 0 <= k < |cands| ==> !Named(cands[k], name)
    decreases |cands|
  {
    if cands == [] then Ok(None)
    else
      var entry :- Index(cands[0], "name");
      if entry.value == Str(name) then
        var id :- AsString(Index(cands[0], "id").value.value);
        Ok(Some(id))
      else
        var r := FindJob(cands[1..], name);
        assert forall k :: 0 <= k < |cands[1..]| ==> cands[1..][k] == cands[k + 1];
        r
  }

  /** Entry `k` is the first job with the name and its `id` is the string `id`. */
  predicate IdentifiedAt(cands: seq<Json>, name: string, k: int, id: string) {
    FirstMatchAt(cands, name, k) && "id" in cands[k].fields && cands[k].fields["id"] == Str(id)
  }

  /** The search yields `id` exactly when the first job with the name has that `id`. */
  lemma {:induction false} FindJobFindsFirst(cands: seq<Json>, name: string, id: string)
    ensures FindJob(cands, name) == Ok(Some(id)) <==> exists k :: IdentifiedAt(cands, name, k, id)
    decreases |cands|
  {
    if cands != [] {
      var c := cands[0];
      var rest := cands[1..];
      if Readable(c) && !Named(c, name) {
        assert FindJob(cands, name) == FindJob(rest, name);
        FindJobFindsFirst(rest, name, id);
        if k :| IdentifiedAt(cands, name, k, id) {
          assert k > 0;
          assert forall j :: 0 <= j < k - 1 ==> rest[j] == cands[j + 1];
          assert IdentifiedAt(rest, name, k - 1, id);
        }
        if k :| IdentifiedAt(rest, name, k, id) {
          assert forall j :: 1 <= j < k + 1 ==> cands[j] == rest[j - 1];
          assert IdentifiedAt(cands, name, k + 1, id);
        }
      } else if Named(c, name) {
        assert forall k :: FirstMatchAt(cands, name, k) ==> k == 0;
        if "id" in c.fields && c.fields["id"] == Str(id) {
          assert IdentifiedAt(cands, name, 0, id);
        } else {
          var idv := Index(c, "id").value.value;
          assert idv == (if "id" in c.fields then c.fields["id"] else Null);
          assert FindJob(cands, name).Ok? ==> AsString(idv) == Ok(FindJob(cands, name).value.value);
        }
      } else {
        assert FindJob(cands, name).Throws?;
      }
    }
  }

  /** The search runs off the end exactly when every entry was read and none has the name. */
  lemma {:induction false} FindJobMisses(cands: seq<Json>, name: string)
    ensures FindJob(cands, name) == Ok(None) <==> forall j :: 0 <= j < |cands| ==> Readable(cands[j]) && !Named(cands[j], name)
    decreases |cands|
  {
    if cands != [] {
      var c := cands[0];
      var rest := cands[1..];
      FindJobMisses(rest, name);
      assert forall j :: 1 <= j < |cands| ==> cands[j] == rest[j - 1];
      if Readable(c) && !Named(c, name) {
        assert FindJob(cands, name) == FindJob(rest, name);
      } else if !Readable(c) {
        assert FindJob(cands, name).Throws?;
      }
    }
  }

  /**
   * The search yields the `id` of the first job with the name, and reports
   * no job exactly when every entry was read and none has the name.
   */
  lemma FindJobIsFirstMatch(cands: seq<Json>, name: string)
    ensures forall id :: FindJob(cands, name) == Ok(Some(id)) <==> exists k :: IdentifiedAt(cands, name, k, id)
    ensures FindJob(cands, name) == Ok(None) <==> forall j :: 0 <= j < |cands| ==> Readable(cands[j]) && !Named(cands[j], name)
  {
    forall id
      ensures FindJob(cands, name) == Ok(Some(id)) <==> exists k :: IdentifiedAt(cands, name, k, id)
    {
      FindJobFindsFirst(cands, name, id);
    }
    FindJobMisses(cands, name);
  }

  /**
   * `result[0][key]` converted to a string, as `get_jobRunId` and
   * `get_fileName` read their answers: the first element of an array, which
   * must be an object holding a string under `key`.
   */
  function FirstMember(result: Json, key: string): (r: Result<string>)
    ensures r.Ok? <==> result.Array? && |result.elems| > 0 && Contains(result.elems[0], key) && result.elems[0].fields[key].Str?
    ensures r.Ok? ==> r.value == result.elems[0].fields[key].s
  {
    var first :- ElementValue(result, 0);
    var member :- Index(first, key);
    AsString(member.value)
  }

  /** The request listing the jobs, the first of every chain. */
  function ListRequest(s: State): Request
    requires s.conn.Some?
  {
    Request(Get, s.conn.value, ApiPath, AcceptJson)
  }

  /** `s` after one more request `req` with the header `accept` in force. */
  function Issued(s: State, req: Request): State {
    s.(accept := req.accept, log := s.log + [req])
  }

  /**
   * `get_jobId`: list the jobs and pick the first with the name. A job list
   * not answered with 200, or without the job, is a `runtime_error`.
   */
  function GetJobId(s: State, serve: Request -> Response, parse: string -> Result<Json>, name: string): (r: Attempt<(string, State)>)
    requires s.conn.Some?
    ensures var t := Issued(s, ListRequest(s));
      && (r.Fetched? ==> && r.value.1 == t && serve(ListRequest(s)).code == 200
                         && parse(serve(ListRequest(s)).body).Ok?
                         && FindJob(Candidates(parse(serve(ListRequest(s)).body).value), name) == Ok(Some(r.value.0)))
      && (r.Refused? ==> r.state == t)
  {
    var list :- Call(s, serve, Get, ApiPath, AcceptJson, JobListError);
    var jobs :- Lift(parse(list.0));
    var found :- Lift(FindJob(Candidates(jobs), name));
    if found.Some? then Fetched((found.value, list.1)) else Refused(JobNotFound, list.1)
  }

  /**
   * `get_jobRunId` and `get_fileName`: one GET with the JSON header; a
   * response other than 200 is the step's `runtime_error`, otherwise the
   * answer's `[0][key]` as a string.
   */
  function GetFirst(s: State, serve: Request -> Response, parse: string -> Result<Json>,
                    path: string, failure: string, key: string): (r: Attempt<(string, State)>)
    requires s.conn.Some?
    ensures var req := Request(Get, s.conn.value, path, AcceptJson);
      && (r.Fetched? ==> && r.value.1 == Issued(s, req) && serve(req).code == 200
                         && parse(serve(req).body).Ok? && FirstMember(parse(serve(req).body).value, key) == Ok(r.value.0))
      && (r.Refused? ==> r == Refused(failure, Issued(s, req)) && serve(req).code != 200)
  {
    var reply :- Call(s, serve, Get, path, AcceptJson, failure);
    var doc :- Lift(parse(reply.0));
    var v :- Lift(FirstMember(doc, key));
    Fetched((v, reply.1))
  }

  /** `save_fileContent`: a GET with the binary header; the body is written to a file of the given name. */
  function SaveFileContent(s: State, serve: Request -> Response, path: string, fileName: string): (r: Attempt<State>)
    requires s.conn.Some?
    ensures var req := Request(Get, s.conn.value, path, AcceptBinary);
      && (r.Fetched? <==> serve(req).code == 200)
      && (r.Fetched? ==> r.value == Issued(s, req).(files := s.files[fileName := serve(req).body]))
      && (r.Refused? ==> r == Refused(ContentError, Issued(s, req)))
  {
    var content :- Call(s, serve, Get, path, AcceptBinary, ContentError);
    Fetched(content.1.(files := content.1.files[fileName := content.0]))
  }

  /** `delete_jobRun`: a DELETE, under whatever header is in force. */
  function DeleteJobRun(s: State, serve: Request -> Response, path: string): (r: Attempt<State>)
    requires s.conn.Some?
    ensures var req := Request(Delete, s.conn.value, path, s.accept);
      && (r.Fetched? <==> serve(req).code == 200)
      && (r.Fetched? ==> r.value == Issued(s, req))
      && (r.Refused? ==> r == Refused(DeleteError, Issued(s, req)))
  {
    var deleted :- Call(s, serve, Delete, path, s.accept, DeleteError);
    Fetched(deleted.1)
  }

  /**
   * `t` continues `log` with between one and `k` requests, every one of them
   * but the last answered with 200: the trail a chain leaves when a step
   * fails.
   */
  predicate Stopped(log: seq<Request>, t: seq<Request>, serve: Request -> Response, k: nat) {
    && |log| < |t| <= |log| + k && t[..|log|] == log
    && forall i :: |log| <= i < |t| - 1 ==> serve(t[i]).code == 200
  }

  /** A request answered with 200 in front of a stopped trail makes a trail one request longer. */
  lemma StoppedAfter(log: seq<Request>, req: Request, t: seq<Request>, serve: Request -> Response, k: nat)
    requires serve(req).code == 200 && Stopped(log + [req], t, serve, k)
    ensures Stopped(log, t, serve, k + 1)
  {
    assert t[..|log|] == t[..|log| + 1][..|log|];
    assert t[|log|] == (log + [req])[|log|];
  }

  /** The requests of steps three to five: the run's file list, the file's content, the run's deletion. */
  function FileTrail(conn: string, jobId: string, runId: string, fileName: string): (t: seq<Request>) {
    [Request(Get, conn, FileListPath(jobId, runId), AcceptJson),
     Request(Get, conn, ContentPath(jobId, runId, fileName), AcceptBinary),
     Request(Delete, conn, RunPath(jobId, runId), AcceptBinary)]
  }

  /** The requests of steps two to five: the job's run list, then the file trail. */
  function RunTrail(conn: string, jobId: string, runId: string, fileName: string): (t: seq<Request>) {
    [Request(Get, conn, RunListPath(jobId), AcceptJson)] + FileTrail(conn, jobId, runId, fileName)
  }

  /** Every request of `reqs` was answered with 200. */
  predicate AllOk(reqs: seq<Request>, serve: Request -> Response) {
    forall i :: 0 <= i < |reqs| ==> serve(reqs[i]).code == 200
  }

  /** Steps three to five: list the run's files, download the first file, delete the run. */
  function FileSteps(s: State, serve: Request -> Response, parse: string -> Result<Json>,
                     jobId: string, runId: string): (r: Attempt<State>)
    requires s.conn.Some?
    ensures r.Fetched? ==> exists fileName ::
      var trail := FileTrail(s.conn.value, jobId, runId, fileName);
      && r.value == s.(accept := AcceptBinary, log := s.log + trail, files := s.files[fileName := serve(trail[1]).body])
      && AllOk(trail, serve)
    ensures r.Refused? ==> Stopped(s.log, r.state.log, serve, 3) && r.state.conn == s.conn
                           && r.state.base == s.base && r.state.params == s.params
  {
    var file :- GetFirst(s, serve, parse, FileListPath(jobId, runId), FileListError, "fileName");
    var saved :- SaveFileContent(file.1, serve, ContentPath(jobId, runId, file.0), file.0);
    var trail := FileTrail(s.conn.value, jobId, runId, file.0);
    assert saved.log == s.log + trail[..2];
    var r := DeleteJobRun(saved, serve, RunPath(jobId, runId));
    if r.Fetched? then
      assert s.log + trail[..2] + [trail[2]] == s.log + trail;
      r
    else r
  }

  /** Steps two to five: list the job's runs, then the steps on its first run. */
  function RunSteps(s: State, serve: Request -> Response, parse: string -> Result<Json>, jobId: string): (r: Attempt<State>)
    requires s.conn.Some?
    ensures r.Fetched? ==> exists runId, fileName ::
      var trail := RunTrail(s.conn.value, jobId, runId, fileName);
      && r.value == s.(accept := AcceptBinary, log := s.log + trail, files := s.files[fileName := serve(trail[2]).body])
      && AllOk(trail, serve)
    ensures r.Refused? ==> Stopped(s.log, r.state.log, serve, 4) && r.state.conn == s.conn
                           && r.state.base == s.base && r.state.params == s.params
  {
    var run :- GetFirst(s, serve, parse, RunListPath(jobId), RunListError, "jobRunId");
    var r1 := Request(Get, s.conn.value, RunListPath(jobId), AcceptJson);
    var rest := FileSteps(run.1, serve, parse, jobId, run.0);
    if rest.Refused? then
      StoppedAfter(s.log, r1, rest.state.log, serve, 3);
      rest
    else if rest.Fetched? then
      var fileName :| var trail := FileTrail(s.conn.value, jobId, run.0, fileName);
        && rest.value == run.1.(accept := AcceptBinary, log := run.1.log + trail, files := run.1.files[fileName := serve(trail[1]).body])
        && AllOk(trail, serve);
      var trail := RunTrail(s.conn.value, jobId, run.0, fileName);
      assert s.log + [r1] + trail[1..] == s.log + trail;
      assert AllOk(trail, serve);
      rest
    else rest
  }

  /**
   * The `try` block of `get_output`: find the job, then its first run, that
   * run's first file, download the file and delete the run. The first
   * failure ends the chain.
   */
  function Chain(s: State, serve: Request -> Response, parse: string -> Result<Json>, name: string): (r: Attempt<State>)
    requires s.conn.Some?
    ensures r.Fetched? ==> r.value.conn == s.conn && r.value.base == s.base && r.value.params == s.params
    ensures r.Refused? ==> && Stopped(s.log, r.state.log, serve, 5)
                           && r.state.conn == s.conn && r.state.base == s.base && r.state.params == s.params
  {
    var job :- GetJobId(s, serve, parse, name);
    var rest := RunSteps(job.1, serve, parse, job.0);
    if rest.Refused? then
      StoppedAfter(s.log, ListRequest(s), rest.state.log, serve, 4);
      rest
    else rest
  }

  /**
   * A completed chain issued exactly five requests, in order: the job list,
   * the job's runs, the run's files, the file's content and the deletion of
   * the run, all answered with 200; the job is the first one with the name
   * in the list, and the content is saved under the file's name.
   */
  lemma ChainCompleted(s: State, serve: Request -> Response, parse: string -> Result<Json>, name: string)
    requires s.conn.Some?
    ensures var c := Chain(s, serve, parse, name);
      c.Fetched? ==>
      var t := c.value;
      var list := ListRequest(s);
      && serve(list).code == 200 && parse(serve(list).body).Ok?
      && exists jobId, runId, fileName ::
           var trail := RunTrail(s.conn.value, jobId, runId, fileName);
           && FindJob(Candidates(parse(serve(list).body).value), name) == Ok(Some(jobId))
           && t.log == s.log + [list] + trail && AllOk(trail, serve)
           && t.files == s.files[fileName := serve(trail[2]).body]
  {
    if Chain(s, serve, parse, name).Fetched? {
      var job := GetJobId(s, serve, parse, name).value;
      var jobId := job.0;
      var runId, fileName :| var trail := RunTrail(s.conn.value, jobId, runId, fileName);
        && RunSteps(job.1, serve, parse, jobId).value
             == job.1.(accept := AcceptBinary, log := job.1.log + trail, files := job.1.files[fileName := serve(trail[2]).body])
        && AllOk(trail, serve);
    }
  }

  /**
   * A chain that stopped on a `runtime_error` issued between one and five
   * requests, every one of them but the last answered with 200: the first
   * failure skips every later step.
   */
  lemma ChainStopsAtFirstFailure(s: State, serve: Request -> Response, parse: string -> Result<Json>, name: string)
    requires s.conn.Some?
    ensures var c := Chain(s, serve, parse, name);
      c.Refused? ==>
      var t := c.state;
      var n := |s.log|;
      && n < |t.log| <= n + 5 && t.log[..n] == s.log
      && (forall i :: n <= i < |t.log| - 1 ==> serve(t.log[i]).code == 200)
  {
  }

  /** A job list answered with anything but 200 ends the chain after that one request. */
  lemma ListFailureStops(s: State, serve: Request -> Response, parse: string -> Result<Json>, name: string)
    requires s.conn.Some? && serve(ListRequest(s)).code != 200
    ensures Chain(s, serve, parse, name) == Refused(JobListError, s.(accept := AcceptJson, log := s.log + [ListRequest(s)]))
  {
  }

  /** A job list in which no entry has the name ends the chain with "Job not found" after that one request. */
  lemma UnknownJobStops(s: State, serve: Request -> Response, parse: string -> Result<Json>, name: string)
    requires s.conn.Some? && serve(ListRequest(s)).code == 200
    requires parse(serve(ListRequest(s)).body).Ok?
    requires var cands := Candidates(parse(serve(ListRequest(s)).body).value);
      forall j :: 0 <= j < |cands| ==> Readable(cands[j]) && !Named(cands[j], name)
    ensures Chain(s, serve, parse, name) == Refused(JobNotFound, s.(accept := AcceptJson, log := s.log + [ListRequest(s)]))
  {
    FindJobIsFirstMatch(Candidates(parse(serve(ListRequest(s)).body).value), name);
  }

  /**
   * `get_output`: the connection is set up on the first call only; the chain
   * runs on the job named by `jobId[0]`; a `runtime_error` anywhere in it
   * makes the status an error (after `delay`, which must be a number, is
   * read for the sleep); JSON exceptions escape. The output is never
   * written, and the base's error text is left alone.
   */
  function GetOutput(s: State, out: Json, serve: Request -> Response, parse: string -> Result<Json>): (r: Result<Step<State, Json>>)
    ensures r.Ok? ==> r.value.out == out
    ensures r.Ok? ==> r.value.status == Success || r.value.status == Error
    ensures r.Ok? ==> r.value.state.base == s.base && r.value.state.conn.Some?
    ensures r.Ok? && s.conn.Some? ==> r.value.state.conn == s.conn
  {
    var s1 :- Setup(s);
    var name :- JobName(s1.params);
    match Chain(s1, serve, parse, name)
    case Fetched(s2) => Ok(Step(Success, s2, out))
    case Raised(what) => Throws(what)
    case Refused(_, s2) =>
      var delay :- JsonValues.Read(s2.params, "delay", AsInteger);
      Ok(Step(Error, s2.(params := delay.doc), out))
  }

  /**
   * With a connection and a job name in place, the status is success exactly
   * when the whole chain completes, and an error when it stopped on a
   * `runtime_error` and `delay` is a number.
   */
  lemma StatusFollowsChain(s: State, out: Json, serve: Request -> Response, parse: string -> Result<Json>)
    requires s.conn.Some? && JobName(s.params).Ok?
    ensures var c := Chain(s, serve, parse, JobName(s.params).value);
      var r := GetOutput(s, out, serve, parse);
      && (c.Fetched? <==> r.Ok? && r.value.status == Success)
      && (c.Fetched? ==> r.value.state == c.value)
      && (c.Raised? ==> r == Throws(c.what))
      && (c.Refused? && Contains(s.params, "delay") && s.params.fields["delay"].Int? ==>
            r == Ok(Step(Error, c.state, out)))
  {
  }

  /** After a call that returned, the connection exists, so the next call skips `setup`. */
  lemma SetupOnlyOnce(s: State, out: Json, serve: Request -> Response, parse: string -> Result<Json>)
    requires GetOutput(s, out, serve, parse).Ok?
    ensures var t := GetOutput(s, out, serve, parse).value.state;
      Setup(t) == Ok(t) && (s.conn.Some? ==> t.conn == s.conn)
  {
  }
}

=== FILE: roles.dfy ===
/**
 * The three role base classes (Source, Filter, Sink) as state records, their
 * `set_params` behaviour, their static version and server name, and the
 * driver records the INSTALL_*_DRIVER macros register with the plugin kernel.
 * The kernel itself is a foreign library; its driver registry is modelled as
 * a list of (server, name, version) records.
 */
module Roles {
  import opened Common
  import opened JsonValues

  // ---------------------------------------------------------------------------
  // Static identity of each role.
  // ---------------------------------------------------------------------------

  const SourceVersion: int := 2
  const FilterVersion: int := 2
  const SinkVersion: int := 2

  const SourceServerName: string := "SourceServer"
  const FilterServerName: string := "FilterServer"
  const SinkServerName: string := "SinkServer"

  const NoError: string := "No error"

  /**
   * The version each role class declares is not the repository-wide protocol
   * version, and the three server names are pairwise distinct.
   */
  lemma RoleIdentities()
    ensures SourceVersion == FilterVersion == SinkVersion == 2
    ensures SourceVersion != PluginProtocolVersion
    ensures SourceServerName != FilterServerName && FilterServerName != SinkServerName
    ensures SourceServerName != SinkServerName
  {
  }

  // ---------------------------------------------------------------------------
  // Base-class state.
  // ---------------------------------------------------------------------------

  /** `Source<T>`'s protected members. (`dummy` is left uninitialised by its constructor.) */
  datatype SourceState = SourceState(params: Json, agentId: string, error: string, blobFormat: string)

  /** `Filter<In, Out>`'s protected members and public `dummy` flag. */
  datatype FilterState = FilterState(params: Json, agentId: string, error: string, dummy: bool)

  /** `Sink<T>`'s private `_error` and public `dummy` flag: a sink has no `_params` or `_agent_id`. */
  datatype SinkState = SinkState(error: string, dummy: bool)

  /** A freshly constructed Source. */
  function NewSource(): (s: SourceState)
    ensures s.error == NoError && s.blobFormat == "none" && s.agentId == "undefined"
    ensures s.params == Null
  {
    SourceState(Null, "undefined", NoError, "none")
  }

  /** A freshly constructed Filter; its agent id starts as the empty string. */
  function NewFilter(): (s: FilterState)
    ensures s.error == NoError && !s.dummy && s.agentId == "" && s.params == Null
  {
    FilterState(Null, "", NoError, false)
  }

  /** A freshly constructed Sink. */
  function NewSink(): (s: SinkState)
    ensures s.error == NoError && !s.dummy
  {
    SinkState(NoError, false)
  }

  /** The parameters a base `set_params` stores and the agent id it extracts. */
  datatype AgentBinding = AgentBinding(params: Json, agentId: string)

  /**
   * The base `set_params`: the parameters are stored, and the agent id is
   * read from their `agent_id` member, falling back when the read throws.
   * The non-const `operator[]` inserts a null `agent_id` member when it is
   * missing, and turns a null document into an object first; on any other
   * non-object it throws before changing anything. Converting a non-string
   * member to `std::string` throws too. Both throws land in the catch.
   */
  function BindAgentId(p: Json, fallback: string): (b: AgentBinding)
    ensures Contains(p, "agent_id") ==> b.params == p
    ensures p.Object? && !Contains(p, "agent_id") ==> b.params == Object(p.fields["agent_id" := Null])
    ensures p.Null? ==> b.params == Object(map["agent_id" := Null])
    ensures !p.Object? && !p.Null? ==> b.params == p
    ensures Contains(p, "agent_id") && p.fields["agent_id"].Str? ==> b.agentId == p.fields["agent_id"].s
    ensures !(Contains(p, "agent_id") && p.fields["agent_id"].Str?) ==> b.agentId == fallback
  {
    match Index(p, "agent_id")
    case Throws(_) => AgentBinding(p, fallback)
    case Ok(Access(v, doc)) =>
      match AsString(v)
      case Ok(id) => AgentBinding(doc, id)
      case Throws(_) => AgentBinding(doc, fallback)
  }

  /** The base stores an object argument with `"agent_id": null` added when it had no agent id. */
  lemma BoundObject(pm: map<string, Json>, fallback: string)
    ensures BindAgentId(Object(pm), fallback).params
         == Object(pm + (if "agent_id" in pm then map[] else map["agent_id" := Null]))
  {
    if "agent_id" !in pm {
      assert pm["agent_id" := Null] == pm + map["agent_id" := Null];
    }
  }

  /**
   * An object output after the agent id is written into its `agent_id`
   * member: the member is added exactly when the agent id is not empty, and
   * nothing else changes.
   */
  function Tagged(m: map<string, Json>, agentId: string): (r: Json)
    ensures r.Object? && r.fields.Keys == m.Keys + (if agentId == "" then {} else {"agent_id"})
    ensures agentId != "" ==> r.fields["agent_id"] == Str(agentId)
    ensures forall k :: k in m && (k != "agent_id" || agentId == "") ==> r.fields[k] == m[k]
  {
    if agentId == "" then Object(m) else Object(m["agent_id" := Str(agentId)])
  }

  /** `Source::set_params`: falls back to "undefined"; error and blob format are untouched. */
  function SourceSetParams(s: SourceState, p: Json): (s': SourceState)
    ensures s'.error == s.error && s'.blobFormat == s.blobFormat
    ensures s'.params == BindAgentId(p, "undefined").params
    ensures Contains(p, "agent_id") && p.fields["agent_id"].Str? ==> s'.agentId == p.fields["agent_id"].s
    ensures !(Contains(p, "agent_id") && p.fields["agent_id"].Str?) ==> s'.agentId == "undefined"
  {
    var b := BindAgentId(p, "undefined");
    s.(params := b.params, agentId := b.agentId)
  }

  /** `Filter::set_params`: the same extraction, but falling back to the empty string. */
  function FilterSetParams(s: FilterState, p: Json): (s': FilterState)
    ensures s'.error == s.error && s'.dummy == s.dummy
    ensures s'.params == BindAgentId(p, "").params
    ensures Contains(p, "agent_id") && p.fields["agent_id"].Str? ==> s'.agentId == p.fields["agent_id"].s
    ensures !(Contains(p, "agent_id") && p.fields["agent_id"].Str?) ==> s'.agentId == ""
  {
    var b := BindAgentId(p, "");
    s.(params := b.params, agentId := b.agentId)
  }

  /** `Sink::set_params` does nothing. */
  function SinkSetParams(s: SinkState, p: Json): (s': SinkState)
    ensures s' == s
  {
    s
  }

  /** A run of base-class `set_params` calls on a sink. */
  function SinkSetParamsAll(s: SinkState, ps: seq<Json>): SinkState
    decreases |ps|
  {
    if ps == [] then s else SinkSetParamsAll(SinkSetParams(s, ps[0]), ps[1..])
  }

  /** Nothing in the Sink base class can assign `_error`: it stays "No error" forever. */
  lemma {:induction false} SinkErrorNeverChanges(ps: seq<Json>)
    ensures SinkSetParamsAll(NewSink(), ps).error == NoError
  {
    SinkSetParamsAllKeepsError(NewSink(), ps);
  }

  lemma {:induction false} SinkSetParamsAllKeepsError(s: SinkState, ps: seq<Json>)
    ensures SinkSetParamsAll(s, ps) == s
    decreases |ps|
  {
    if ps != [] {
      SinkSetParamsAllKeepsError(SinkSetParams(s, ps[0]), ps[1..]);
    }
  }

  // ---------------------------------------------------------------------------
  // Drivers and their registration.
  // ---------------------------------------------------------------------------

  /** A pugg driver record: the server (role) it serves, the plugin name and the version. */
  datatype Driver = Driver(server: string, name: string, version: int)

  /** `SourceDriver(name, version)`: the role's server name plus the given name and version. */
  function SourceDriver(name: string, version: int): (d: Driver)
    ensures d.server == SourceServerName && d.name == name && d.version == version
  {
    Driver(SourceServerName, name, version)
  }

  /** `FilterDriver(name, version)`. */
  function FilterDriver(name: string, version: int): (d: Driver)
    ensures d.server == FilterServerName && d.name == name && d.version == version
  {
    Driver(FilterServerName, name, version)
  }

  /** `SinkDriver(name, version)`. */
  function SinkDriver(name: string, version: int): (d: Driver)
    ensures d.server == SinkServerName && d.name == name && d.version == version
  {
    Driver(SinkServerName, name, version)
  }

  /** `register_pugg_plugin` as INSTALL_SOURCE_DRIVER defines it: one `add_driver` call. */
  function InstallSourceDriver(registry: seq<Driver>, pluginName: string): (r: seq<Driver>)
    ensures |r| == |registry| + 1 && r[..|registry|] == registry
    ensures r[|registry|] == Driver(SourceServerName, pluginName, SourceVersion)
    ensures r[|registry|].version != PluginProtocolVersion
  {
    registry + [SourceDriver(pluginName, SourceVersion)]
  }

  /** `register_pugg_plugin` as INSTALL_FILTER_DRIVER defines it. */
  function InstallFilterDriver(registry: seq<Driver>, pluginName: string): (r: seq<Driver>)
    ensures |r| == |registry| + 1 && r[..|registry|] == registry
    ensures r[|registry|] == Driver(FilterServerName, pluginName, FilterVersion)
    ensures r[|registry|].version != PluginProtocolVersion
  {
    registry + [FilterDriver(pluginName, FilterVersion)]
  }

  /** `register_pugg_plugin` as INSTALL_SINK_DRIVER defines it. */
  function InstallSinkDriver(registry: seq<Driver>, pluginName: string): (r: seq<Driver>)
    ensures |r| == |registry| + 1 && r[..|registry|] == registry
    ensures r[|registry|] == Driver(SinkServerName, pluginName, SinkVersion)
    ensures r[|registry|].version != PluginProtocolVersion
  {
    registry + [SinkDriver(pluginName, SinkVersion)]
  }

  /** The kernel's `get_all_drivers(server)`: the registered drivers of one server, in order. */
  function DriversOf(registry: seq<Driver>, server: string): (r: seq<Driver>)
    ensures |r| <= |registry|
    ensures forall d :: d in r <==> d in registry && d.server == server
  {
    if registry == [] then []
    else if registry[0].server == server then [registry[0]] + DriversOf(registry[1..], server)
    else DriversOf(registry[1..], server)
  }

  lemma {:induction false} DriversOfAppend(a: seq<Driver>, b: seq<Driver>, server: string)
    ensures DriversOf(a + b, server) == DriversOf(a, server) + DriversOf(b, server)
  {
    if a != [] {
      assert (a + b)[0] == a[0] && (a + b)[1..] == a[1..] + b;
      DriversOfAppend(a[1..], b, server);
    } else {
      assert a + b == b;
    }
  }

  /**
   * Installing a source plugin adds exactly its driver to the sources a host
   * enumerates, and leaves the filter and sink pools as they were.
   */
  lemma InstallSourceAddsOneSource(registry: seq<Driver>, pluginName: string)
    ensures DriversOf(InstallSourceDriver(registry, pluginName), SourceServerName)
         == DriversOf(registry, SourceServerName) + [Driver(SourceServerName, pluginName, 2)]
    ensures DriversOf(InstallSourceDriver(registry, pluginName), FilterServerName)
         == DriversOf(registry, FilterServerName)
    ensures DriversOf(InstallSourceDriver(registry, pluginName), SinkServerName)
         == DriversOf(registry, SinkServerName)
  {
    var d := SourceDriver(pluginName, SourceVersion);
    DriversOfAppend(registry, [d], SourceServerName);
    DriversOfAppend(registry, [d], FilterServerName);
    DriversOfAppend(registry, [d], SinkServerName);
    assert [d][1..] == [];
  }

  /** Installing a filter plugin adds exactly its driver to the filter pool. */
  lemma InstallFilterAddsOneFilter(registry: seq<Driver>, pluginName: string)
    ensures DriversOf(InstallFilterDriver(registry, pluginName), FilterServerName)
         == DriversOf(registry, FilterServerName) + [Driver(FilterServerName, pluginName, 2)]
    ensures DriversOf(InstallFilterDriver(registry, pluginName), SourceServerName)
         == DriversOf(registry, SourceServerName)
    ensures DriversOf(InstallFilterDriver(registry, pluginName), SinkServerName)
         == DriversOf(registry, SinkServerName)
  {
    var d := FilterDriver(pluginName, FilterVersion);
    DriversOfAppend(registry, [d], SourceServerName);
    DriversOfAppend(registry, [d], FilterServerName);
    DriversOfAppend(registry, [d], SinkServerName);
    assert [d][1..] == [];
  }

  /** Installing a sink plugin adds exactly its driver to the sink pool. */
  lemma InstallSinkAddsOneSink(registry: seq<Driver>, pluginName: string)
    ensures DriversOf(InstallSinkDriver(registry, pluginName), SinkServerName)
         == DriversOf(registry, SinkServerName) + [Driver(SinkServerName, pluginName, 2)]
    ensures DriversOf(InstallSinkDriver(registry, pluginName), SourceServerName)
         == DriversOf(registry, SourceServerName)
    ensures DriversOf(InstallSinkDriver(registry, pluginName), FilterServerName)
         == DriversOf(registry, FilterServerName)
  {
    var d := SinkDriver(pluginName, SinkVersion);
    DriversOfAppend(registry, [d], SourceServerName);
    DriversOfAppend(registry, [d], FilterServerName);
    DriversOfAppend(registry, [d], SinkServerName);
    assert [d][1..] == [];
  }
}

=== FILE: running_avg.dfy ===
/**
 * The running-average filter: one bounded window of recent values per key,
 * newest first, and the mean of every window on `process`.
 */
module RunningAverage {
  import opened Common
  import opened JsonValues
  import opened JsonMergePatch
  import opened Roles
  import opened Configuration

  /** The filter's base state and its map of windows (`_queues`), iterated in ascending key order. */
  datatype State = State(base: FilterState, windows: map<string, seq<real>>)

  const Defaults: seq<(string, Json)> := [("capa", Int(10)), ("field", Str("data")), ("out_field", Str("avg"))]

  /** The configuration the defaults alone describe. */
  const DefaultConfig: map<string, Json> := map["capa" := Int(10), "field" := Str("data"), "out_field" := Str("avg")]

  function New(): (s: State)
    ensures s.windows == map[] && s.base == NewFilter()
  {
    State(NewFilter(), map[])
  }

  /**
   * `set_params`: the base stores the caller's object and binds the agent id,
   * then the defaults are seeded and the caller's object merge-patched on top.
   */
  function SetParams(s: State, p: Json): (r: Result<State>)
    ensures r.Ok? <==> p.Null? || p.Object?
    ensures r.Ok? ==> r.value.windows == s.windows && r.value.base.agentId == FilterSetParams(s.base, p).agentId
  {
    var b := FilterSetParams(s.base, p);
    var params :- SeedThenPatch(b.params, Defaults, p);
    Ok(State(b.(params := params), s.windows))
  }

  lemma DefaultsAreConfig()
    ensures AssignmentsMap(Defaults) == DefaultConfig
  {
  }

  /**
   * The effective configuration is the merge patch of the caller's object onto
   * the defaults, plus the null agent id the base class inserted when the
   * caller gave none.
   */
  lemma ConfigurationIsPatchedDefaults(s: State, p: Json)
    requires p.Object?
    ensures SetParams(s, p).Ok?
    ensures SetParams(s, p).value.base.params
         == Object(MergePatch(Object(DefaultConfig), p).fields
                   + (if "agent_id" in p.fields then map[] else map["agent_id" := Null]))
  {
    DefaultsAreConfig();
    BaseThenSeedThenPatch(Defaults, p, "");
  }

  // ---------------------------------------------------------------------------
  // The bounded window.
  // ---------------------------------------------------------------------------

  /**
   * `queue.size() > _params["capa"]`: the size is compared as a JSON unsigned
   * number, so a numeric capacity compares numerically, while across types
   * nlohmann orders null < boolean < number < object < array < string.
   */
  function Exceeds(size: nat, capa: Json): (b: bool)
    ensures !capa.IsNumber() ==> (b <==> TypeRank(capa) < TypeRank(Int(size)))
    ensures capa.Int? ==> (b <==> size > capa.i)
    ensures capa.Float? ==> (b <==> size as real > capa.r)
  {
    match capa
    case Int(c) => size > c
    case Float(c) => size as real > c
    case Null => true
    case Bool(_) => true
    case _ => false
  }

  /** The position of a value's type in nlohmann's ordering of values of different types. */
  function TypeRank(j: Json): nat {
    match j
    case Null => 0
    case Bool(_) => 1
    case Int(_) => 2
    case Float(_) => 2
    case Object(_) => 3
    case Array(_) => 4
    case Str(_) => 5
  }

  /** `push_front(v)` followed by `pop_back()` when the window then exceeds the capacity. */
  function Push(w: seq<real>, v: real, capa: Json): (r: seq<real>)
    ensures capa.Int? && capa.i >= 0 && |w| <= capa.i ==> |r| <= capa.i
    ensures |r| == |w| + 1 || |r| == |w|
  {
    var w' := [v] + w;
    if Exceeds(|w'|, capa) then w'[..|w'| - 1] else w'
  }

  /**
   * What a push does against each kind of capacity: a null or boolean one
   * ranks below every size, so the oldest value is always dropped; a string,
   * object or array one ranks above every size, so nothing is ever dropped.
   */
  lemma PushAgainstCapacity(w: seq<real>, v: real, capa: Json)
    ensures capa.Null? || capa.Bool? ==> Push(w, v, capa) == ([v] + w)[..|w|]
    ensures capa.Str? || capa.Object? || capa.Array? ==> Push(w, v, capa) == [v] + w
    ensures capa.Int? ==> (Push(w, v, capa) == [v] + w <==> |w| < capa.i)
    ensures capa.Int? && capa.i <= |w| ==> Push(w, v, capa) == ([v] + w)[..|w|]
  {
  }

  /** The first `n` elements of `s`, or all of them when there are fewer. */
  function Take<T>(s: seq<T>, n: nat): (r: seq<T>)
    ensures |r| == if |s| < n then |s| else n
  {
    if |s| < n then s else s[..n]
  }

  function Reverse<T>(s: seq<T>): (r: seq<T>)
    ensures |r| == |s|
    ensures forall i :: 0 <= i < |s| ==> r[i] == s[|s| - 1 - i]
  {
    if s == [] then [] else Reverse(s[1..]) + [s[0]]
  }

  /** Pushing onto the `c` newest values keeps the `c` newest values of the longer history. */
  lemma PushKeepsNewest(newest: seq<real>, v: real, c: nat)
    ensures Push(Take(newest, c), v, Int(c)) == Take([v] + newest, c)
  {
    var w := Take(newest, c);
    if |[v] + w| > c {
      assert ([v] + w)[..|[v] + w| - 1] == ([v] + newest)[..c];
    }
  }

  /** The window of a key, empty when the key has none yet (`_queues[key]` creates it empty). */
  function Window(ws: map<string, seq<real>>, k: string): seq<real> {
    if k in ws then ws[k] else []
  }

  /** The windows after one `load_data` whose field object converted to `vals`. */
  function UpdateWindows(ws: map<string, seq<real>>, vals: map<string, real>, capa: Json): (r: map<string, seq<real>>)
    ensures r.Keys == ws.Keys + vals.Keys
    ensures forall k :: k in ws && k !in vals ==> r[k] == ws[k]
    ensures forall k :: k in vals ==> r[k] == Push(Window(ws, k), vals[k], capa)
  {
    map k | k in ws.Keys + vals.Keys :: if k in vals then Push(Window(ws, k), vals[k], capa) else ws[k]
  }

  /** Converts every member of `m` listed in `keys` to a double, throwing at the first that does not convert. */
  function ToReals(keys: seq<string>, m: map<string, Json>): (r: Result<map<string, real>>)
    requires forall k :: k in keys ==> k in m
    ensures r.Ok? <==> forall k :: k in keys ==> AsReal(m[k]).Ok?
    ensures r.Ok? ==> r.value.Keys == set k | k in keys
    ensures r.Ok? ==> forall k :: k in keys ==> r.value[k] == AsReal(m[k]).value
    decreases |keys|
  {
    if keys == [] then Ok(map[])
    else
      var x :- AsReal(m[keys[0]]);
      var rest :- ToReals(keys[1..], m);
      assert forall k :: k in keys <==> k == keys[0] || k in keys[1..];
      Ok(rest[keys[0] := x])
  }

  /** Every member of an object converted to a double, in key order; the first that does not convert throws. */
  function ConvertAll(m: map<string, Json>): (r: Result<map<string, real>>)
    ensures r.Ok? <==> forall k :: k in m ==> AsReal(m[k]).Ok?
    ensures r.Ok? ==> r.value.Keys == m.Keys && forall k :: k in m ==> r.value[k] == AsReal(m[k]).value
  {
    var keys := SortedKeys(m.Keys);
    var r :- ToReals(keys, m);
    assert r.Keys == m.Keys;
    Ok(r)
  }

  // ---------------------------------------------------------------------------
  // load_data.
  // ---------------------------------------------------------------------------

  /** The key name the filter reads its values from, when `field` is configured as a string. */
  function FieldName(s: State): Option<string> {
    var p := s.base.params;
    if p.Object? && "field" in p.fields && p.fields["field"].Str? then Some(p.fields["field"].s) else None
  }

  /** The capacity `load_data` compares against: a missing `capa` reads as the null it inserts. */
  function Capacity(params: Json): Json {
    if Contains(params, "capa") then params.fields["capa"] else Null
  }

  /**
   * Reading a missing key of the const input document is undefined in the
   * source, so the configured field must be present in an object input.
   */
  predicate LoadDefined(s: State, input: Json) {
    FieldName(s).Some? && input.Object? ==> FieldName(s).value in input.fields
  }

  /**
   * `load_data`: an input whose configured member is not an object is an
   * error that changes nothing; otherwise every member value is pushed into
   * its key's window. Reading the configuration through the non-const
   * `operator[]` can insert null members into the parameters.
   */
  function LoadData(s: State, input: Json): (r: Result<Transition<State>>)
    requires LoadDefined(s, input)
    ensures FieldName(s).None? || !input.Object? ==> r.Throws?
    ensures FieldName(s).Some? && input.Object? && !input.fields[FieldName(s).value].Object?
      ==> r.Ok? && r.value.status == Error
    ensures r.Ok? ==> r.value.status == Success || r.value.status == Error
    ensures r.Ok? && r.value.status == Error ==> r.value.state == s
    ensures FieldName(s).Some? && input.Object? && input.fields[FieldName(s).value].Object?
      ==> var vs := input.fields[FieldName(s).value].fields;
          && (r.Ok? <==> forall k :: k in vs ==> AsReal(vs[k]).Ok?)
          && (r.Ok? ==> r.value.status == Success)
  {
    var field :- Index(s.base.params, "field");
    var f :- AsString(field.value);
    if !input.Object? then Throws(KeyAccessError(input))
    else
      var v := input.fields[f];
      if !v.Object? then Ok(Transition(Error, s))
      else if v.fields == map[] then Ok(Transition(Success, s))
      else PushValues(s, v.fields)
  }

  /** The loop of `load_data` over a non-empty object of values; it reads `capa` on its first pass. */
  function PushValues(s: State, vs: map<string, Json>): (r: Result<Transition<State>>)
    requires s.base.params.Null? || s.base.params.Object?
    ensures r.Ok? <==> forall k :: k in vs ==> AsReal(vs[k]).Ok?
    ensures r.Ok? ==> r.value.status == Success
  {
    var capa := Index(s.base.params, "capa").value;
    var vals :- ConvertAll(vs);
    Ok(Transition(Success, State(s.base.(params := capa.doc), UpdateWindows(s.windows, vals, capa.value))))
  }

  /**
   * A successful `load_data` pushes every member value of the input field
   * into its key's window, and leaves the windows of every other key as
   * they were; every value must convert to a double.
   */
  lemma LoadPushesEveryValue(s: State, input: Json)
    requires LoadDefined(s, input)
    requires LoadData(s, input).Ok? && LoadData(s, input).value.status == Success
    ensures FieldName(s).Some? && input.Object? && input.fields[FieldName(s).value].Object?
    ensures var vs := input.fields[FieldName(s).value].fields;
      var ws := LoadData(s, input).value.state.windows;
      && ws.Keys == s.windows.Keys + vs.Keys
      && (forall k :: k in s.windows && k !in vs ==> ws[k] == s.windows[k])
      && (forall k :: k in vs ==>
            AsReal(vs[k]).Ok? && ws[k] == Push(Window(s.windows, k), AsReal(vs[k]).value, Capacity(s.base.params)))
  {
    var f := FieldName(s).value;
    var vs := input.fields[f].fields;
    assert Index(s.base.params, "field") == Ok(Access(Str(f), s.base.params));
    if vs != map[] {
      assert Index(s.base.params, "capa").value.value == Capacity(s.base.params);
    }
  }

  /** With a non-negative integer capacity no `load_data` lets a window grow beyond it. */
  lemma WindowsStayBounded(s: State, input: Json, c: nat)
    requires LoadDefined(s, input)
    requires Capacity(s.base.params) == Int(c)
    requires forall k :: k in s.windows ==> |s.windows[k]| <= c
    requires LoadData(s, input).Ok?
    ensures forall k :: k in LoadData(s, input).value.state.windows ==> |LoadData(s, input).value.state.windows[k]| <= c
  {
    var ws' := LoadData(s, input).value.state.windows;
    if LoadData(s, input).value.status == Success {
      LoadPushesEveryValue(s, input);
      var vs := input.fields[FieldName(s).value].fields;
      forall k | k in ws'
        ensures |ws'[k]| <= c
      {
        if k in vs {
          assert |Window(s.windows, k)| <= c;
        }
      }
    }
  }

  /**
   * A null or boolean capacity empties every window it pushes into: windows
   * that start empty stay empty, so every mean is the empty window's.
   */
  lemma NullCapacityKeepsWindowsEmpty(s: State, input: Json)
    requires LoadDefined(s, input)
    requires Capacity(s.base.params).Null? || Capacity(s.base.params).Bool?
    requires forall k :: k in s.windows ==> s.windows[k] == []
    requires LoadData(s, input).Ok?
    ensures forall k :: k in LoadData(s, input).value.state.windows ==> LoadData(s, input).value.state.windows[k] == []
  {
    var ws' := LoadData(s, input).value.state.windows;
    if LoadData(s, input).value.status == Success {
      LoadPushesEveryValue(s, input);
      var vs := input.fields[FieldName(s).value].fields;
      forall k | k in ws'
        ensures ws'[k] == []
      {
        if k in vs {
          PushAgainstCapacity(Window(s.windows, k), AsReal(vs[k]).value, Capacity(s.base.params));
        }
      }
    }
  }

  /** A string, object or array capacity never drops a value: every loaded key's window grows by one. */
  lemma UnorderedCapacityGrows(s: State, input: Json)
    requires LoadDefined(s, input)
    requires Capacity(s.base.params).Str? || Capacity(s.base.params).Object? || Capacity(s.base.params).Array?
    requires LoadData(s, input).Ok? && LoadData(s, input).value.status == Success
    ensures FieldName(s).Some? && input.Object? && input.fields[FieldName(s).value].Object?
    ensures var vs := input.fields[FieldName(s).value].fields;
      forall k :: k in vs ==>
        AsReal(vs[k]).Ok? && LoadData(s, input).value.state.windows[k] == [AsReal(vs[k]).value] + Window(s.windows, k)
  {
    LoadPushesEveryValue(s, input);
    var vs := input.fields[FieldName(s).value].fields;
    forall k | k in vs
      ensures Push(Window(s.windows, k), AsReal(vs[k]).value, Capacity(s.base.params)) == [AsReal(vs[k]).value] + Window(s.windows, k)
    {
      PushAgainstCapacity(Window(s.windows, k), AsReal(vs[k]).value, Capacity(s.base.params));
    }
  }

  /**
   * A caller's `"capa": null` deletes the default capacity, and `load_data`
   * then reads the null that `operator[]` inserts in its place.
   */
  lemma NullCapaDeletesCapacity(s: State, p: Json)
    requires p.Object? && "capa" in p.fields && p.fields["capa"].Null?
    ensures SetParams(s, p).Ok?
    ensures Capacity(SetParams(s, p).value.base.params).Null?
  {
    ConfigurationIsPatchedDefaults(s, p);
    NullDeletes(Object(DefaultConfig), p.fields, "capa");
  }

  /** The windows a run of loads leaves, each load given as the values its field object converted to. */
  function WindowsAfter(loads: seq<map<string, real>>, c: nat): (r: map<string, seq<real>>)
    decreases |loads|
  {
    if loads == [] then map[]
    else UpdateWindows(WindowsAfter(loads[..|loads| - 1], c), loads[|loads| - 1], Int(c))
  }

  /** The values a key received over a run of loads, oldest first. */
  function History(loads: seq<map<string, real>>, k: string): (h: seq<real>)
    decreases |loads|
  {
    if loads == [] then []
    else
      var last := loads[|loads| - 1];
      History(loads[..|loads| - 1], k) + (if k in last then [last[k]] else [])
  }

  lemma ReverseAppend(h: seq<real>, v: real)
    ensures Reverse(h + [v]) == [v] + Reverse(h)
  {
  }

  /**
   * Each window holds the `capa` most recent values its key received, newest
   * first, and a key has a window exactly when it has received a value.
   */
  lemma {:induction false} WindowIsNewestHistory(loads: seq<map<string, real>>, c: nat, k: string)
    ensures k in WindowsAfter(loads, c) <==> History(loads, k) != []
    ensures k in WindowsAfter(loads, c) ==> WindowsAfter(loads, c)[k] == Take(Reverse(History(loads, k)), c)
    decreases |loads|
  {
    if loads != [] {
      var prefix := loads[..|loads| - 1];
      var last := loads[|loads| - 1];
      WindowIsNewestHistory(prefix, c, k);
      var h := History(prefix, k);
      if k in last {
        ReverseAppend(h, last[k]);
        if k in WindowsAfter(prefix, c) {
          PushKeepsNewest(Reverse(h), last[k], c);
        } else {
          assert h == [];
          PushKeepsNewest([], last[k], c);
        }
      }
    }
  }

  /** Loading 1, 2, 3, 4 into a window of capacity 3 keeps 4, 3, 2, whose mean is 3. */
  lemma CapacityThreeExample()
    ensures Push(Push(Push(Push([], 1.0, Int(3)), 2.0, Int(3)), 3.0, Int(3)), 4.0, Int(3)) == [4.0, 3.0, 2.0]
    ensures Mean([4.0, 3.0, 2.0]) == Float(3.0)
  {
    assert Push([], 1.0, Int(3)) == [1.0];
    assert Push([1.0], 2.0, Int(3)) == [2.0, 1.0];
    assert Push([2.0, 1.0], 3.0, Int(3)) == [3.0, 2.0, 1.0];
    assert Push([3.0, 2.0, 1.0], 4.0, Int(3)) == [4.0, 3.0, 2.0];
    assert Sum([4.0, 3.0, 2.0]) == 9.0;
  }

  /**
   * `info`: `capa` serialised (nlohmann's `to_string` is `dump`, given here
   * as a parameter), then `field` and `out_field` converted to strings, all
   * through the non-const `operator[]`; a missing `capa` is inserted as null,
   * and a `field` or `out_field` that is missing or not a string throws.
   */
  function Info(s: State, dump: Json -> string): (r: Result<(map<string, string>, State)>)
    ensures r.Ok? <==> && Contains(s.base.params, "field") && s.base.params.fields["field"].Str?
                       && Contains(s.base.params, "out_field") && s.base.params.fields["out_field"].Str?
    ensures r.Ok? ==> var f := s.base.params.fields;
      && r.value.0 == map["capa" := dump(if "capa" in f then f["capa"] else Null),
                          "field" := f["field"].s, "out_field" := f["out_field"].s]
      && r.value.1.windows == s.windows && r.value.1.base.agentId == s.base.agentId
      && r.value.1.base.params.Object? && r.value.1.base.params.fields == f + (if "capa" in f then map[] else map["capa" := Null])
  {
    var capa :- Index(s.base.params, "capa");
    var field :- JsonValues.Read(capa.doc, "field", AsString);
    var outField :- JsonValues.Read(field.doc, "out_field", AsString);
    assert s.base.params.Object?;
    Ok((map["capa" := dump(capa.value), "field" := field.value, "out_field" := outField.value],
        s.(base := s.base.(params := outField.doc))))
  }

  /** A caller's object that sets neither field lists the defaults: `field` "data" and `out_field` "avg". */
  lemma DefaultInfo(p: Json, dump: Json -> string)
    requires p.Object? && "field" !in p.fields && "out_field" !in p.fields
    ensures var s := SetParams(New(), p);
      && s.Ok? && Info(s.value, dump).Ok?
      && Info(s.value, dump).value.0["field"] == "data" && Info(s.value, dump).value.0["out_field"] == "avg"
  {
    FieldDefaultsKept(p);
  }

  /** The default `field` and `out_field` survive a caller's object that sets neither. */
  lemma FieldDefaultsKept(p: Json)
    requires p.Object? && "field" !in p.fields && "out_field" !in p.fields
    ensures var r := SetParams(New(), p);
      && r.Ok? && Contains(r.value.base.params, "field") && Contains(r.value.base.params, "out_field")
      && r.value.base.params.fields["field"] == Str("data") && r.value.base.params.fields["out_field"] == Str("avg")
  {
    ConfigurationIsPatchedDefaults(New(), p);
    MemberwiseEffect(DefaultConfig, p.fields, "field");
    MemberwiseEffect(DefaultConfig, p.fields, "out_field");
  }

  // ---------------------------------------------------------------------------
  // process.
  // ---------------------------------------------------------------------------

  function Sum(w: seq<real>): real {
    if w == [] then 0.0 else w[0] + Sum(w[1..])
  }

  /**
   * `sum / queue.size()`: the mean of a window. An empty window (a capacity of
   * zero or less empties every window) divides zero by zero, a NaN that
   * nlohmann writes out as null; the model stores null directly.
   */
  function Mean(w: seq<real>): (r: Json)
    ensures r.Null? <==> w == []
    ensures w != [] ==> r.Float? && r.r * |w| as real == Sum(w)
  {
    if w == [] then Null else Float(Sum(w) / |w| as real)
  }

  function Last<T>(s: seq<T>): T
    requires s != []
  {
    s[|s| - 1]
  }

  /** The members `process` writes under the output field: every key's mean. */
  function Means(ws: map<string, seq<real>>): (r: map<string, Json>)
    ensures r.Keys == ws.Keys
  {
    map k | k in ws :: Mean(ws[k])
  }

  /** The means of the windows of the listed keys. */
  function MeansOf(keys: seq<string>, ws: map<string, seq<real>>): (r: map<string, Json>)
    ensures forall k :: k in r <==> k in keys
  {
    map k | k in keys :: Mean(Window(ws, k))
  }

  /** The output after `out[of]` holds `slot` and `out["size"]` holds `size`. */
  function WithReport(out: Json, of: string, slot: map<string, Json>, size: nat): Json {
    Object(Fields(out)[of := Object(slot)]["size" := Int(size)])
  }

  /** One pass of the `process` loop: the key's mean goes under the output field, and its window's size under `size`. */
  function WriteOne(out: Json, of: string, k: string, mean: Json, size: nat): (r: Result<Json>)
    ensures Writable(out, of) ==> r == Ok(WithReport(out, of, Slot(out, of)[k := mean], size))
    ensures !Writable(out, of) ==> r.Throws?
  {
    var o :- SetIn(out, of, k, mean);
    Put(o, "size", Int(size))
  }

  /** The loop of `process` over the keys in ascending order. */
  function WriteMeans(out: Json, keys: seq<string>, ws: map<string, seq<real>>, of: string): (r: Result<Json>)
    ensures keys == [] ==> r == Ok(out)
    ensures keys != [] ==> (r.Ok? <==> Writable(out, of) && (of != "size" || |keys| == 1))
    ensures r.Ok? && keys != [] ==> Member(r.value, "size") == Some(Int(|Window(ws, Last(keys))|))
    decreases |keys|
  {
    if keys == [] then Ok(out)
    else
      var w := Window(ws, keys[0]);
      var out' :- WriteOne(out, of, keys[0], Mean(w), |w|);
      WriteMeans(out', keys[1..], ws, of)
  }

  /** The averaging part of `process`: nothing is written, and `out_field` is not read, when no key has a window. */
  function Averages(s: State, cleared: Json): (r: Result<Step<State, Json>>)
    ensures r.Ok? ==> r.value.status == Success && r.value.state.windows == s.windows
  {
    if s.windows == map[] then Ok(Step(Success, s, cleared))
    else
      var of :- Index(s.base.params, "out_field");
      var name :- AsString(of.value);
      var o :- WriteMeans(cleared, SortedKeys(s.windows.Keys), s.windows, name);
      Ok(Step(Success, s.(base := s.base.(params := of.doc)), o))
  }

  /** `process`: clear, write every mean, then the agent id when it is non-empty. Always success. */
  function Process(s: State, out: Json): (r: Result<Step<State, Json>>)
    ensures r.Ok? ==> r.value.status == Success && r.value.state.windows == s.windows
    ensures r.Ok? && s.base.agentId != "" ==> Member(r.value.out, "agent_id") == Some(Str(s.base.agentId))
  {
    var filled :- Averages(s, Clear(out));
    if s.base.agentId == "" then Ok(filled)
    else
      var o :- Put(filled.out, "agent_id", Str(s.base.agentId));
      Ok(filled.(out := o))
  }

  lemma MeansOfCons(slot: map<string, Json>, keys: seq<string>, ws: map<string, seq<real>>)
    requires keys != []
    ensures slot + MeansOf(keys, ws) == slot[keys[0] := Mean(Window(ws, keys[0]))] + MeansOf(keys[1..], ws)
  {
    var lhs := slot + MeansOf(keys, ws);
    var rhs := slot[keys[0] := Mean(Window(ws, keys[0]))] + MeansOf(keys[1..], ws);
    assert forall k :: k in keys <==> k == keys[0] || k in keys[1..];
    assert lhs.Keys == rhs.Keys;
    forall k | k in lhs
      ensures lhs[k] == rhs[k]
    {
    }
  }

  /** Rewriting the report of an output that already holds one replaces it. */
  lemma ReportOverReport(out: Json, of: string, s1: map<string, Json>, n1: nat, s2: map<string, Json>, n2: nat)
    requires of != "size"
    ensures WithReport(WithReport(out, of, s1, n1), of, s2, n2) == WithReport(out, of, s2, n2)
  {
    var f := Fields(out);
    assert f[of := Object(s1)]["size" := Int(n1)][of := Object(s2)]["size" := Int(n2)]
        == f[of := Object(s2)]["size" := Int(n2)];
  }

  /** The first pass of the `process` loop over a writable output. */
  lemma WriteMeansStep(out: Json, keys: seq<string>, ws: map<string, seq<real>>, of: string)
    requires Writable(out, of) && keys != []
    ensures var k := keys[0];
      WriteMeans(out, keys, ws, of)
        == WriteMeans(WithReport(out, of, Slot(out, of)[k := Mean(Window(ws, k))], |Window(ws, k)|), keys[1..], ws, of)
  {
  }

  /** After one pass the output is writable again and its slot holds what the pass wrote. */
  lemma ReportIsWritable(out: Json, of: string, slot: map<string, Json>, size: nat)
    requires of != "size"
    ensures Writable(WithReport(out, of, slot, size), of)
    ensures Slot(WithReport(out, of, slot, size), of) == slot
  {
  }

  lemma WriteMeansSingle(out': Json, keys: seq<string>, ws: map<string, seq<real>>, of: string, slot': map<string, Json>)
    requires |keys| == 1
    ensures WriteMeans(out', keys[1..], ws, of) == Ok(out')
    ensures slot' + MeansOf(keys[1..], ws) == slot'
    ensures Last(keys) == keys[0]
  {
    assert MeansOf(keys[1..], ws) == map[];
  }

  /**
   * What the `process` loop writes when the output field is an ordinary
   * name: every listed key's mean under the output field, and the size of the
   * last listed key's window under `size`.
   */
  lemma {:induction false} WriteMeansEffect(out: Json, keys: seq<string>, ws: map<string, seq<real>>, of: string)
    requires of != "size" && Writable(out, of) && keys != []
    ensures WriteMeans(out, keys, ws, of)
         == Ok(WithReport(out, of, Slot(out, of) + MeansOf(keys, ws), |Window(ws, Last(keys))|))
    decreases |keys|
  {
    var k := keys[0];
    var slot' := Slot(out, of)[k := Mean(Window(ws, k))];
    var out' := WithReport(out, of, slot', |Window(ws, k)|);
    if keys[1..] == [] {
      WriteMeansStep(out, keys, ws, of);
      MeansOfCons(Slot(out, of), keys, ws);
      WriteMeansSingle(out', keys, ws, of, slot');
    } else {
      var n := |Window(ws, Last(keys))|;
      calc {
        WriteMeans(out, keys, ws, of);
        { WriteMeansStep(out, keys, ws, of); }
        WriteMeans(out', keys[1..], ws, of);
        { ReportIsWritable(out, of, slot', |Window(ws, k)|);
          WriteMeansEffect(out', keys[1..], ws, of);
          assert Last(keys[1..]) == Last(keys); }
        Ok(WithReport(out', of, slot' + MeansOf(keys[1..], ws), n));
        { ReportOverReport(out, of, slot', |Window(ws, k)|, slot' + MeansOf(keys[1..], ws), n); }
        Ok(WithReport(out, of, slot' + MeansOf(keys[1..], ws), n));
        { MeansOfCons(Slot(out, of), keys, ws); }
        Ok(WithReport(out, of, Slot(out, of) + MeansOf(keys, ws), n));
      }
    }
  }

  lemma UnionWithEmpty(e: map<string, Json>, m: map<string, Json>)
    requires e == map[]
    ensures e + m == m
  {
  }

  lemma MeansOfEveryKey(keys: seq<string>, ws: map<string, seq<real>>)
    requires forall k :: k in keys <==> k in ws
    ensures MeansOf(keys, ws) == Means(ws)
  {
  }

  /** What `process` leaves in the output for loaded windows and an ordinary output field name. */
  function AveragesReport(ws: map<string, seq<real>>, of: string, agentId: string): Json
    requires ws != map[]
  {
    var report := map[of := Object(Means(ws)), "size" := Int(|ws[GreatestKey(ws.Keys)]|)];
    Object(if agentId == "" then report else report["agent_id" := Str(agentId)])
  }

  /** Writing every window's mean into a cleared output leaves exactly the means and the last size. */
  lemma WriteAllMeans(cleared: Json, ws: map<string, seq<real>>, of: string)
    requires ws != map[]
    requires cleared == Null || cleared == EmptyObject
    requires of != "size"
    ensures WriteMeans(cleared, SortedKeys(ws.Keys), ws, of) == Ok(AveragesReport(ws, of, ""))
  {
    var keys := SortedKeys(ws.Keys);
    assert Last(keys) == GreatestKey(ws.Keys);
    MeansOfEveryKey(keys, ws);
    UnionWithEmpty(Slot(cleared, of), MeansOf(keys, ws));
    WriteMeansEffect(cleared, keys, ws, of);
    assert Fields(cleared) == map[];
  }

  /** The averaging part of `process` onto a cleared output, for an ordinary output field name. */
  lemma AveragesWritesMeans(s: State, cleared: Json, of: string)
    requires s.windows != map[]
    requires cleared == Null || cleared == EmptyObject
    requires Member(s.base.params, "out_field") == Some(Str(of))
    requires of != "size"
    ensures Averages(s, cleared) == Ok(Step(Success, s, AveragesReport(s.windows, of, "")))
  {
    WriteAllMeans(cleared, s.windows, of);
    assert Index(s.base.params, "out_field") == Ok(Access(Str(of), s.base.params));
  }

  /**
   * `process` with loaded data and an ordinary output field name: the output
   * holds exactly the output field with every key's mean, `size` with the
   * size of the window of the last key in ascending order, and the agent id
   * when it is non-empty; the status is success and the windows stay.
   */
  lemma ProcessWritesMeans(s: State, out: Json, of: string)
    requires s.windows != map[]
    requires out.Null? || out.Object?
    requires Member(s.base.params, "out_field") == Some(Str(of))
    requires of != "size" && of != "agent_id"
    ensures Process(s, out) == Ok(Step(Success, s, AveragesReport(s.windows, of, s.base.agentId)))
  {
    var cleared := Clear(out);
    assert cleared == Null || cleared == EmptyObject;
    AveragesWritesMeans(s, cleared, of);
    var report := AveragesReport(s.windows, of, "");
    if s.base.agentId != "" {
      assert Put(report, "agent_id", Str(s.base.agentId)) == Ok(AveragesReport(s.windows, of, s.base.agentId));
    }
  }

  /** With nothing loaded, `process` leaves the output empty apart from a non-empty agent id. */
  lemma ProcessWithoutData(s: State, out: Json)
    requires s.windows == map[]
    requires out.Null? || out.Object?
    ensures Process(s, out).Ok?
    ensures s.base.agentId == "" ==> Process(s, out).value.out == Clear(out)
    ensures s.base.agentId != "" ==> Process(s, out).value.out == Object(map["agent_id" := Str(s.base.agentId)])
  {
  }
}

=== FILE: serial_reader.dfy ===
/**
 * The serial reader source: on its first `get_output` it opens the configured
 * serial port, and every `get_output` then reads lines until one parses as
 * JSON, which becomes the output. The file system, the system calls of
 * opening, the bytes arriving and the JSON parser are parameters.
 */
module SerialReader {
  import opened Common
  import opened JsonValues
  import opened JsonMergePatch
  import opened Roles
  import opened Configuration
  import opened SerialPort
  import opened Text

  /**
   * The source's base state, the plugin's own `_params` (which hides the
   * base member and is kept across `set_params` calls) and the open port,
   * if any.
   */
  datatype State = State(base: SourceState, params: Json, port: Option<Port>)

  const Defaults: seq<(string, Json)> := [("port", Str("/dev/ttyUSB0")), ("baudrate", Int(115200))]

  const DefaultConfig: map<string, Json> := map["port" := Str("/dev/ttyUSB0"), "baudrate" := Int(115200)]

  const PortMissing: string := "Port does not exist"

  /** The world the reader opens its port in: which paths exist, and how the system calls of `connect` turn out. */
  datatype Env = Env(pathExists: string -> bool, sys: SysCalls, errnoText: string)

  function New(): (s: State)
    ensures s.base == NewSource() && s.params == Null && s.port == None
  {
    State(NewSource(), Null, None)
  }

  /** `set_params`: the base binds the agent id; the defaults are seeded into the plugin's own parameters and the caller's object patched on top. */
  function SetParams(s: State, p: Json): (r: Result<State>)
    ensures r.Ok? <==> s.params.Null? || s.params.Object?
    ensures r.Ok? ==> r.value.port == s.port && r.value.base == SourceSetParams(s.base, p)
  {
    var params :- SeedThenPatch(s.params, Defaults, p);
    Ok(State(SourceSetParams(s.base, p), params, s.port))
  }

  /** A fresh reader's configuration is the caller's object merge-patched onto the defaults. */
  lemma FirstConfiguration(p: Json)
    ensures SetParams(New(), p) == Ok(New().(base := SourceSetParams(NewSource(), p),
                                             params := MergePatch(Object(DefaultConfig), p)))
  {
    Configuration.FirstConfiguration(Defaults, p);
    assert AssignmentsMap(Defaults) == DefaultConfig;
  }

  /**
   * `info`: the port name as a string and the baud rate as an `unsigned`
   * printed in decimal, both read through the non-const `operator[]`; a
   * port that is not a string, or a baud rate that is not a number, throws.
   */
  function Info(s: State): (r: Result<(map<string, string>, State)>)
    ensures r.Ok? <==> && Contains(s.params, "port") && s.params.fields["port"].Str?
                       && Contains(s.params, "baudrate") && AsUnsigned32(s.params.fields["baudrate"]).Ok?
    ensures r.Ok? ==> && r.value.1 == s && r.value.0.Keys == {"port", "baudrate"}
                      && r.value.0["port"] == s.params.fields["port"].s
                      && AllDigits(r.value.0["baudrate"])
                      && DigitsValue(r.value.0["baudrate"]) == AsUnsigned32(s.params.fields["baudrate"]).value
  {
    var port :- JsonValues.Read(s.params, "port", AsString);
    var baud :- JsonValues.Read(port.doc, "baudrate", AsUnsigned32);
    NatToStringValue(baud.value);
    Ok((map["port" := port.value, "baudrate" := NatToString(baud.value)], s.(params := baud.doc)))
  }

  /** A caller's object that sets neither member lists the default port and a baud rate of 115200. */
  lemma DefaultInfo(p: Json)
    requires p.Object? && "port" !in p.fields && "baudrate" !in p.fields
    ensures var s := SetParams(New(), p);
      && s.Ok? && Info(s.value).Ok?
      && Info(s.value).value.0["port"] == "/dev/ttyUSB0"
      && DigitsValue(Info(s.value).value.0["baudrate"]) == 115200
  {
    var r := SetParams(New(), p);
    assert r.Ok? && r.value.params == MergePatch(Object(DefaultConfig), p) by {
      FirstConfiguration(p);
    }
    var f := r.value.params.fields;
    assert "port" in f && f["port"] == Str("/dev/ttyUSB0") by {
      MemberwiseEffect(DefaultConfig, p.fields, "port");
    }
    assert "baudrate" in f && f["baudrate"] == Int(115200) by {
      MemberwiseEffect(DefaultConfig, p.fields, "baudrate");
    }
  }

  /** A caller's port that is neither null nor a string survives the patch, and `info` throws on it. */
  lemma NonStringPortThrows(p: Json)
    requires Contains(p, "port") && !p.fields["port"].Null? && !p.fields["port"].Str?
    ensures SetParams(New(), p).Ok? && Info(SetParams(New(), p).value).Throws?
  {
    FirstConfiguration(p);
    MemberwiseEffect(DefaultConfig, p.fields, "port");
  }

  /**
   * Inside `setup`'s `try`: the port name and baud rate are read again (as a
   * string and as `unsigned`) and the port opened with one stop bit.
   */
  function OpenConfigured(params: Json, env: Env): (r: Result<(Port, Json)>)
    ensures r.Ok? ==> Contains(params, "port") && params.fields["port"].Str? && Contains(params, "baudrate")
    ensures r.Ok? ==> && r.value.1 == params
                      && var baud := AsUnsigned32(params.fields["baudrate"]);
                         baud.Ok? && r.value.0.settings.speed == baud.value && baud.value in SupportedBauds
    ensures && Contains(params, "port") && params.fields["port"].Str?
            && Contains(params, "baudrate") && params.fields["baudrate"].Int?
            && 0 <= params.fields["baudrate"].i < UnsignedModulus ==>
              && (r.Ok? <==> Connect(params.fields["baudrate"].i, 1, false, env.sys).fd != -1)
              && (r.Throws? ==> r.what == env.errnoText)
  {
    var path :- JsonValues.Read(params, "port", AsString);
    var baud :- JsonValues.Read(path.doc, "baudrate", AsUnsigned32);
    var port :- Open(baud.value, 1, false, env.sys, env.errnoText);
    Ok((port, baud.doc))
  }

  /** The parameters after `_params["baudrate"]` has been evaluated: a missing rate is inserted as null. */
  function BaudRead(params: Json): (r: Json)
    ensures Contains(params, "baudrate") ==> r == params
    ensures params.Object? && !Contains(params, "baudrate") ==> r == Object(params.fields["baudrate" := Null])
  {
    match Index(params, "baudrate")
    case Ok(a) => a.doc
    case Throws(_) => params
  }

  /**
   * `setup`: a port already open is kept as it is. Otherwise the configured
   * path must exist (reading it is outside the `try`, so a non-string path
   * throws out of `get_output`), and any exception while opening becomes a
   * critical status with the exception's text as the error.
   */
  function Setup(s: State, env: Env): (r: Result<Transition<State>>)
    ensures s.port.Some? ==> r == Ok(Transition(Success, s))
    ensures r.Ok? ==> r.value.status == Success || r.value.status == Critical
    ensures r.Ok? && r.value.status == Success ==> r.value.state.port.Some?
    ensures r.Ok? && r.value.status == Critical ==> r.value.state.port == None && r.value.state.base.agentId == s.base.agentId
    ensures r.Ok? ==> r.value.state.base.agentId == s.base.agentId
  {
    if s.port.Some? then Ok(Transition(Success, s))
    else
      var path :- JsonValues.Read(s.params, "port", AsString);
      var s1 := s.(params := path.doc);
      if !env.pathExists(path.value) then
        Ok(Transition(Critical, s1.(base := s1.base.(error := PortMissing))))
      else
        match OpenConfigured(s1.params, env)
        case Throws(what) => Ok(Transition(Critical, s1.(params := BaudRead(s1.params), base := s1.base.(error := what))))
        case Ok((port, doc)) => Ok(Transition(Success, s1.(params := doc, port := Some(port))))
  }

  /**
   * A configured path that does not exist is critical with "Port does not
   * exist"; a baud rate `connect` does not support is critical with the text
   * of `errno`.
   */
  lemma SetupFailures(s: State, env: Env)
    requires s.port == None && Contains(s.params, "port") && s.params.fields["port"].Str?
    ensures var path := s.params.fields["port"].s;
      !env.pathExists(path) ==> Setup(s, env) == Ok(Transition(Critical, s.(base := s.base.(error := PortMissing))))
    ensures var path := s.params.fields["port"].s;
      env.pathExists(path) && Contains(s.params, "baudrate") && s.params.fields["baudrate"].Int?
      && 0 <= s.params.fields["baudrate"].i < UnsignedModulus && s.params.fields["baudrate"].i !in SupportedBauds ==>
        Setup(s, env) == Ok(Transition(Critical, s.(base := s.base.(error := env.errnoText))))
    ensures var path := s.params.fields["port"].s;
      env.pathExists(path) && !Contains(s.params, "baudrate") ==>
        && Setup(s, env).Ok? && Setup(s, env).value.status == Critical
        && Setup(s, env).value.state.port == None
        && Setup(s, env).value.state.params == Object(s.params.fields["baudrate" := Null])
  {
  }

  /** The outcome of the search for a parseable line: the parsed value and the reads left, or none before the reads ran out. */
  datatype Search = Found(value: Json, rest: seq<Read>) | Exhausted

  /**
   * One read of a line into a cleared buffer: the line left behind and the number of
   * reads it took, or `None` when the reads run out first. The result of
   * `readLine` is ignored, so a failed read yields its partial line too.
   */
  function NextLine(stream: seq<Read>): (r: Option<(string, nat)>)
    ensures r.Some? ==> 0 < r.value.1 <= |stream|
    ensures r.None? <==> ReadLineString(stream, "").0.Blocked?
  {
    ScanStops(stream, None, 0, "");
    var (l, line) := ReadLineString(stream, "");
    match l
    case Blocked(_) => None
    case Done(_, consumed) => Some((line, consumed))
    case Failed(_, consumed) => Some((line, consumed))
  }

  /**
   * The loop of `get_output` that reads and parses until parsing succeeds: a line
   * that fails to parse is dropped and the next one read. `parse` is
   * `json::parse`, `None` where it throws.
   */
  function ReadUntilParsed(stream: seq<Read>, parse: string -> Option<Json>): (r: Search)
    ensures r.Found? ==> |r.rest| < |stream| && r.rest == stream[|stream| - |r.rest|..]
    decreases |stream|
  {
    match NextLine(stream)
    case None => Exhausted
    case Some((line, consumed)) =>
      if parse(line).Some? then Found(parse(line).value, stream[consumed..]) else ReadUntilParsed(stream[consumed..], parse)
  }

  /** The lines the reads deliver one after another (a failed read ends a line too), up to where they run out. */
  function Lines(stream: seq<Read>): (ls: seq<string>)
    decreases |stream|
  {
    match NextLine(stream)
    case None => []
    case Some((line, consumed)) => [line] + Lines(stream[consumed..])
  }

  /** The value of the first of `ls` that parses, if any. */
  function FirstParse(ls: seq<string>, parse: string -> Option<Json>): (r: Option<Json>)
    decreases |ls|
  {
    if ls == [] then None
    else if parse(ls[0]).Some? then parse(ls[0])
    else FirstParse(ls[1..], parse)
  }

  /** `FirstParse` finds a value exactly when some line parses, and the value is that of the first such line. */
  lemma {:induction false} FirstParseIsFirst(ls: seq<string>, parse: string -> Option<Json>)
    ensures FirstParse(ls, parse).Some? <==> exists k :: 0 <= k < |ls| && parse(ls[k]).Some?
    ensures FirstParse(ls, parse).Some? ==>
      exists k :: && 0 <= k < |ls| && parse(ls[k]) == FirstParse(ls, parse)
                  && forall j :: 0 <= j < k ==> parse(ls[j]).None?
    decreases |ls|
  {
    if ls != [] && parse(ls[0]).None? {
      var tail := ls[1..];
      FirstParseIsFirst(tail, parse);
      assert forall k :: 1 <= k < |ls| ==> ls[k] == tail[k - 1];
      if FirstParse(tail, parse).Some? {
        var k :| && 0 <= k < |tail| && parse(tail[k]) == FirstParse(tail, parse)
                 && forall j :: 0 <= j < k ==> parse(tail[j]).None?;
        assert parse(ls[k + 1]) == FirstParse(ls, parse);
      }
    }
  }

  /** Reading until a line parses yields the first parseable line of those the reads deliver. */
  lemma {:induction false} SearchFollowsLines(stream: seq<Read>, parse: string -> Option<Json>)
    ensures ReadUntilParsed(stream, parse).Found? <==> FirstParse(Lines(stream), parse).Some?
    ensures ReadUntilParsed(stream, parse).Found? ==> FirstParse(Lines(stream), parse) == Some(ReadUntilParsed(stream, parse).value)
    decreases |stream|
  {
    match NextLine(stream)
    case None =>
    case Some((line, consumed)) =>
      var rest := stream[consumed..];
      var ls := [line] + Lines(rest);
      assert Lines(stream) == ls;
      assert ls[0] == line && ls[1..] == Lines(rest);
      SearchFollowsLines(rest, parse);
  }

  /**
   * The search finds the first line that parses: every earlier line fails to
   * parse, and when no line parses, the search runs out of reads.
   */
  lemma FirstParseableLine(stream: seq<Read>, parse: string -> Option<Json>)
    ensures ReadUntilParsed(stream, parse).Found? <==> exists k :: 0 <= k < |Lines(stream)| && parse(Lines(stream)[k]).Some?
    ensures ReadUntilParsed(stream, parse).Found? ==>
      exists k :: && 0 <= k < |Lines(stream)| && parse(Lines(stream)[k]) == Some(ReadUntilParsed(stream, parse).value)
                  && forall j :: 0 <= j < k ==> parse(Lines(stream)[j]).None?
  {
    SearchFollowsLines(stream, parse);
    FirstParseIsFirst(Lines(stream), parse);
  }

  /**
   * What one call does within the reads given: it returns (a status, or an
   * escaping exception) and leaves the reads it did not consume, or it is
   * still waiting for a parseable line when the reads run out.
   */
  datatype Outcome = Returned(result: Result<Step<State, Json>>, rest: seq<Read>) | Waiting(state: State)

  /**
   * `get_output`: the output is cleared, the port set up (a critical setup is
   * critical here too), then lines are read until one parses; that value
   * becomes the output, with the agent id written into it unconditionally.
   */
  function GetOutput(s: State, out: Json, env: Env, stream: seq<Read>, parse: string -> Option<Json>): (r: Outcome)
    ensures s.port.Some? ==> r == Receive(s, stream, parse)
  {
    match Setup(s, env)
    case Throws(what) => Returned(Throws(what), stream)
    case Ok(Transition(status, s1)) =>
      if status != Success then Returned(Ok(Step(Critical, s1, Clear(out))), stream)
      else Receive(s1, stream, parse)
  }

  /** The reading part of `get_output`, once the port is open. */
  function Receive(s: State, stream: seq<Read>, parse: string -> Option<Json>): (r: Outcome)
    ensures var search := ReadUntilParsed(stream, parse);
      && (r.Waiting? <==> search.Exhausted?)
      && (r.Waiting? ==> r.state == s)
      && (r.Returned? ==> r.rest == search.rest && (r.result.Ok? <==> search.value.Object? || search.value.Null?))
      && (r.Returned? && r.result.Ok? ==>
            r.result.value == Step(Success, s, Object(Fields(search.value)["agent_id" := Str(s.base.agentId)])))
  {
    match ReadUntilParsed(stream, parse)
    case Exhausted => Waiting(s)
    case Found(j, rest) =>
      match Put(j, "agent_id", Str(s.base.agentId))
      case Throws(what) => Returned(Throws(what), rest)
      case Ok(o) => Returned(Ok(Step(Success, s, o)), rest)
  }

  /**
   * A critical setup leaves the output cleared and no port open. A successful
   * call outputs the first parseable line with `agent_id` added, when that
   * line is an object (or null); other JSON values cannot take a member and
   * make the call throw.
   */
  lemma GetOutputEffect(s: State, out: Json, env: Env, stream: seq<Read>, parse: string -> Option<Json>)
    ensures var r := GetOutput(s, out, env, stream, parse);
      r.Returned? && r.result.Ok? && r.result.value.status == Critical ==>
        r.result.value.out == Clear(out) && r.result.value.state.port == None && s.port == None
    ensures var r := GetOutput(s, out, env, stream, parse);
      r.Returned? && r.result.Ok? && r.result.value.status != Critical ==>
        && r.result.value.status == Success && r.result.value.state.port.Some?
        && var search := ReadUntilParsed(stream, parse);
        && search.Found? && r.rest == search.rest
        && (search.value.Object? || search.value.Null?)
        && r.result.value.out == Object(Fields(search.value)["agent_id" := Str(s.base.agentId)])
  {
  }

  /**
   * The port is opened at most once: after a call that got past setup, the
   * next call reuses the same port whatever the environment says.
   */
  lemma PortOpenedOnce(s: State, out: Json, env: Env, stream: seq<Read>, parse: string -> Option<Json>,
                       out2: Json, env2: Env, stream2: seq<Read>)
    requires var r := GetOutput(s, out, env, stream, parse);
      r.Returned? && r.result.Ok? && r.result.value.status == Success
    ensures var t := GetOutput(s, out, env, stream, parse).result.value.state;
      && t.port.Some? && (s.port.Some? ==> t.port == s.port)
      && GetOutput(t, out2, env2, stream2, parse) == Receive(t, stream2, parse)
  {
  }
}

=== FILE: serialport.dfy ===
/**
 * The serial port wrapper: line reading over the results of successive
 * one-byte `::read` calls, the zero-length short-cut of `write`, and the
 * baud-rate and stop-bit choices `connect` makes. The operating-system calls
 * themselves are parameters.
 */
module SerialPort {
  import opened Common

  /** The result of one `::read(fd, &c, 1)`: a byte, nothing before the timeout, or an error. */
  datatype Read = Byte(c: char) | Timeout | Failure

  predicate IsEol(c: char) {
    c == '\n' || c == '\r'
  }

  predicate NoEol(s: string) {
    forall i :: 0 <= i < |s| ==> !IsEol(s[i])
  }

  predicate NoFailure(rs: seq<Read>) {
    forall i :: 0 <= i < |rs| ==> !rs[i].Failure?
  }

  /** The bytes a run of reads delivered, in order; timeouts deliver nothing. */
  function Chars(rs: seq<Read>): (s: string)
    ensures |s| <= |rs|
    decreases |rs|
  {
    if rs == [] then ""
    else
      var last := rs[|rs| - 1];
      Chars(rs[..|rs| - 1]) + (if last.Byte? then [last.c] else "")
  }

  /** One more read extends the delivered bytes by its byte, if any, and keeps the run free of failures unless it failed. */
  lemma ReadOneMore(stream: seq<Read>, i: nat)
    requires i < |stream|
    ensures Chars(stream[..i + 1]) == Chars(stream[..i]) + (if stream[i].Byte? then [stream[i].c] else "")
    ensures NoFailure(stream[..i + 1]) <==> NoFailure(stream[..i]) && !stream[i].Failure?
  {
    assert stream[..i + 1][..i] == stream[..i];
    assert stream[..i + 1][i] == stream[i];
  }

  /** A character other than CR and LF keeps a line free of them. */
  lemma NoEolAppend(s: string, c: char)
    requires NoEol(s) && !IsEol(c)
    ensures NoEol(s + [c])
  {
    assert forall i :: 0 <= i < |s| ==> (s + [c])[i] == s[i];
  }

  /**
   * How a line read ends: with a complete line after `consumed` reads, with
   * an error on the `consumed`-th read after `partial` was stored, or not at
   * all within the reads given (the call would still be waiting).
   */
  datatype LineRead = Done(text: string, consumed: nat) | Failed(partial: string, consumed: nat) | Blocked(partial: string)

  /** The value `readLine` returns: the length of the line, or the negative `::read` result. */
  function ReturnValue(r: LineRead): int
    requires !r.Blocked?
  {
    if r.Done? then |r.text| else -1
  }

  /** A line ended by a CR or LF, which was consumed but not stored. */
  predicate Terminated(stream: seq<Read>, text: string, consumed: nat) {
    && 0 < consumed <= |stream|
    && stream[consumed - 1].Byte? && IsEol(stream[consumed - 1].c)
    && text == Chars(stream[..consumed - 1])
  }

  /** A line cut off at the limit: the last read stored the last character. */
  predicate Filled(stream: seq<Read>, text: string, consumed: nat, limit: Option<nat>) {
    && limit == Some(|text|)
    && consumed <= |stream|
    && text == Chars(stream[..consumed])
    && (consumed > 0 ==> stream[consumed - 1].Byte?)
  }

  /**
   * Where the reading loop stands after `i` reads with `text` stored: every
   * byte delivered so far is stored, nothing failed, no CR or LF was seen,
   * and the limit (if any) is not exceeded and only reached by a stored byte.
   */
  predicate Scanning(stream: seq<Read>, limit: Option<nat>, i: nat, text: string) {
    && i <= |stream| && text == Chars(stream[..i]) && NoFailure(stream[..i]) && NoEol(text)
    && (limit.Some? ==> |text| <= limit.value)
    && (limit.Some? && |text| == limit.value ==> i == 0 || stream[i - 1].Byte?)
  }

  /** The text stored after read `r`. */
  function Stored(text: string, r: Read): string {
    if r.Byte? then text + [r.c] else text
  }

  /** A read that neither fails nor ends the line, below the limit, keeps the loop's invariant. */
  lemma ScanningStep(stream: seq<Read>, limit: Option<nat>, i: nat, text: string)
    requires Scanning(stream, limit, i, text) && i < |stream| && !(limit.Some? && |text| == limit.value)
    requires !stream[i].Failure? && !(stream[i].Byte? && IsEol(stream[i].c))
    ensures Scanning(stream, limit, i + 1, Stored(text, stream[i]))
  {
    ReadOneMore(stream, i);
    if stream[i].Byte? {
      NoEolAppend(text, stream[i].c);
    }
  }

  /**
   * The loop shared by both `readLine` overloads, from read `i` on with `text`
   * stored so far: stop at the limit (if any), at a CR or LF, or at a failed
   * read; retry after a timeout.
   */
  function Scan(stream: seq<Read>, limit: Option<nat>, i: nat, text: string): (r: LineRead)
    requires Scanning(stream, limit, i, text)
    ensures r.Done? ==> r.consumed <= |stream| && |text| <= |r.text|
    ensures r.Done? ==> NoEol(r.text) && NoFailure(stream[..r.consumed])
    ensures r.Done? ==> Terminated(stream, r.text, r.consumed) || Filled(stream, r.text, r.consumed, limit)
    ensures r.Done? && limit.Some? ==> |r.text| <= limit.value
    ensures r.Blocked? && limit.Some? ==> |r.partial| < limit.value
    ensures r.Failed? && limit.Some? ==> |r.partial| < limit.value
    decreases |stream| - i
  {
    if limit.Some? && |text| == limit.value then Done(text, i)
    else if i == |stream| then
      assert stream[..i] == stream;
      Blocked(text)
    else
      match stream[i]
      case Byte(c) =>
        if IsEol(c) then
          ReadOneMore(stream, i);
          Done(text, i + 1)
        else
          ScanningStep(stream, limit, i, text);
          Scan(stream, limit, i + 1, text + [c])
      case Timeout =>
        ScanningStep(stream, limit, i, text);
        Scan(stream, limit, i + 1, text)
      case Failure => Failed(text, i + 1)
  }

  /** A read that fails ends the line at once, with what was stored before it. */
  lemma {:induction false} ScanFails(stream: seq<Read>, limit: Option<nat>, i: nat, text: string)
    requires Scanning(stream, limit, i, text)
    ensures var r := Scan(stream, limit, i, text);
      r.Failed? ==> && i < r.consumed <= |stream| && stream[r.consumed - 1].Failure?
                    && NoFailure(stream[..r.consumed - 1]) && r.partial == Chars(stream[..r.consumed - 1])
    decreases |stream| - i
  {
    if !(limit.Some? && |text| == limit.value) && i < |stream| {
      match stream[i]
      case Byte(c) =>
        if !IsEol(c) {
          ScanningStep(stream, limit, i, text);
          ScanFails(stream, limit, i + 1, text + [c]);
        }
      case Timeout =>
        ScanningStep(stream, limit, i, text);
        ScanFails(stream, limit, i + 1, text);
      case Failure =>
    }
  }

  /** Running out of reads leaves everything delivered so far stored, with no failure among the reads. */
  lemma {:induction false} ScanRunsOut(stream: seq<Read>, limit: Option<nat>, i: nat, text: string)
    requires Scanning(stream, limit, i, text)
    ensures var r := Scan(stream, limit, i, text);
      r.Blocked? ==> NoFailure(stream) && r.partial == Chars(stream) && NoEol(r.partial)
    decreases |stream| - i
  {
    if !(limit.Some? && |text| == limit.value) {
      if i == |stream| {
        assert stream[..i] == stream;
      } else {
        match stream[i]
        case Byte(c) =>
          if !IsEol(c) {
            ScanningStep(stream, limit, i, text);
            ScanRunsOut(stream, limit, i + 1, text + [c]);
          }
        case Timeout =>
          ScanningStep(stream, limit, i, text);
          ScanRunsOut(stream, limit, i + 1, text);
        case Failure =>
      }
    }
  }

  /**
   * A read that fails ends the line at once, with what was stored before it;
   * running out of reads leaves everything delivered so far stored, with no
   * failure among the reads.
   */
  lemma ScanStops(stream: seq<Read>, limit: Option<nat>, i: nat, text: string)
    requires Scanning(stream, limit, i, text)
    ensures var r := Scan(stream, limit, i, text);
      r.Failed? ==> && i < r.consumed <= |stream| && stream[r.consumed - 1].Failure?
                    && NoFailure(stream[..r.consumed - 1]) && r.partial == Chars(stream[..r.consumed - 1])
    ensures var r := Scan(stream, limit, i, text);
      r.Blocked? ==> NoFailure(stream) && r.partial == Chars(stream) && NoEol(r.partial)
  {
    ScanFails(stream, limit, i, text);
    ScanRunsOut(stream, limit, i, text);
  }

  /**
   * `readLine(char *line, size_t nmax)`: nothing at all for a zero capacity;
   * otherwise at most `nmax - 1` characters, then the terminating NUL. A
   * failed read returns at once, leaving the stored characters unterminated.
   */
  function ReadLineBuffer(stream: seq<Read>, buf: seq<char>, nmax: nat): (r: (LineRead, seq<char>))
    requires nmax <= |buf|
    ensures nmax == 0 ==> r == (Done("", 0), buf)
    ensures |r.1| == |buf|
    ensures r.0.Done? && nmax > 0 ==>
      && |r.0.text| <= nmax - 1 && NoEol(r.0.text)
      && r.1[..|r.0.text|] == r.0.text && r.1[|r.0.text|] == '\0' && r.1[|r.0.text| + 1..] == buf[|r.0.text| + 1..]
    ensures r.0.Failed? ==> |r.0.partial| < nmax && r.1 == r.0.partial + buf[|r.0.partial|..]
    ensures r.0.Done? && nmax > 0 ==>
      Terminated(stream, r.0.text, r.0.consumed) || Filled(stream, r.0.text, r.0.consumed, Some(nmax - 1))
  {
    if nmax == 0 then (Done("", 0), buf)
    else
      var l := Scan(stream, Some(nmax - 1), 0, "");
      match l
      case Done(text, _) => (l, text + ['\0'] + buf[|text| + 1..])
      case Failed(partial, _) => (l, partial + buf[|partial|..])
      case Blocked(partial) => (l, partial + buf[|partial|..])
  }

  /**
   * `readLine(std::string &line)`: the characters up to the next CR or LF are
   * appended to what `line` already holds, and their number is returned.
   */
  function ReadLineString(stream: seq<Read>, line: string): (r: (LineRead, string))
    ensures r.0.Done? ==> r.1 == line + r.0.text && ReturnValue(r.0) == |r.1| - |line|
    ensures r.0.Done? ==> NoEol(r.0.text) && Terminated(stream, r.0.text, r.0.consumed)
    ensures r.0.Failed? ==> r.1 == line + r.0.partial && ReturnValue(r.0) < 0
    ensures r.0.Blocked? ==> r.1 == line + r.0.partial
  {
    var l := Scan(stream, None, 0, "");
    match l
    case Done(text, _) => (l, line + text)
    case Failed(partial, _) => (l, line + partial)
    case Blocked(partial) => (l, line + partial)
  }

  /**
   * When a line fits in the buffer, both overloads read the same line and
   * consume the same reads.
   */
  lemma {:induction false} OverloadsAgree(stream: seq<Read>, nmax: nat, i: nat, text: string)
    requires nmax > 0 && Scanning(stream, None, i, text) && |text| < nmax - 1
    requires var u := Scan(stream, None, i, text); u.Done? && |u.text| < nmax - 1
    ensures Scan(stream, Some(nmax - 1), i, text) == Scan(stream, None, i, text)
    decreases |stream| - i
  {
    if i < |stream| {
      match stream[i]
      case Byte(c) =>
        if !IsEol(c) {
          ScanningStep(stream, None, i, text);
          OverloadsAgree(stream, nmax, i + 1, text + [c]);
        }
      case Timeout =>
        ScanningStep(stream, None, i, text);
        OverloadsAgree(stream, nmax, i + 1, text);
      case Failure =>
    }
  }

  // ---------------------------------------------------------------------------
  // Writing.
  // ---------------------------------------------------------------------------

  /** A `write` call: what it returns, and the bytes it handed to `::write`, if it called it. */
  datatype WriteCall = WriteCall(ret: int, issued: Option<seq<char>>)

  /** `write(buf, nBytes)`: zero bytes return 0 without a system call; `sys` is what `::write` returns. */
  function WriteBuffer(buf: seq<char>, nBytes: nat, sys: int): (r: WriteCall)
    requires nBytes <= |buf|
    ensures nBytes == 0 <==> r.issued == None
    ensures nBytes == 0 ==> r.ret == 0
    ensures nBytes > 0 ==> r == WriteCall(sys, Some(buf[..nBytes]))
  {
    if nBytes == 0 then WriteCall(0, None) else WriteCall(sys, Some(buf[..nBytes]))
  }

  /** `write(string)`: the same, for the whole string. */
  function WriteString(s: string, sys: int): (r: WriteCall)
    ensures s == [] <==> r.issued == None
    ensures s == [] ==> r.ret == 0
    ensures s != [] ==> r == WriteCall(sys, Some(s))
  {
    if |s| == 0 then WriteCall(0, None) else WriteCall(sys, Some(s))
  }

  /** Writing a string is writing its whole buffer. */
  lemma WritesAgree(s: string, sys: int)
    ensures WriteString(s, sys) == WriteBuffer(s, |s|, sys)
  {
    assert s[..|s|] == s;
  }

  // ---------------------------------------------------------------------------
  // Opening.
  // ---------------------------------------------------------------------------

  /** The `Bxxx` speed constant `connect` selects for a baud rate, identified by its rate. */
  function Speed(baud: nat): (r: Option<nat>)
    ensures r.Some? <==> baud in SupportedBauds
    ensures r.Some? ==> r.value == baud
  {
    if baud == 230400 then Some(230400)
    else if baud == 115200 then Some(115200)
    else if baud == 57600 then Some(57600)
    else if baud == 38400 then Some(38400)
    else if baud == 19200 then Some(19200)
    else if baud == 9600 then Some(9600)
    else if baud == 4800 then Some(4800)
    else if baud == 2400 then Some(2400)
    else if baud == 1800 then Some(1800)
    else if baud == 1200 then Some(1200)
    else if baud == 600 then Some(600)
    else if baud == 300 then Some(300)
    else None
  }

  const SupportedBauds: set<nat> := {300, 600, 1200, 1800, 2400, 4800, 9600, 19200, 38400, 57600, 115200, 230400}

  /** Exactly the twelve listed rates are accepted, each at its own speed. */
  lemma BaudWhitelist(baud: nat)
    ensures Speed(baud).Some? <==> baud in SupportedBauds
    ensures Speed(baud).Some? ==> Speed(baud).value == baud
    ensures |SupportedBauds| == 12
  {
  }

  /** The terminal settings `connect` writes, as far as the model follows them. */
  datatype Settings = Settings(twoStopBits: bool, speed: nat, canonical: bool)

  /** The outcomes of the system calls `connect` makes, in order: the descriptor `open` returns, then success flags. */
  datatype SysCalls = SysCalls(openFd: int, exclusive: bool, blocking: bool, getAttr: bool, setAttr: bool, flush: bool)

  /** What `connect` returns (a descriptor, or -1) and the settings it prepared when it got that far. */
  datatype Connection = Connection(fd: int, settings: Option<Settings>)

  /**
   * `connect`: any failing call, or a baud rate outside the list, gives -1
   * (closing a descriptor already opened); two stop bits are chosen exactly
   * when `stopBits == 2`.
   */
  function Connect(baud: nat, stopBits: nat, canonical: bool, sys: SysCalls): (r: Connection)
    ensures r.fd != -1 ==> baud in SupportedBauds && r.fd == sys.openFd
    ensures baud !in SupportedBauds ==> r.fd == -1
    ensures r.settings.Some? ==> r.settings.value.twoStopBits == (stopBits == 2) && r.settings.value.speed == baud
  {
    BaudWhitelist(baud);
    if sys.openFd == -1 || !sys.exclusive || !sys.blocking || !sys.getAttr then Connection(-1, None)
    else match Speed(baud)
      case None => Connection(-1, None)
      case Some(speed) =>
        var settings := Settings(stopBits == 2, speed, canonical);
        if !sys.setAttr || !sys.flush then Connection(-1, Some(settings))
        else Connection(sys.openFd, Some(settings))
  }

  /** `connect` hands back the descriptor exactly when every call succeeds and the rate is listed. */
  lemma ConnectSucceeds(baud: nat, stopBits: nat, canonical: bool, sys: SysCalls)
    ensures Connect(baud, stopBits, canonical, sys).fd != -1 <==>
      && sys.openFd != -1 && sys.exclusive && sys.blocking && sys.getAttr && sys.setAttr && sys.flush
      && baud in SupportedBauds
  {
    BaudWhitelist(baud);
  }

  /** An open serial port: its descriptor and the settings it runs with. */
  datatype Port = Port(fd: int, settings: Settings)

  /**
   * The `SerialPort` constructor (one stop bit, non-canonical by default): a
   * failed `connect` throws a runtime error with the text of `errno`.
   */
  function Open(baud: nat, stopBits: nat, canonical: bool, sys: SysCalls, errnoText: string): (r: Result<Port>)
    ensures r.Ok? <==> Connect(baud, stopBits, canonical, sys).fd != -1
    ensures r.Throws? ==> r.what == errnoText
    ensures r.Ok? ==> baud in SupportedBauds && r.value.settings.speed == baud
  {
    var c := Connect(baud, stopBits, canonical, sys);
    if c.fd == -1 then Throws(errnoText) else Ok(Port(c.fd, c.settings.value))
  }
}

=== FILE: spawner.dfy ===
/**
 * The spawner source: `set_params` enqueues `number` random periods drawn from
 * `[period_min, period_max]`, and each `get_output` dequeues one of them and
 * reports it with a drawn identifier, until the queue runs dry.
 */
module Spawner {
  import opened Common
  import opened JsonValues
  import opened JsonMergePatch
  import opened Roles
  import opened Configuration

  /**
   * The source's base state, its three `size_t` settings and the FIFO queue
   * of periods (front first). The settings are uninitialised in the source
   * until the first `set_params`; the model starts them at zero.
   */
  datatype State = State(base: SourceState, number: nat, periodMin: nat, periodMax: nat, periods: seq<nat>)

  const Defaults: seq<(string, Json)> := [("period_min", Int(100)), ("period_max", Int(5000)), ("number", Int(50))]

  /** The configuration the defaults alone describe. */
  const DefaultConfig: map<string, Json> := map["period_min" := Int(100), "period_max" := Int(5000), "number" := Int(50)]

  const NoMorePeriods: string := "No more periods available"

  /** Dividing by a zero `size_t` traps; the model lets the trap escape like an exception. */
  const DivisionByZero: string := "integer division by zero"

  function New(): (s: State)
    ensures s.base == NewSource() && s.periods == []
  {
    State(NewSource(), 0, 0, 0, [])
  }

  lemma DefaultsAreConfig()
    ensures AssignmentsMap(Defaults) == DefaultConfig
  {
  }

  // ---------------------------------------------------------------------------
  // Drawing periods.
  // ---------------------------------------------------------------------------

  /** `_period_max - _period_min + 1` in `size_t` arithmetic. */
  function Span(lo: nat, hi: nat): (r: nat)
    ensures r < SizeModulus
    ensures lo <= hi + 1 && hi + 1 - lo < SizeModulus ==> r == hi + 1 - lo
    ensures hi + 1 < lo && lo - (hi + 1) < SizeModulus ==> r == SizeModulus - (lo - (hi + 1))
  {
    WrapUnsigned(hi - lo + 1, SizeModulus)
  }

  /** `RAND_MAX` as glibc defines it: `rand()` returns a value in `[0, RandMax]`. */
  const RandMax: nat := 0x7fff_ffff

  /** A value `rand()` can return. */
  type RandValue = x: nat | x <= RandMax

  /** `_period_min + (rand() % span)` in `size_t` arithmetic, for one value `x` of `rand()`. */
  function Draw(lo: nat, hi: nat, x: nat): (r: nat)
    requires Span(lo, hi) > 0
    ensures r < SizeModulus
    ensures lo + Span(lo, hi) <= SizeModulus ==> lo <= r < lo + Span(lo, hi)
  {
    WrapUnsigned(lo + x % Span(lo, hi), SizeModulus)
  }

  /**
   * For an ordered range that is not the whole of `size_t`, a draw lies in the
   * range, and every value of the range within `RandMax` of its bottom is the
   * draw of some `rand()` value; nothing above `lo + RandMax` is ever drawn,
   * so a range wider than `RandMax + 1` is only partly reachable.
   */
  lemma DrawIsInRange(lo: nat, hi: nat, x: RandValue, v: nat)
    requires lo <= hi < SizeModulus && hi - lo + 1 < SizeModulus
    ensures Span(lo, hi) == hi - lo + 1
    ensures lo <= Draw(lo, hi, x) <= hi
    ensures Draw(lo, hi, x) <= lo + RandMax
    ensures lo <= v <= hi && v - lo <= RandMax ==> Draw(lo, hi, v - lo) == v
  {
    var m := hi - lo + 1;
    assert Span(lo, hi) == m;
    assert 0 <= x % m < m;
    RemainderAtMost(x, m);
    assert Draw(lo, hi, x) == lo + x % m;
    if lo <= v <= hi {
      SmallRemainder(v - lo, m);
    }
  }

  lemma RemainderAtMost(a: nat, m: nat)
    requires m > 0
    ensures a % m <= a
  {
  }

  lemma SmallRemainder(a: nat, m: nat)
    requires a < m
    ensures a % m == a
  {
  }

  /** The periods the `set_params` loop pushes, the i-th from the i-th `rand()` value. */
  function Periods(count: nat, lo: nat, hi: nat, draws: nat -> RandValue): (r: seq<nat>)
    requires count == 0 || Span(lo, hi) > 0
    ensures |r| == count
  {
    if count == 0 then [] else Periods(count - 1, lo, hi, draws) + [Draw(lo, hi, draws(count - 1))]
  }

  /** The i-th period pushed comes from the i-th `rand()` value. */
  lemma {:induction false} PeriodsDrawInOrder(count: nat, lo: nat, hi: nat, draws: nat -> RandValue, i: nat)
    requires Span(lo, hi) > 0 && i < count
    ensures Periods(count, lo, hi, draws)[i] == Draw(lo, hi, draws(i))
    decreases count
  {
    if i < count - 1 {
      PeriodsDrawInOrder(count - 1, lo, hi, draws, i);
    }
  }

  /**
   * `set_params`: the base binds the agent id, the defaults are seeded and the
   * caller's object merge-patched on top, then `number`, `period_min` and
   * `period_max` are read as `size_t` (a missing or non-numeric member
   * throws) and `number` periods are appended to the queue. `draws(i)` is the
   * value of the i-th `rand()` call; the one-second sleep is not modelled.
   */
  function SetParams(s: State, p: Json, draws: nat -> RandValue): (r: Result<State>)
    ensures !p.Object? ==> r.Throws?
    ensures r.Ok? ==> r.value.base.agentId == SourceSetParams(s.base, p).agentId
    ensures r.Ok? ==> r.value.base.error == s.base.error
    ensures r.Ok? ==> |r.value.periods| == |s.periods| + r.value.number
    ensures r.Ok? ==> r.value.periods[..|s.periods|] == s.periods
  {
    var b := SourceSetParams(s.base, p);
    var params :- SeedThenPatch(b.params, Defaults, p);
    var t :- Configure(b.(params := params), s.periods);
    Enqueue(t, draws)
  }

  /** The configured numeric member `k`, when present and convertible to `size_t`. */
  function Setting(params: Json, k: string): Option<nat> {
    if Contains(params, k) && AsSize(params.fields[k]).Ok? then Some(AsSize(params.fields[k]).value) else None
  }

  /**
   * The three settings `number`, `period_min` and `period_max` are read
   * through the non-const `operator[]`: a missing member reads as an
   * inserted null, whose conversion throws.
   */
  function Configure(base: SourceState, periods: seq<nat>): (r: Result<State>)
    ensures var n, lo, hi := Setting(base.params, "number"), Setting(base.params, "period_min"), Setting(base.params, "period_max");
      && (r.Ok? <==> n.Some? && lo.Some? && hi.Some?)
      && (r.Ok? ==> r.value == State(base, n.value, lo.value, hi.value, periods))
  {
    var n :- Read(base.params, "number", AsSize);
    var lo :- Read(n.doc, "period_min", AsSize);
    var hi :- Read(lo.doc, "period_max", AsSize);
    Ok(State(base.(params := hi.doc), n.value, lo.value, hi.value, periods))
  }

  /** The `set_params` loop: `number` draws appended to the queue; a zero span traps when it runs. */
  function Enqueue(s: State, draws: nat -> RandValue): (r: Result<State>)
    ensures r.Ok? <==> s.number == 0 || Span(s.periodMin, s.periodMax) > 0
    ensures r.Ok? ==> r.value == s.(periods := s.periods + Periods(s.number, s.periodMin, s.periodMax, draws))
  {
    if s.number > 0 && Span(s.periodMin, s.periodMax) == 0 then
      Throws(DivisionByZero)
    else
      Ok(s.(periods := s.periods + Periods(s.number, s.periodMin, s.periodMax, draws)))
  }

  /**
   * Every period a successful `set_params` enqueues lies between the
   * configured minimum and maximum, when those are ordered and do not span the
   * whole of `size_t`.
   */
  lemma NewPeriodsInRange(s: State, p: Json, draws: nat -> RandValue, i: nat)
    requires SetParams(s, p, draws).Ok?
    requires var t := SetParams(s, p, draws).value;
      t.periodMin <= t.periodMax && t.periodMax - t.periodMin + 1 < SizeModulus
    requires |s.periods| <= i < |SetParams(s, p, draws).value.periods|
    ensures var t := SetParams(s, p, draws).value;
      t.periodMin <= t.periods[i] <= t.periodMax
  {
    var t := SetParams(s, p, draws).value;
    var j := i - |s.periods|;
    DrawIsInRange(t.periodMin, t.periodMax, draws(j), t.periodMin);
    PeriodsDrawInOrder(t.number, t.periodMin, t.periodMax, draws, j);
  }

  /** The effective configuration: the argument merge-patched onto the defaults, plus a null agent id if absent. */
  function Effective(p: map<string, Json>): map<string, Json> {
    MergePatch(Object(DefaultConfig), Object(p)).fields
      + (if "agent_id" in p then map[] else map["agent_id" := Null])
  }

  /**
   * A successful `set_params` with an object leaves the merge patch of the
   * argument onto the defaults (plus the null agent id the base inserted),
   * and its settings are that configuration's members. It succeeds exactly
   * when all three settings are present and numeric and the span is usable.
   */
  lemma ConfigurationIsPatchedDefaults(s: State, p: Json, draws: nat -> RandValue)
    requires p.Object?
    ensures var c := Object(Effective(p.fields));
      var n, lo, hi := Setting(c, "number"), Setting(c, "period_min"), Setting(c, "period_max");
      && (SetParams(s, p, draws).Ok? <==> n.Some? && lo.Some? && hi.Some? && (n.value == 0 || Span(lo.value, hi.value) > 0))
      && (SetParams(s, p, draws).Ok? ==>
            var t := SetParams(s, p, draws).value;
            t.base.params == c && t.number == n.value && t.periodMin == lo.value && t.periodMax == hi.value)
  {
    DefaultsAreConfig();
    BaseThenSeedThenPatch(Defaults, p, "undefined");
  }

  /** With no settings of its own, the caller gets 50 periods between 100 and 5000. */
  lemma DefaultSettings(s: State, p: Json, draws: nat -> RandValue)
    requires p.Object? && "number" !in p.fields && "period_min" !in p.fields && "period_max" !in p.fields
    ensures SetParams(s, p, draws).Ok?
    ensures var t := SetParams(s, p, draws).value;
      t.number == 50 && t.periodMin == 100 && t.periodMax == 5000 && |t.periods| == |s.periods| + 50
  {
    var c := Effective(p.fields);
    MemberwiseEffect(DefaultConfig, p.fields, "number");
    MemberwiseEffect(DefaultConfig, p.fields, "period_min");
    MemberwiseEffect(DefaultConfig, p.fields, "period_max");
    assert Setting(Object(c), "number") == Some(50);
    assert Setting(Object(c), "period_min") == Some(100);
    assert Setting(Object(c), "period_max") == Some(5000);
    ConfigurationIsPatchedDefaults(s, p, draws);
  }

  // ---------------------------------------------------------------------------
  // Emitting periods.
  // ---------------------------------------------------------------------------

  /** `{"data": {"period": period, "id": id}}`, with `agent_id` when the agent id is not empty. */
  function Report(period: nat, id: string, agentId: string): Json {
    Tagged(map["data" := Object(map["period" := Int(period), "id" := Str(id)])], agentId)
  }

  /**
   * `get_output`: the output is cleared first; an empty queue sets the error
   * and is critical, otherwise the front period is dequeued and reported.
   * `id` is the text of the UUID the call generates.
   */
  function GetOutput(s: State, out: Json, id: string): (r: Result<Step<State, Json>>)
    ensures s.periods == [] ==> r == Ok(Step(Critical, s.(base := s.base.(error := NoMorePeriods)), Clear(out)))
    ensures s.periods != [] && (out.Null? || out.Object?) ==>
      r == Ok(Step(Success, s.(periods := s.periods[1..]), Report(s.periods[0], id, s.base.agentId)))
    ensures s.periods != [] && !(out.Null? || out.Object?) ==> r.Throws?
  {
    var cleared := Clear(out);
    if s.periods == [] then
      Ok(Step(Critical, s.(base := s.base.(error := NoMorePeriods)), cleared))
    else
      var o1 :- SetIn(cleared, "data", "period", Int(s.periods[0]));
      var o2 := SetIn(o1, "data", "id", Str(id)).value;
      assert Fields(cleared) == map[] && Slot(cleared, "data") == map[];
      assert o2.fields == map["data" := Object(map["period" := Int(s.periods[0]), "id" := Str(id)])];
      Ok(Step(Success, s.(periods := s.periods[1..]), Tagged(o2.fields, s.base.agentId)))
  }

  /**
   * The outputs and final state of `get_output` called once per identifier,
   * each time on a null output, which never makes it throw.
   */
  function Run(s: State, ids: seq<string>): (r: Result<(seq<Json>, State)>)
    ensures r.Ok? && |r.value.0| == |ids|
    ensures r.value.1.periods == s.periods[if |ids| <= |s.periods| then |ids| else |s.periods|..]
    ensures r.value.1.base.agentId == s.base.agentId
    decreases |ids|
  {
    if ids == [] then Ok(([], s))
    else
      var step := GetOutput(s, Null, ids[0]).value;
      var rest := Run(step.state, ids[1..]).value;
      Ok(([step.out] + rest.0, rest.1))
  }

  /**
   * The queue is first in, first out: as long as periods remain, successive
   * calls report the queued periods in the order they were enqueued.
   */
  lemma {:induction false} RunReportsQueueInOrder(s: State, ids: seq<string>)
    requires |ids| <= |s.periods|
    ensures Run(s, ids).Ok?
    ensures |Run(s, ids).value.0| == |ids|
    ensures forall i :: 0 <= i < |ids| ==> Run(s, ids).value.0[i] == Report(s.periods[i], ids[i], s.base.agentId)
    ensures Run(s, ids).value.1 == s.(periods := s.periods[|ids|..])
    decreases |ids|
  {
    if ids != [] {
      var s' := s.(periods := s.periods[1..]);
      RunReportsQueueInOrder(s', ids[1..]);
      assert s'.periods[|ids| - 1..] == s.periods[|ids|..];
    }
  }

  /** Once every queued period has been reported, the next call is critical and explains why. */
  lemma DrainedIsCritical(s: State, ids: seq<string>, id: string)
    requires |ids| == |s.periods|
    ensures Run(s, ids).Ok?
    ensures var t := Run(s, ids).value.1;
      GetOutput(t, Null, id) == Ok(Step(Critical, t.(base := t.base.(error := NoMorePeriods)), Null))
  {
    RunReportsQueueInOrder(s, ids);
  }
}

=== FILE: template_filter.dfy ===
/**
 * The filter template every new filter plugin starts from: it seeds one
 * example setting, accepts any input, and outputs nothing but the agent id.
 */
module TemplateFilter {
  import opened Common
  import opened JsonValues
  import opened JsonMergePatch
  import opened Roles
  import opened Configuration

  const Defaults: seq<(string, Json)> := [("some_field", Str("default_value"))]

  function New(): (s: FilterState)
    ensures s == NewFilter()
  {
    NewFilter()
  }

  /** `load_data` accepts any input and keeps nothing. */
  function LoadData(s: FilterState, input: Json): (r: Transition<FilterState>)
    ensures r.status == Success && r.state == s
  {
    Transition(Success, s)
  }

  /**
   * `process`: the output is cleared and receives only the agent id, when
   * that is not empty. Clearing keeps the output's type, so a non-empty agent
   * id cannot be written into a cleared output that is not an object.
   */
  function Process(s: FilterState, out: Json): (r: Result<Step<FilterState, Json>>)
    ensures s.agentId == "" ==> r == Ok(Step(Success, s, Clear(out)))
    ensures s.agentId != "" && (out.Null? || out.Object?) ==>
      r == Ok(Step(Success, s, Object(map["agent_id" := Str(s.agentId)])))
    ensures s.agentId != "" && !(out.Null? || out.Object?) ==> r.Throws?
    ensures r.Ok? ==> r.value.status == Success && r.value.state == s
  {
    var cleared := Clear(out);
    if s.agentId == "" then Ok(Step(Success, s, cleared))
    else
      var o :- Put(cleared, "agent_id", Str(s.agentId));
      assert o.fields == map["agent_id" := Str(s.agentId)];
      Ok(Step(Success, s, o))
  }

  /** `set_params`: the base binds the agent id, then the default is seeded and the caller's object patched on top. */
  function SetParams(s: FilterState, p: Json): (r: Result<FilterState>)
    ensures r.Ok? <==> p.Null? || p.Object?
    ensures r.Ok? ==> r.value.agentId == FilterSetParams(s, p).agentId && r.value.error == s.error
  {
    var b := FilterSetParams(s, p);
    var params :- SeedThenPatch(b.params, Defaults, p);
    Ok(b.(params := params))
  }

  /**
   * `some_field` follows section 2 of RFC 7396: left out it keeps
   * "default_value", a null deletes it, and a scalar or array replaces it.
   */
  lemma SomeFieldRule(s: FilterState, p: Json)
    requires p.Object?
    ensures SetParams(s, p).Ok?
    ensures var c := SetParams(s, p).value.params;
      && c.Object?
      && ("some_field" !in p.fields ==> "some_field" in c.fields && c.fields["some_field"] == Str("default_value"))
      && ("some_field" in p.fields && p.fields["some_field"].Null? ==> "some_field" !in c.fields)
      && ("some_field" in p.fields && !p.fields["some_field"].Null? && !p.fields["some_field"].Object? ==>
            "some_field" in c.fields && c.fields["some_field"] == p.fields["some_field"])
  {
    SeededMember(Defaults, p, "", "some_field");
    assert AssignmentsMap(Defaults) == map["some_field" := Str("default_value")];
  }

  /** `info` has nothing to report. */
  function Info(s: FilterState): (r: map<string, string>)
    ensures |r| == 0
  {
    map[]
  }
}

=== FILE: template_sink.dfy ===
/**
 * The sink template every new sink plugin starts from: it accepts any input
 * and keeps a parameter object seeded with one example setting.
 */
module TemplateSink {
  import opened Common
  import opened JsonValues
  import opened JsonMergePatch
  import opened Roles
  import opened Configuration

  /**
   * The sink's base state and the parameter object the template writes to.
   * The base sink declares no such member, so the model gives the template
   * its own, starting null and kept across calls.
   */
  datatype State = State(base: SinkState, params: Json)

  const Defaults: seq<(string, Json)> := [("some_field", Str("default_value"))]

  function New(): (s: State)
    ensures s.base == NewSink() && s.params == Null
  {
    State(NewSink(), Null)
  }

  /** `load_data` accepts any input and keeps nothing. */
  function LoadData(s: State, input: Json): (r: Transition<State>)
    ensures r.status == Success && r.state == s
  {
    Transition(Success, s)
  }

  /** `set_params`: the base does nothing; the default is seeded and the caller's object patched on top. */
  function SetParams(s: State, p: Json): (r: Result<State>)
    ensures r.Ok? <==> s.params.Null? || s.params.Object?
    ensures r.Ok? ==> r.value.base == s.base
  {
    var params :- SeedThenPatch(s.params, Defaults, p);
    Ok(State(SinkSetParams(s.base, p), params))
  }

  /**
   * On a fresh sink, a caller's `some_field` overrides the default, and every
   * other member the caller gives is added with its value merged onto
   * nothing, which for a scalar or an array is the value itself.
   */
  lemma CallerMembersWin(p: Json, k: string)
    requires p.Object? && k in p.fields && !p.fields[k].Null?
    ensures SetParams(New(), p).Ok?
    ensures var c := SetParams(New(), p).value.params;
      && c.Object? && k in c.fields
      && (k == "some_field" ==> c.fields[k] == MergePatch(Str("default_value"), p.fields[k]))
      && (k != "some_field" ==> c.fields[k] == MergePatch(Null, p.fields[k]))
      && (!p.fields[k].Object? ==> c.fields[k] == p.fields[k])
  {
    var d := map["some_field" := Str("default_value")];
    assert AssignmentsMap(Defaults) == d;
    FirstConfiguration(Defaults, p);
    MemberwiseEffect(d, p.fields, k);
  }

  /** On a fresh sink, a caller that does not mention `some_field` gets the default. */
  lemma DefaultKept(p: Json)
    requires p.Object? && "some_field" !in p.fields
    ensures SetParams(New(), p).Ok?
    ensures var c := SetParams(New(), p).value.params;
      c.Object? && "some_field" in c.fields && c.fields["some_field"] == Str("default_value")
  {
    var d := map["some_field" := Str("default_value")];
    assert AssignmentsMap(Defaults) == d;
    FirstConfiguration(Defaults, p);
    MemberwiseEffect(d, p.fields, "some_field");
  }

  /** Calling `set_params` again with the same object leaves the configuration as it was. */
  lemma SetParamsTwice(p: Json)
    ensures SetParams(New(), p).Ok?
    ensures var t := SetParams(New(), p).value;
      t.params.Null? || t.params.Object? ==> SetParams(t, p) == Ok(t)
  {
    ReapplyingIsStable(Defaults, p);
  }

  /** `info` has nothing to report. */
  function Info(s: State): (r: map<string, string>)
    ensures |r| == 0
  {
    map[]
  }
}

=== FILE: text.dfy ===
/**
 * Decimal text as `std::to_string` and a `std::setw`/`std::setfill` stream
 * print it, with a reader for the same notation so the printing can be
 * checked against it.
 */
module Text {
  import opened Common

  predicate IsDigit(c: char) {
    '0' <= c <= '9'
  }

  predicate AllDigits(s: string) {
    forall i :: 0 <= i < |s| ==> IsDigit(s[i])
  }

  /** The character of a decimal digit. */
  function Digit(d: nat): (c: char)
    requires d < 10
    ensures IsDigit(c)
  {
    (('0' as int) + d) as char
  }

  /** The value of a decimal digit character. */
  function DigitValue(c: char): (d: nat)
    requires IsDigit(c)
    ensures d < 10 && Digit(d) == c
  {
    (c as int) - ('0' as int)
  }

  /** The value of a string of decimal digits, most significant first (leading zeros allowed). */
  function DigitsValue(s: string): nat
    requires AllDigits(s)
    decreases |s|
  {
    if s == [] then 0 else DigitsValue(s[..|s| - 1]) * 10 + DigitValue(s[|s| - 1])
  }

  /** `std::to_string` of a non-negative integer: its shortest decimal notation. */
  function NatToString(n: nat): (s: string)
    ensures s != [] && AllDigits(s)
    ensures s[0] == '0' ==> s == "0"
    decreases n
  {
    if n < 10 then [Digit(n)] else NatToString(n / 10) + [Digit(n % 10)]
  }

  /** `std::to_string` of an integer: a minus sign before a negative value's magnitude. */
  function IntToString(i: int): (s: string)
    ensures s != []
    ensures i >= 0 ==> AllDigits(s)
    ensures i < 0 ==> s[0] == '-' && AllDigits(s[1..])
  {
    if i < 0 then "-" + NatToString(-i) else NatToString(i)
  }

  /** Reading a decimal integer: an optional minus sign and at least one digit. */
  function ParseInt(s: string): Option<int> {
    if |s| > 1 && s[0] == '-' && AllDigits(s[1..]) then Some(0 - DigitsValue(s[1..]) as int)
    else if s != [] && AllDigits(s) then Some(DigitsValue(s))
    else None
  }

  /** Reading back the digits `NatToString` printed gives the number printed. */
  lemma {:induction false} NatToStringValue(n: nat)
    ensures DigitsValue(NatToString(n)) == n
    decreases n
  {
    if n >= 10 {
      NatToStringValue(n / 10);
      var s := NatToString(n);
      assert s[..|s| - 1] == NatToString(n / 10);
    }
  }

  /** `to_string` is read back exactly: printing loses nothing. */
  lemma IntToStringRoundTrip(i: int)
    ensures ParseInt(IntToString(i)) == Some(i)
  {
    if i < 0 {
      NatToStringValue(-i);
      assert IntToString(i)[1..] == NatToString(-i);
    } else {
      NatToStringValue(i);
    }
  }

  /** Distinct integers print differently. */
  lemma IntToStringInjective(i: int, j: int)
    requires IntToString(i) == IntToString(j)
    ensures i == j
  {
    IntToStringRoundTrip(i);
    IntToStringRoundTrip(j);
  }

  /** `out << setw(width) << setfill(fill) << s` with the default right adjustment. */
  function PadLeft(s: string, width: nat, fill: char): (r: string)
    ensures |r| == if |s| >= width then |s| else width
    ensures r[|r| - |s|..] == s
    ensures forall i :: 0 <= i < |r| - |s| ==> r[i] == fill
  {
    if |s| >= width then s else seq(width - |s|, _ => fill) + s
  }

  /** Leading zeros do not change the value of a digit string. */
  lemma {:induction false} LeadingZeros(z: nat, s: string)
    requires AllDigits(s)
    ensures AllDigits(seq(z, _ => '0') + s)
    ensures DigitsValue(seq(z, _ => '0') + s) == DigitsValue(s)
    decreases |s|
  {
    var t := seq(z, _ => '0') + s;
    if s == [] {
      assert t == seq(z, _ => '0');
      ZerosValue(z);
    } else {
      LeadingZeros(z, s[..|s| - 1]);
      assert t[..|t| - 1] == seq(z, _ => '0') + s[..|s| - 1];
    }
  }

  lemma {:induction false} ZerosValue(z: nat)
    ensures DigitsValue(seq(z, _ => '0')) == 0
    decreases z
  {
    if z > 0 {
      ZerosValue(z - 1);
      assert seq(z, _ => '0')[..z - 1] == seq(z - 1, _ => '0');
    }
  }

  /**
   * A count below 1000 printed with `setw(3) << setfill('0')` is exactly three
   * digits, and those digits read back as the count.
   */
  lemma ThreeDigits(n: int)
    requires 0 <= n < 1000
    ensures var r := PadLeft(IntToString(n), 3, '0');
      |r| == 3 && AllDigits(r) && DigitsValue(r) == n
  {
    var s := NatToString(n);
    NatToStringValue(n);
    ShortNumber(n);
    var r := PadLeft(s, 3, '0');
    if |s| < 3 {
      assert r == seq(3 - |s|, _ => '0') + s;
      LeadingZeros(3 - |s|, s);
    }
  }

  /** A number below 1000 has at most three digits. */
  lemma ShortNumber(n: nat)
    requires n < 1000
    ensures |NatToString(n)| <= 3
  {
    if n >= 10 {
      assert n / 10 < 100;
      if n / 10 >= 10 {
        assert n / 10 / 10 < 10;
        assert |NatToString(n / 10 / 10)| == 1;
        assert |NatToString(n / 10)| == 2;
      }
    }
  }
}

=== FILE: twice.dfy ===
/**
 * The `twice` filter: a vector of numbers in, the same vector scaled by a
 * configurable integer multiplier out. Its parameters are a plain record
 * rather than JSON.
 */
module Twice {
  import opened Common
  import opened Roles
  import opened Text

  /** `TwiceParams`: the multiplier defaults to 2. */
  datatype Params = Params(times: int)

  const DefaultParams: Params := Params(2)

  /** The filter's base state, the last loaded vector and the parameters. */
  datatype State = State(base: FilterState, data: seq<real>, params: Params)

  function New(): (s: State)
    ensures s.data == [] && s.params.times == 2 && s.base == NewFilter()
  {
    State(NewFilter(), [], DefaultParams)
  }

  /** `set_params`: the record is copied in. (The base call on the same record is left out.) */
  function SetParams(s: State, params: Params): (r: State)
    ensures r.params == params && r.data == s.data && r.base == s.base
  {
    s.(params := params)
  }

  /** `load_data`: the stored vector is replaced by the input. */
  function LoadData(s: State, d: seq<real>): (r: Transition<State>)
    ensures r.status == Success && r.state.data == d
    ensures r.state.params == s.params && r.state.base == s.base
  {
    Transition(Success, s.(data := d))
  }

  /** `process`: the output is cleared and refilled with every stored element times the multiplier. */
  method Process(s: State, out: seq<real>) returns (r: Step<State, seq<real>>)
    ensures r.status == Success && r.state == s
    ensures |r.out| == |s.data|
    ensures forall i :: 0 <= i < |s.data| ==> r.out[i] == s.data[i] * s.params.times as real
  {
    var scaled: seq<real> := [];
    var k := 0;
    while k < |s.data|
      invariant 0 <= k <= |s.data|
      invariant |scaled| == k
      invariant forall i :: 0 <= i < k ==> scaled[i] == s.data[i] * s.params.times as real
    {
      scaled := scaled + [s.data[k] * s.params.times as real];
      k := k + 1;
    }
    r := Step(Success, s, scaled);
  }

  /** A fresh filter processes to an empty vector, successfully. */
  method ProcessBeforeLoad(out: seq<real>) returns (r: Step<State, seq<real>>)
    ensures r.status == Success && r.out == []
  {
    r := Process(New(), out);
  }

  /** Scaling by `a` then loading the result and scaling by `b` scales by `a * b`. */
  method ScalingComposes(s: State, a: int, b: int) returns (first: seq<real>, second: seq<real>)
    ensures |second| == |s.data|
    ensures forall i :: 0 <= i < |s.data| ==> second[i] == s.data[i] * (a * b) as real
  {
    var r1 := Process(SetParams(s, Params(a)), []);
    first := r1.out;
    var r2 := Process(SetParams(LoadData(s, first).state, Params(b)), []);
    second := r2.out;
    forall i | 0 <= i < |s.data|
      ensures second[i] == s.data[i] * (a * b) as real
    {
      assert second[i] == first[i] * b as real;
      assert (a * b) as real == a as real * b as real;
    }
  }

  /** `info`: one entry, `"times"`, the multiplier in decimal. */
  function Info(s: State): (r: map<string, string>)
    ensures r.Keys == {"times"}
    ensures ParseInt(r["times"]) == Some(s.params.times)
  {
    IntToStringRoundTrip(s.params.times);
    map["times" := IntToString(s.params.times)]
  }
}

=== FILE: webcam.dfy ===
/**
 * The webcam source, without its image processing: the `mapVal` rescaling
 * it colours optical flow with, the construction defaults, and the
 * type-guarded parameter overrides of `set_params`. Whether a camera device
 * opens is a parameter.
 */
module Webcam {
  import opened Common
  import opened JsonValues
  import opened Roles
  import opened Text

  // ---------------------------------------------------------------------------
  // mapVal
  // ---------------------------------------------------------------------------

  function Min(x: real, y: real): real {
    if x <= y then x else y
  }

  function Max(x: real, y: real): real {
    if x >= y then x else y
  }

  /** `x` clamped as `max(min(x, b), a)`. */
  function Clamp(x: real, a: real, b: real): (r: real)
    ensures a <= b ==> a <= r <= b
    ensures a <= x <= b ==> r == x
  {
    Max(Min(x, b), a)
  }

  /**
   * `mapVal`: `x` is clamped into `[a, b]`, then sent affinely from `[a, b]`
   * onto `[c, d]`. The source divides by `b - a` unguarded.
   */
  function MapVal(x: real, a: real, b: real, c: real, d: real): (r: real)
    requires a != b
    ensures a < b && x <= a ==> r == c
    ensures a < b && b <= x ==> r == d
    ensures a <= x <= b ==> r == Rescale(x, a, b, c, d)
  {
    EndRatios(a, b);
    Rescale(Clamp(x, a, b), a, b, c, d)
  }

  /** Over a proper range the lower end sits at fraction 0 and the upper end at fraction 1. */
  lemma EndRatios(a: real, b: real)
    ensures a < b ==> 0.0 / (b - a) == 0.0 && (b - a) / (b - a) == 1.0
  {
    if a < b {
      ZeroRatio(b - a);
      SelfRatio(b - a);
    }
  }

  /** The affine map from `[a, b]` onto `[c, d]`, unclamped: `c` plus the share `(y - a) / (b - a)` of `d - c`. */
  function Rescale(y: real, a: real, b: real, c: real, d: real): (r: real)
    requires a != b
    ensures r == c + (d - c) * ((y - a) / (b - a))
  {
    MulDiv(d - c, y - a, b - a);
    c + (d - c) * (y - a) / (b - a)
  }

  /** The sign of a product with a positive factor is the sign of the other factor. */
  lemma ProductSign(x: real, m: real)
    requires m > 0.0
    ensures x < 0.0 ==> x * m < 0.0
    ensures x >= 0.0 ==> x * m >= 0.0
  {
  }

  /** `n / m` for `0 <= n <= m` lies in `[0, 1]`. */
  lemma RatioInUnit(n: real, m: real)
    requires 0.0 <= n <= m && m > 0.0
    ensures 0.0 <= n / m <= 1.0
  {
    var q := n / m;
    assert q * m == n;
    ProductSign(q, m);
    ProductSign(q - 1.0, m);
  }

  /** Division by a positive number distributes over a difference. */
  lemma DivSub(n1: real, n2: real, m: real)
    requires m > 0.0
    ensures (n2 - n1) / m == n2 / m - n1 / m
  {
    var q1 := n1 / m;
    var q2 := n2 / m;
    var q := (n2 - n1) / m;
    assert q1 * m == n1 && q2 * m == n2 && q * m == n2 - n1;
    assert (q - (q2 - q1)) * m == 0.0;
    ProductSign(q - (q2 - q1), m);
    ProductSign((q2 - q1) - q, m);
  }

  /** Dividing by a positive number keeps the order. */
  lemma RatioMonotone(n1: real, n2: real, m: real)
    requires n1 <= n2 && m > 0.0
    ensures n1 / m <= n2 / m
  {
    DivSub(n1, n2, m);
    var q := (n2 - n1) / m;
    assert q * m == n2 - n1;
    ProductSign(q, m);
  }

  /** A factor can be taken out of a quotient. */
  lemma MulDiv(k: real, n: real, m: real)
    requires m != 0.0
    ensures k * n / m == k * (n / m)
  {
    var q := n / m;
    var p := k * n / m;
    assert q * m == n && p * m == k * n;
    assert (p - k * q) * m == 0.0;
    var z := p - k * q;
    if m > 0.0 {
      ProductSign(z, m);
      ProductSign(-z, m);
    } else {
      assert z * (-m) == 0.0;
      ProductSign(z, -m);
      ProductSign(-z, -m);
    }
  }

  /** A positive number divided by itself is one. */
  lemma SelfRatio(m: real)
    requires m > 0.0
    ensures m / m == 1.0
  {
    var q := m / m;
    assert q * m == m;
    assert (q - 1.0) * m == 0.0;
    ProductSign(q - 1.0, m);
    ProductSign(1.0 - q, m);
  }

  /** Multiplying by a non-negative number keeps the order. */
  lemma ScaleMonotone(k: real, t1: real, t2: real)
    requires k >= 0.0 && t1 <= t2
    ensures k * t1 <= k * t2
  {
    assert k * t2 - k * t1 == k * (t2 - t1);
  }

  /** The position of `x` within `[a, b]`, after clamping, as a fraction of the interval. */
  function Fraction(x: real, a: real, b: real): (t: real)
    requires a < b
    ensures 0.0 <= t <= 1.0
  {
    RatioInUnit(Clamp(x, a, b) - a, b - a);
    (Clamp(x, a, b) - a) / (b - a)
  }

  /** `mapVal` is `c` plus the fraction of the way across `[c, d]`. */
  lemma MapValIsAffine(x: real, a: real, b: real, c: real, d: real)
    requires a < b
    ensures MapVal(x, a, b, c, d) == c + (d - c) * Fraction(x, a, b)
  {
    assert MapVal(x, a, b, c, d) == Rescale(Clamp(x, a, b), a, b, c, d);
  }

  /** Values outside `[a, b]` go to the nearer end of `[c, d]`. */
  lemma MapValSaturates(x: real, a: real, b: real, c: real, d: real)
    requires a < b
    ensures x <= a ==> MapVal(x, a, b, c, d) == c
    ensures x >= b ==> MapVal(x, a, b, c, d) == d
  {
    MapValIsAffine(x, a, b, c, d);
    if x >= b {
      assert Clamp(x, a, b) == b;
      SelfRatio(b - a);
      assert Fraction(x, a, b) == 1.0;
    }
    if x <= a {
      assert Clamp(x, a, b) == a;
      ZeroRatio(b - a);
      assert Fraction(x, a, b) == 0.0;
    }
  }

  /** Zero divided by a positive number is zero. */
  lemma ZeroRatio(m: real)
    requires m > 0.0
    ensures 0.0 / m == 0.0
  {
    var q := 0.0 / m;
    assert q * m == 0.0;
    ProductSign(q, m);
    ProductSign(-q, m);
  }

  /** With `c <= d`, every result lies in `[c, d]`, and the map never decreases. */
  lemma MapValBoundedAndMonotone(x: real, y: real, a: real, b: real, c: real, d: real)
    requires a < b && c <= d
    ensures c <= MapVal(x, a, b, c, d) <= d
    ensures x <= y ==> MapVal(x, a, b, c, d) <= MapVal(y, a, b, c, d)
  {
    MapValBounded(x, a, b, c, d);
    if x <= y {
      MapValMonotone(x, y, a, b, c, d);
    }
  }

  lemma MapValBounded(x: real, a: real, b: real, c: real, d: real)
    requires a < b && c <= d
    ensures c <= MapVal(x, a, b, c, d) <= d
  {
    MapValIsAffine(x, a, b, c, d);
    AffineInRange(MapVal(x, a, b, c, d), c, d, Fraction(x, a, b));
  }

  /** `c` plus a fraction in `[0, 1]` of the way to `d >= c` lies in `[c, d]`. */
  lemma AffineInRange(m: real, c: real, d: real, t: real)
    requires c <= d && 0.0 <= t <= 1.0 && m == c + (d - c) * t
    ensures c <= m <= d
  {
    ScaleMonotone(d - c, 0.0, t);
    ScaleMonotone(d - c, t, 1.0);
  }

  lemma MapValMonotone(x: real, y: real, a: real, b: real, c: real, d: real)
    requires a < b && c <= d && x <= y
    ensures MapVal(x, a, b, c, d) <= MapVal(y, a, b, c, d)
  {
    MapValIsAffine(x, a, b, c, d);
    MapValIsAffine(y, a, b, c, d);
    assert Clamp(x, a, b) <= Clamp(y, a, b);
    RatioMonotone(Clamp(x, a, b) - a, Clamp(y, a, b) - a, b - a);
    assert Fraction(x, a, b) <= Fraction(y, a, b);
    ScaleMonotone(d - c, Fraction(x, a, b), Fraction(y, a, b));
  }

  /** A non-zero factor cancels in a quotient. */
  lemma CancelFactor(t: real, m: real)
    requires m > 0.0
    ensures (m * t) / m == t
  {
    var q := (m * t) / m;
    assert q * m == m * t;
    assert (q - t) * m == 0.0;
    ProductSign(q - t, m);
    ProductSign(t - q, m);
  }

  /** Rescaling back from `[c, d]` to `[a, b]` recovers any `x` that was inside `[a, b]`. */
  lemma MapValRoundTrip(x: real, a: real, b: real, c: real, d: real)
    requires a < b && c < d && a <= x <= b
    ensures MapVal(MapVal(x, a, b, c, d), c, d, a, b) == x
  {
    MapValBounded(x, a, b, c, d);
    MapValIsAffine(x, a, b, c, d);
    var y := MapVal(x, a, b, c, d);
    var t := Fraction(x, a, b);
    assert t == (x - a) / (b - a);
    assert t * (b - a) == x - a;
    assert y - c == (d - c) * t;
    assert Clamp(y, c, d) == y;
    CancelFactor(t, d - c);
    calc {
      Fraction(y, c, d);
      (y - c) / (d - c);
      { assert y - c == (d - c) * t; }
      ((d - c) * t) / (d - c);
      t;
    }
    MapValIsAffine(y, c, d, a, b);
  }

  // ---------------------------------------------------------------------------
  // The plugin's settings
  // ---------------------------------------------------------------------------

  /** The source's base state, the parameters last given, and the settings they can override. */
  datatype State = State(base: SourceState, params: Json, device: int, histSize: int, scale: real,
                         imageName: string, flip: bool)

  const UnableToOpen: string := "Error: Unable to open webcam"

  /** The constructor: error text "none", blob format "jpg", device 0, 20 bins, scale 0.3, "image.jpg", no flip. */
  function New(): (s: State)
    ensures s.base.blobFormat == "jpg" && s.base.error == "none"
    ensures s.device == 0 && s.histSize == 20 && s.scale == 0.3 && s.imageName == "image.jpg" && !s.flip
  {
    var b := NewSource();
    State(b.(error := "none", blobFormat := "jpg"), Null, 0, 20, 0.3, "image.jpg", false)
  }

  /** The constructor overrides the base's "none" blob format with "jpg". */
  lemma BlobFormatIsJpg()
    ensures NewSource().blobFormat == "none" && New().base.blobFormat == "jpg"
  {
  }

  /**
   * `set_params`: the argument is stored as the parameters (the base is not
   * called); `device`, when present, is read as an `int`, and a device that
   * does not open throws. Then each of `hist_size`, `image_name`, `scale`
   * and `flip` replaces its setting only when present with the right JSON
   * type.
   */
  function SetParams(s: State, p: Json, opens: int -> bool): (r: Result<State>)
    ensures var device := if Contains(p, "device") then AsInt32(p.fields["device"]) else Ok(s.device);
      && (r.Ok? <==> device.Ok? && opens(device.value))
      && (device.Ok? && !opens(device.value) ==> r == Throws(UnableToOpen))
      && (r.Ok? ==> r.value.device == device.value)
    ensures r.Ok? ==> r.value.base == s.base && r.value.params == p
  {
    var device :- if Contains(p, "device") then AsInt32(p.fields["device"]) else Ok(s.device);
    if !opens(device) then Throws(UnableToOpen)
    else
      var histSize := if Contains(p, "hist_size") && p.fields["hist_size"].IsNumber()
                      then AsInt32(p.fields["hist_size"]).value else s.histSize;
      var imageName := if Contains(p, "image_name") && p.fields["image_name"].Str?
                       then p.fields["image_name"].s else s.imageName;
      var scale := if Contains(p, "scale") && p.fields["scale"].IsNumber()
                   then AsReal(p.fields["scale"]).value else s.scale;
      var flip := if Contains(p, "flip") && p.fields["flip"].Bool? then p.fields["flip"].b else s.flip;
      Ok(s.(params := p, device := device, histSize := histSize, imageName := imageName, scale := scale, flip := flip))
  }

  /**
   * Each guarded setting changes only when its member is present with the
   * right type, and then takes that member's value; everything else, the
   * base included, is left alone.
   */
  lemma GuardedOverrides(s: State, p: Json, opens: int -> bool)
    requires SetParams(s, p, opens).Ok?
    ensures var t := SetParams(s, p, opens).value;
      && t.base == s.base && t.params == p
      && (t.histSize != s.histSize ==> Contains(p, "hist_size") && p.fields["hist_size"].IsNumber())
      && ((Contains(p, "hist_size") && p.fields["hist_size"].Int? && -0x8000_0000 <= p.fields["hist_size"].i < 0x8000_0000)
            ==> t.histSize == p.fields["hist_size"].i)
      && (t.imageName == if Contains(p, "image_name") && p.fields["image_name"].Str? then p.fields["image_name"].s else s.imageName)
      && (t.scale != s.scale ==> Contains(p, "scale") && p.fields["scale"].IsNumber())
      && (Contains(p, "scale") && p.fields["scale"].Float? ==> t.scale == p.fields["scale"].r)
      && (t.flip == if Contains(p, "flip") && p.fields["flip"].Bool? then p.fields["flip"].b else s.flip)
  {
  }

  /** Members of the wrong type are ignored: a fresh plugin keeps 20, "image.jpg", 0.3 and no flip. */
  lemma WrongTypesKeepDefaults(p: Json, opens: int -> bool)
    requires !Contains(p, "device") && opens(0)
    requires Contains(p, "hist_size") ==> !p.fields["hist_size"].IsNumber()
    requires Contains(p, "image_name") ==> !p.fields["image_name"].Str?
    requires Contains(p, "scale") ==> !p.fields["scale"].IsNumber()
    requires Contains(p, "flip") ==> !p.fields["flip"].Bool?
    ensures SetParams(New(), p, opens) == Ok(New().(params := p))
  {
  }

  /** A device that does not open makes `set_params` throw "Error: Unable to open webcam". */
  lemma UnopenedDeviceThrows(s: State, p: Json, opens: int -> bool)
    requires !Contains(p, "device") && !opens(s.device)
    ensures SetParams(s, p, opens) == Throws(UnableToOpen)
  {
  }

  /**
   * `info`: the device, the image name, the number of bins, the scale (as
   * `to_string` writes a float, here a parameter) and the flip as "yes" or
   * "no".
   */
  function Info(s: State, showReal: real -> string): (r: map<string, string>)
    ensures r.Keys == {"device", "image_name", "hist_size", "scale", "flip"}
    ensures r["flip"] == (if s.flip then "yes" else "no")
    ensures ParseInt(r["device"]) == Some(s.device) && ParseInt(r["hist_size"]) == Some(s.histSize)
    ensures r["image_name"] == s.imageName
  {
    IntToStringRoundTrip(s.device);
    IntToStringRoundTrip(s.histSize);
    map["device" := IntToString(s.device), "image_name" := s.imageName, "hist_size" := IntToString(s.histSize),
        "scale" := showReal(s.scale), "flip" := if s.flip then "yes" else "no"]
  }
}

=== FILE: worker.dfy ===
/**
 * The worker filter: `load_data` takes a requested sleep period and a job
 * identifier from the input's `data` object, and `process` reports them back
 * after sleeping. The sleep and its measured duration are outside the model;
 * the measured duration is a parameter.
 */
module Worker {
  import opened Common
  import opened JsonValues
  import opened JsonMergePatch
  import opened Roles

  /**
   * The filter's base state, the requested period in milliseconds and the job
   * identifier. The period is uninitialised in the source until the first
   * `load_data`; the model starts it at zero.
   */
  datatype State = State(base: FilterState, sleepRequest: int, id: string)

  const NoData: string := "No data field in input"
  const InvalidSleep: string := "Invalid sleep period"
  const DefaultPeriod: int := 100

  function New(): (s: State)
    ensures s.base == NewFilter() && s.id == ""
  {
    State(NewFilter(), 0, "")
  }

  /**
   * `load_data`: an input without a `data` member is an error that leaves the
   * period and identifier alone; otherwise `data.period` (as `int`, default
   * 100) and `data.id` (as a string, default empty) are stored. A `data` that
   * is not an object, or members of the wrong type, make `value()` throw.
   */
  function LoadData(s: State, input: Json): (r: Result<Transition<State>>)
    ensures !Contains(input, "data") ==> r == Ok(Transition(Error, s.(base := s.base.(error := NoData))))
    ensures Contains(input, "data") && !input.fields["data"].Object? ==> r.Throws?
    ensures Contains(input, "data") && input.fields["data"].Object? ==>
      var data := input.fields["data"].fields;
      var period := if "period" in data then AsInt32(data["period"]) else Ok(DefaultPeriod);
      var id := if "id" in data then AsString(data["id"]) else Ok("");
      && (r.Ok? <==> period.Ok? && id.Ok?)
      && (r.Ok? ==> r.value == Transition(Success, s.(sleepRequest := period.value, id := id.value)))
  {
    if !Contains(input, "data") then
      Ok(Transition(Error, s.(base := s.base.(error := NoData))))
    else
      var data := input.fields["data"];
      var period :- ValueOr(data, "period", DefaultPeriod, AsInt32);
      var id :- ValueOr(data, "id", "", AsString);
      Ok(Transition(Success, s.(sleepRequest := period, id := id)))
  }

  /** The report of a completed sleep, with `agent_id` when the agent id is not empty. */
  function Report(requested: int, elapsed: real, id: string, agentId: string): Json {
    Tagged(map["requested" := Int(requested), "elapsed" := Float(elapsed), "id" := Str(id)], agentId)
  }

  /**
   * `process`: the output is cleared first; a negative period is an error,
   * otherwise the period, the measured `elapsed` milliseconds and the
   * identifier are reported.
   */
  function Process(s: State, out: Json, elapsed: real): (r: Result<Step<State, Json>>)
    ensures s.sleepRequest < 0 ==> r == Ok(Step(Error, s.(base := s.base.(error := InvalidSleep)), Clear(out)))
    ensures s.sleepRequest >= 0 && (out.Null? || out.Object?) ==>
      r == Ok(Step(Success, s, Report(s.sleepRequest, elapsed, s.id, s.base.agentId)))
    ensures s.sleepRequest >= 0 && !(out.Null? || out.Object?) ==> r.Throws?
  {
    var cleared := Clear(out);
    if s.sleepRequest < 0 then
      Ok(Step(Error, s.(base := s.base.(error := InvalidSleep)), cleared))
    else
      var o1 :- Put(cleared, "requested", Int(s.sleepRequest));
      var o2 := Put(o1, "elapsed", Float(elapsed)).value;
      var o3 := Put(o2, "id", Str(s.id)).value;
      Ok(Step(Success, s, Tagged(o3.fields, s.base.agentId)))
  }

  /**
   * A loaded non-negative period and its identifier are what the next
   * `process` reports, whatever the output held before.
   */
  lemma ProcessReportsLoadedJob(s: State, period: int, id: string, out: Json, elapsed: real)
    requires 0 <= period < 0x8000_0000 && (out.Null? || out.Object?)
    ensures var input := Object(map["data" := Object(map["period" := Int(period), "id" := Str(id)])]);
      && LoadData(s, input).Ok?
      && var t := LoadData(s, input).value.state;
         Process(t, out, elapsed) == Ok(Step(Success, t, Report(period, elapsed, id, s.base.agentId)))
  {
  }

  /** A `data` object without the two members loads the defaults: 100 ms and an empty identifier. */
  lemma LoadDefaults(s: State, input: Json)
    requires Contains(input, "data") && input.fields["data"] == EmptyObject
    ensures LoadData(s, input) == Ok(Transition(Success, s.(sleepRequest := 100, id := "")))
  {
  }

  /**
   * `set_params`: the base stores the caller's object and binds the agent id,
   * then the same object is merge-patched onto it; there are no defaults.
   */
  function SetParams(s: State, p: Json): (r: State)
    ensures r.sleepRequest == s.sleepRequest && r.id == s.id
    ensures r.base.agentId == FilterSetParams(s.base, p).agentId
  {
    var b := FilterSetParams(s.base, p);
    s.(base := b.(params := MergePatch(b.params, p)))
  }

  /**
   * The worker's configuration is the caller's object with its null members
   * dropped (section 2 of RFC 7396), plus the null agent id the base inserted
   * when the caller gave none; a non-object argument is kept as it is.
   */
  lemma ConfigurationIsCallerObject(s: State, p: Json)
    ensures p.Object? ==>
      SetParams(s, p).base.params
        == Object(MergePatch(EmptyObject, p).fields + (if "agent_id" in p.fields then map[] else map["agent_id" := Null]))
    ensures !p.Object? ==> SetParams(s, p).base.params == p
  {
    var b := BindAgentId(p, "").params;
    assert SetParams(s, p).base.params == MergePatch(b, p);
    if p.Object? {
      PatchOverBoundObject(p.fields);
    }
  }

  /** Patching an object onto itself as the base bound it leaves the object without nulls, plus the inserted agent id. */
  lemma PatchOverBoundObject(pm: map<string, Json>)
    ensures var extra: map<string, Json> := if "agent_id" in pm then map[] else map["agent_id" := Null];
      MergePatch(BindAgentId(Object(pm), "").params, Object(pm)) == Object(MergePatch(EmptyObject, Object(pm)).fields + extra)
  {
    var extra: map<string, Json> := if "agent_id" in pm then map[] else map["agent_id" := Null];
    BoundObject(pm, "");
    assert pm + extra + map[] == pm + extra;
    SeededPatch(pm, map[], extra);
  }
}
